=== FILE: README.md ===
# r_path-finding search core in Dafny

This project models the search engine of `r_path-finding`, a small program
in which the user places a start tile, an end tile and obstacles on a tile
grid, and then watches one of four searches move across the grid. Each
search is a per-step state machine: one frontier pop per ready frame.

The model covers:

- **the tile grid**:
  - construction, designation by mouse click and pixel-to-cell conversion;
  - visited, queued and path marking, obstacle test and reset;
- **the shared search pieces**:
  - the four move directions in the order Up, Down, Left, Right, and the neighbour rule;
  - the double-ended priority queue (push that updates a queued cell in place, pop of a minimum);
  - the predecessor map with its goal-to-start walk;
  - the cost relaxation that Dijkstra and A* share;
- **the four searches**:
  - breadth-first search (`Bfs`);
  - Dijkstra's algorithm;
  - greedy best-first search;
  - A*;
- **the application layer**:
  - the mouse-action state machine (`SetStartPoint` → `SetEndPoint` → `StartSimulation` → `EndSimulation`);
  - the left-click, right-click, Escape and frame-update handlers, over the three searches that implement the algorithm interface.

Everything is a pure function over immutable datatypes. A panic of the
program (an `unwrap` of a missing endpoint, a missing predecessor entry, a
missing cost, an out-of-range index) is a `Fault` result. Most lemmas show
that the faults cannot happen under the run invariants. The wall-clock gate
(`is_ready_to_execute`, or BFS's accumulated time) is a `ready` flag passed
by the caller. The grid's `cost` and `heuristic` are a `Metric` of two
uninterpreted integer functions. The invariant lemmas only require the
step cost is positive.

Tiles are stored column-major, `tiles[x][y]` with `columns` outer vectors,
because every access in the program indexes them that way. `Grid::new`
builds them row-major (see Findings).

The model follows the code where it differs from what its names and
comments suggest, or from the sibling searches:

- A* queues a neighbour at `new_cost + heuristic(current, neighbour)`
  (`src/algorithm/a_star.rs:86`). This is a heuristic from the current
  cell, not the neighbour-to-goal heuristic that greedy best-first uses
  (`src/algorithm/greedy_bfs.rs:76`).
- Dijkstra's `start` (`src/algorithm/dijkstra.rs:68-79`) never calls
  `start_processing`, whereas greedy best-first's does
  (`src/algorithm/greedy_bfs.rs:43`).
- A Dijkstra run whose frontier runs dry without reaching the goal only
  stops processing (`src/algorithm/dijkstra.rs:119-121`). It never
  reports completion, although the comment "Check if goal is unreachable"
  leads greedy best-first and A* to complete in that case
  (`src/algorithm/greedy_bfs.rs:83-88`, `src/algorithm/a_star.rs:91-95`).
- Dijkstra's "Visited nodes" figure (`src/algorithm/dijkstra.rs:56`)
  counts pushes, re-pushes included (`src/algorithm/dijkstra.rs:110`).
- BFS's `start` queues the start cell without adding it to the visited
  list (`src/algorithm/bfs.rs:40`), whereas greedy best-first records it
  (`src/algorithm/greedy_bfs.rs:42`). A neighbour of the start therefore
  discovers the start again and queues it a second time
  (`src/algorithm/bfs.rs:81-90`). `BreadthFirst.SecondStepRequeuesStart`
  shows this on a 10×10 grid. The BFS run invariant allows the start in
  the queue without its being discovered.

Files: `wrappers.dfy`, `map_types.dfy`, `grid.dfy`, `search_common.dfy`,
`priority_queue.dfy`, `pathfinder.dfy`, `relaxation.dfy`, `bfs.dfy`,
`dijkstra.dfy`, `greedy_bfs.dfy`, `a_star.dfy`, `app.dfy`.

## Model

| member | source | states |
|---|---|---|
| Grids.New | src/map/grid.rs:26-50 | The grid has ⌊width/tile⌋ columns and ⌊height/tile⌋ rows at the given offset, every tile is unvisited `Normal`, and there is no start or end. |
| Grids.TileCountOfValid | src/map/grid.rs:130-132 | A grid holds exactly columns × rows tiles. |
| Grids.GridCreationTest | src/map/grid.rs:127-146 | The unit test: 25 tiles, (3,3) visited, and the clicks at (15,15), (21,36) and (41,20) give Start at (1,1), End at (2,3) and Obstacle at (4,2), with start and end recorded. |
| Grids.CellAt | src/map/grid.rs:58-59 | The cell computed from an in-rectangle pixel is in the grid and is the only cell whose square holds the pixel. |
| Grids.OnMouseClicked | src/map/grid.rs:52-71 | A click outside the grid rectangle changes nothing. A click inside writes the tile on exactly the cell under the cursor. Only a Start or End click moves the recorded start or end, to that cell. |
| Grids.MarkUnlessEndpoint | src/map/grid.rs:73-82 | The guarded write: out-of-bounds cells and Start/End tiles are left alone; any other cell takes the tile; nothing else changes. |
| Grids.MarkVisited | src/map/grid.rs:73-82 | `mark_visited`: the cell becomes `Normal{visited}` unless it is outside the grid or holds Start/End; no other cell and neither endpoint changes. |
| Grids.MarkProcess | src/algorithm/dijkstra.rs:111 | `mark_process` follows the same guarded rule with the `Process` tile. |
| Grids.IsObstacle | src/map/grid.rs:87-89 | The obstacle test the neighbour rule uses: a cell blocks a search iff its tile is `Obstacle`. Start, End, visited, queued and path tiles never block. |
| Grids.MarkPath | src/map/grid.rs:84-86 | The cell becomes `Path`, over Start and End too; no other cell changes. |
| Grids.MarkPathAll | src/algorithm/greedy_bfs.rs:65-67 | Marking a path succeeds iff every cell is in the grid. It then turns exactly those cells into `Path`. |
| Grids.Reset | src/algorithm/dijkstra.rs:126-129 | The grid keeps its shape, every tile is unvisited `Normal`, and start and end are cleared. |
| Grids.MarkVisitedRowMajor | src/map/grid.rs:73-82 | `mark_visited` over the row-major table as built: it panics exactly when the bounds guard admits a cell the table cannot address. |
| Grids.RowMajorMarkVisitedPanics | src/map/grid.rs:26-37 | On a 6×4 grid the guard admits (5,0) but the row-major table panics there; the column-major model marks it. |
| Grids.RowMajorSquareIsSafe | src/lib.rs:79 | On a square grid, the only shape the application builds, the row-major table never panics. |
| SearchCommon.Delta | src/algorithm/mod.rs:6-12 | Each direction moves exactly one axis by one; Up is towards smaller y, Down larger y, Left smaller x, Right larger x. |
| SearchCommon.Candidate | src/algorithm/bfs.rs:62-79 | The signed bounds test yields an in-grid cell adjacent to the current one in the given direction, or nothing. |
| SearchCommon.CandidateComplete | src/algorithm/bfs.rs:62-79 | Every in-grid adjacent cell is the candidate of its own direction. |
| SearchCommon.Neighbours | src/algorithm/bfs.rs:62-83 | A cell is a neighbour iff it is in the grid, not an obstacle and one move away. Neighbours come in Up, Down, Left, Right order, without repetition, at most four. |
| SearchCommon.NeighboursIgnoreOwnTile | src/algorithm/dijkstra.rs:99-101 | Marking the current cell visited does not change its neighbours. |
| SearchCommon.NeighboursSameObstacles | src/algorithm/bfs.rs:81-84 | Grids with the same shape and obstacles give the same neighbours, so marking tiles never changes the graph. |
| SearchCommon.DiscoveryUsesCells | src/algorithm/bfs.rs:81-85 | Recording new distinct grid cells shrinks the set of unrecorded cells by their number. |
| PriorityQueues.Push | src/algorithm/dijkstra.rs:114 | After a push the cell is queued at the new priority and every other cell keeps its priority. The length grows only for a new cell, and cells stay unique. |
| PriorityQueues.PopMin | src/algorithm/dijkstra.rs:88 | The pop gives nothing iff the queue is empty. Otherwise it takes an entry whose priority is minimal and leaves the queue minus exactly that entry. |
| PriorityQueues.PopMinPriorities | src/algorithm/dijkstra.rs:88 | With unique cells, the popped priority is the cell's queued priority and the others keep theirs. |
| Pathfinding.Walk | src/algorithm/dijkstra.rs:32-42 | A successful walk starts at the given cell and follows recorded predecessors to a cell without one. A failed walk is a missing entry or a cycle. |
| Pathfinding.TraceSucceeds | src/algorithm/dijkstra.rs:32-42 | If every predecessor is recorded and ranks below its successor, the walk from a recorded cell neither breaks nor cycles. |
| Pathfinding.AddToPath | src/algorithm/greedy_bfs.rs:80 | Records the cell's predecessor and leaves every other entry and the path alone. |
| Pathfinding.ReconstructPath | src/algorithm/greedy_bfs.rs:63 | The new path is the chain from the goal through recorded predecessors; reconstruction fails iff the walk does. |
| Relaxation.Seed | src/algorithm/dijkstra.rs:74-76 | The start is queued at priority 0, costs 0 and has no predecessor. |
| Relaxation.RelaxOne | src/algorithm/dijkstra.rs:104-117 | A neighbour is updated iff it is unseen or strictly cheaper through the current cell. If updated, it gets that cost, the current cell as predecessor, a queue entry at its key and a `Process` tile; otherwise nothing changes. |
| Relaxation.RelaxAllUpdated | src/algorithm/dijkstra.rs:103-118 | Exactly the unseen or strictly improved neighbours are updated, each to its cost through the current cell; all other costs stay. |
| Relaxation.RelaxAllMonotone | src/algorithm/dijkstra.rs:103-118 | No cost rises, and afterwards no neighbour costs more than the route through the current cell. |
| Relaxation.RelaxAllLinks | src/algorithm/dijkstra.rs:115-116 | Updated neighbours get the current cell as predecessor; no other entry changes. |
| Relaxation.RelaxAllFrontier | src/algorithm/dijkstra.rs:113-114 | Updated neighbours are queued at their key through the current cell. |
| Relaxation.RelaxAllFrontierKept | src/algorithm/dijkstra.rs:103-118 | A queued cell that is not updated stays queued at its old priority. |
| Relaxation.RelaxAllFrontierKeys | src/algorithm/dijkstra.rs:113-114 | The queue afterwards holds exactly the cells queued before plus the updated neighbours. |
| Relaxation.RelaxAllPreservesInv | src/algorithm/dijkstra.rs:103-118 | Relaxation keeps the cost-table invariant: queued cells have costs; the start costs 0 and alone has no predecessor; each predecessor is adjacent and at least one step cheaper. |
| Relaxation.RelaxAllDescends | src/algorithm/dijkstra.rs:103-118 | The relaxation loop never leaves more cells without a cost. If it updates any neighbour, it records a new cell or lowers the sum of the recorded costs over the grid. |
| Relaxation.PopRelaxDescends | src/algorithm/dijkstra.rs:89-118 | A pop followed by the relaxation of the popped cell's neighbours descends in the lexicographic order of uncosted cells, cost total and queue length. |
| Relaxation.CostTotalNonNegative | src/algorithm/dijkstra.rs:103-118 | Under the cost invariant the cost total is never negative, so the descent order is well founded. |
| Relaxation.TraceFromRecorded | src/algorithm/dijkstra.rs:32-42 | From any recorded cell the walk succeeds, never reaching the "Title coord does not exist" abort. It ends at the start through adjacent in-grid cells and costs no more than the recorded cost. |
| BreadthFirst.GoalReached | src/algorithm/bfs.rs:25-32 | Reports true iff the cell is the goal, and then stops the search; nothing else changes. |
| BreadthFirst.Start | src/algorithm/bfs.rs:34-42 | Without both endpoints nothing happens. Otherwise the start is queued and the search runs. |
| BreadthFirst.Expand | src/algorithm/bfs.rs:62-92 | The direction loop keeps the grid's shape and endpoints, only appends to the discovered list and does not count a step. What it discovers and queues is stated by the `Expand*` rows. |
| BreadthFirst.ExpandOne | src/algorithm/bfs.rs:81-91 | A discovered cell (in the grid, unvisited, not an obstacle) is marked and recorded. The goal stops the loop without being queued; any other discovered cell is queued. |
| BreadthFirst.ExpandDiscovers | src/algorithm/bfs.rs:62-92 | The loop appends to the visited list neighbours not seen before, distinct and in direction order. |
| BreadthFirst.ExpandQueuesAll | src/algorithm/bfs.rs:81-91 | If the goal is not discovered, every discovery is queued and the running flag stays. |
| BreadthFirst.ExpandStopsAtGoal | src/algorithm/bfs.rs:84-89 | If the goal is discovered, it is the last discovery, it is not queued, and the search stops. |
| BreadthFirst.ExpandComplete | src/algorithm/bfs.rs:62-92 | A loop that does not stop discovers every unseen neighbour. |
| BreadthFirst.ExpandGrid | src/algorithm/bfs.rs:81-91 | The loop writes only the tiles of the cells it discovers, adds or removes no obstacle, and leaves Start and End in place. |
| BreadthFirst.Update | src/algorithm/bfs.rs:44-100 | Not running or not ready: nothing happens. An empty queue stops the search. Otherwise one step is counted, and the step aborts iff the end is unset. |
| BreadthFirst.UpdateExpands | src/algorithm/bfs.rs:58-96 | One step counts itself, and the cells it discovers are distinct, unseen neighbours of the popped cell, in direction order. |
| BreadthFirst.UpdatePreservesInv | src/algorithm/bfs.rs:44-100 | From the run invariant a step never panics and keeps the invariant. |
| BreadthFirst.UpdateProgress | src/algorithm/bfs.rs:44-100 | Every running step ends the search or strictly lowers the measure of undiscovered cells and queue length, so a run stops. |
| BreadthFirst.FirstStepQueuesNeighbours | src/algorithm/bfs.rs:58-96 | The first step from a start with four free neighbours, and the end elsewhere, queues those four in Up, Down, Left, Right order. |
| BreadthFirst.SecondStepRequeuesStart | src/algorithm/bfs.rs:34-42 | The start is queued but not recorded as discovered. On the 10×10 scenario grid the second step, which pops (3,2), discovers the start (3,3) again and puts it back in the queue. |
| BreadthFirst.FirstStepScenario | src/algorithm/bfs.rs:58-96 | On any 10×10 grid with start (3,3), end (9,9) and every other tile blank, the first step succeeds, queues (3,2), (3,4), (2,3), (4,3) in that order, counts one step and keeps the search running. |
| DijkstraSearch.Start | src/algorithm/dijkstra.rs:68-79 | Fails with `InvalidInputData` iff an endpoint is missing. Otherwise the start is queued at cost 0 without a predecessor, and the coordinator is untouched. |
| DijkstraSearch.ReachGoal | src/algorithm/dijkstra.rs:32-47 | Marks the run completed, keeps the cost tables and extends the path. Only the appended cells change on the grid; it aborts only on a broken walk from the goal or an off-grid cell. |
| DijkstraSearch.Expand | src/algorithm/dijkstra.rs:99-118 | It aborts iff the cell has no recorded cost and has neighbours. Otherwise the grid keeps its shape and endpoints, the path and coordinator are untouched, and the visited list only grows at its end. |
| DijkstraSearch.Step | src/algorithm/dijkstra.rs:83-122 | Not ready: no-op. An empty queue only stops processing and does not complete the run. A pop counts a step, and it aborts with the missing-endpoint panic if the goal is unset. Under the run invariant no step aborts (`StepPreservesInv`). |
| DijkstraSearch.HasCompleted | src/algorithm/dijkstra.rs:133-135 | `has_completed` reads the coordinator's completion flag. `StepCompletion` states when a step can set it. |
| DijkstraSearch.StepCompletion | src/algorithm/dijkstra.rs:83-122 | A step of a run that has not completed completes it only by popping the goal. Neither a dry frontier nor an expansion sets the flag. |
| DijkstraSearch.Reset | src/algorithm/dijkstra.rs:126-129 | A fresh, not completed search and a blank grid without endpoints. |
| DijkstraSearch.Stats | src/algorithm/dijkstra.rs:50-61 | The figures are path length, steps, and the number of pushes. |
| DijkstraSearch.StartEstablishesInv | src/algorithm/dijkstra.rs:68-79 | A started search satisfies the run invariant. |
| DijkstraSearch.PopsCheapest | src/algorithm/dijkstra.rs:88 | The popped cell has the lowest cost of all queued cells. |
| DijkstraSearch.StepPreservesInv | src/algorithm/dijkstra.rs:83-122 | From the run invariant no step aborts and the invariant is kept. |
| DijkstraSearch.ReachGoalDrawsPath | src/algorithm/dijkstra.rs:32-47 | Reaching the goal completes the run with a goal-to-start path of adjacent cells, costing at most the goal's recorded cost, drawn as `Path`. |
| DijkstraSearch.StepReachingGoal | src/algorithm/dijkstra.rs:94-98 | Popping the goal is the early exit, and it succeeds. |
| DijkstraSearch.ExpandRelaxes | src/algorithm/dijkstra.rs:99-118 | Exactly the unseen or strictly cheaper neighbours are pushed and appended to the visited list, each with its cost through the cell as cost and priority and the cell as predecessor. No cost rises, every other predecessor and queued priority stays, and the queue gains exactly the pushed cells. |
| DijkstraSearch.StepProgress | src/algorithm/dijkstra.rs:87-118 | A ready step on a non-empty queue completes the run if it pops the goal; otherwise the tables descend: fewer cells without a cost, or a smaller cost total, or a shorter queue. |
| DijkstraSearch.StepExpanding | src/algorithm/dijkstra.rs:99-118 | A step that pops any other cell is that cell's expansion and succeeds. |
| GreedyBestFirst.Start | src/algorithm/greedy_bfs.rs:34-46 | Fails iff an endpoint is missing. Otherwise the start is queued at 0, recorded as seen and without a predecessor, and processing starts. |
| GreedyBestFirst.Discover | src/algorithm/greedy_bfs.rs:74-81 | A seen neighbour is skipped. An unseen one is queued at its heuristic to the goal, recorded as seen, drawn as queued and linked to the current cell. |
| GreedyBestFirst.DiscoverAllFound | src/algorithm/greedy_bfs.rs:74-82 | The loop appends exactly the unseen neighbours to the seen list, each once. |
| GreedyBestFirst.DiscoverAllFrontierKeys | src/algorithm/greedy_bfs.rs:74-82 | The queue gains exactly the unseen neighbours and stays free of duplicates. |
| GreedyBestFirst.DiscoverAllPriorities | src/algorithm/greedy_bfs.rs:76-77 | Each unseen neighbour is queued at its heuristic to the goal; earlier entries keep their priority. |
| GreedyBestFirst.DiscoverAllLinks | src/algorithm/greedy_bfs.rs:80 | Each unseen neighbour gets the current cell as predecessor; other entries stay. |
| GreedyBestFirst.ReachGoal | src/algorithm/greedy_bfs.rs:60-69 | The run completes and stops, the queue, seen list and links are kept, and the path becomes the chain of recorded predecessors starting at the goal, drawn as `Path`. |
| GreedyBestFirst.Expand | src/algorithm/greedy_bfs.rs:71-88 | The run completes and stops exactly when the queue is empty after the loop; otherwise the coordinator is untouched. |
| GreedyBestFirst.Step | src/algorithm/greedy_bfs.rs:48-92 | Not ready: no-op. An empty queue stops processing. A pop counts a step and aborts if an endpoint is unset. |
| GreedyBestFirst.Reset | src/algorithm/greedy_bfs.rs:94-97 | A fresh search and a blank grid. |
| GreedyBestFirst.HasCompleted | src/algorithm/greedy_bfs.rs:99-101 | `has_completed` reads the coordinator's completion flag. `StepCompletion` states when a step can set it. |
| GreedyBestFirst.StepCompletion | src/algorithm/greedy_bfs.rs:48-92 | A step of a run that has not completed completes it only by popping the goal or by an expansion after which the queue is empty. |
| GreedyBestFirst.DiscoverAll | src/algorithm/greedy_bfs.rs:74-82 | The neighbour loop writes only the neighbours' tiles and keeps Start and End in place. It leaves the coordinator and the path alone and only appends to the seen list. Its effect on the queue, the links and the seen list is stated by the `DiscoverAll*` rows. |
| GreedyBestFirst.Output | src/algorithm/greedy_bfs.rs:18-30 | The report is "unreachable" iff the path is empty; otherwise it gives path length, steps and seen-cell count. |
| GreedyBestFirst.StartEstablishesInv | src/algorithm/greedy_bfs.rs:34-46 | A started search satisfies the run invariant. |
| GreedyBestFirst.StepPreservesInv | src/algorithm/greedy_bfs.rs:48-92 | From the run invariant no step aborts and the invariant is kept. |
| GreedyBestFirst.ReachGoalDrawsPath | src/algorithm/greedy_bfs.rs:60-69 | Reaching the goal gives a goal-to-start path of adjacent cells drawn as `Path`, with the run completed and stopped. |
| GreedyBestFirst.SeenChain | src/algorithm/greedy_bfs.rs:63 | Because predecessors are seen earlier, the walk from any seen cell reaches the start. |
| GreedyBestFirst.StepProgress | src/algorithm/greedy_bfs.rs:48-92 | Every ready step on a non-empty queue completes the run or lowers the measure of unseen cells and queue length, so a run stops. |
| AStarSearch.Start | src/algorithm/a_star.rs:35-47 | Fails iff an endpoint is missing. Otherwise the start is queued at 0 with cost 0 and no predecessor, and processing starts. |
| AStarSearch.ReachGoal | src/algorithm/a_star.rs:65-70 | The run completes and stops, and the path becomes the reconstructed chain drawn as `Path`. |
| AStarSearch.Expand | src/algorithm/a_star.rs:73-95 | It aborts iff the cell has no cost and has neighbours. When the queue is empty afterwards the run completes and stops. |
| AStarSearch.Step | src/algorithm/a_star.rs:51-99 | Not ready: no-op. An empty queue stops processing. A pop counts a step and aborts if an endpoint is unset. |
| AStarSearch.Reset | src/algorithm/a_star.rs:103-106 | A fresh search and a blank grid. |
| AStarSearch.HasCompleted | src/algorithm/a_star.rs:110-112 | `has_completed` reads the coordinator's completion flag. `StepCompletion` states when a step can set it. |
| AStarSearch.StepCompletion | src/algorithm/a_star.rs:51-99 | A step of a run that has not completed completes it only by popping the goal or by an expansion after which the queue is empty. |
| AStarSearch.RelaxNeighbours | src/algorithm/a_star.rs:77-90 | The neighbour loop writes only the neighbours' tiles and keeps Start and End in place. Its effect on costs, links and the queue is stated by `ExpandRelaxes`. |
| AStarSearch.Stats | src/algorithm/a_star.rs:19-28 | The figures are path length, steps, and the number of cells with a cost. |
| AStarSearch.StartEstablishesInv | src/algorithm/a_star.rs:35-47 | A started search satisfies the run invariant and is processing. |
| AStarSearch.PopsLowestEstimate | src/algorithm/a_star.rs:56 | The popped cell has the lowest estimate (cost plus heuristic from its predecessor) of all queued cells. |
| AStarSearch.RelaxAllEstimates | src/algorithm/a_star.rs:84-87 | After relaxation every queued cell sits at its current estimate. |
| AStarSearch.StepPreservesInv | src/algorithm/a_star.rs:51-99 | From the run invariant no step aborts and the invariant is kept. |
| AStarSearch.ReachGoalDrawsPath | src/algorithm/a_star.rs:65-70 | Reaching the goal gives a goal-to-start path of adjacent cells, costing at most the goal's cost, drawn as `Path`. |
| AStarSearch.StepProgress | src/algorithm/a_star.rs:56-96 | A ready step on a non-empty queue completes the run if it pops the goal; otherwise the tables descend as for Dijkstra, whether or not the expansion also ends the run. |
| AStarSearch.ExpandRelaxes | src/algorithm/a_star.rs:77-90 | Exactly the unseen or strictly cheaper neighbours get the new cost and the current cell as predecessor. They are queued at that cost plus the heuristic from the current cell. Every other cell keeps its cost, its predecessor and its queued priority, and the queue gains exactly the updated neighbours. |
| AStarSearch.StepReachingGoal | src/algorithm/a_star.rs:64-71 | Popping the goal is the early exit, and it succeeds. |
| AStarSearch.StepExpanding | src/algorithm/a_star.rs:73-95 | A step that pops any other cell is its expansion and succeeds. |
| Application.Next | src/lib.rs:23-30 | Each transition moves one stage on; `EndSimulation` is final. |
| Application.Restart | src/lib.rs:31-33 | Reset returns to the first stage from any state. |
| Application.AdvanceStage | src/lib.rs:19-34 | After n transitions the machine is at stage min(stage + n, 3). |
| Application.ThreeStepsEnd | src/lib.rs:19-34 | Three transitions reach `EndSimulation` from anywhere, and only reset leaves it. |
| Application.StartSearch | src/algorithm/mod.rs:24 | Every variant's `start` fails iff an endpoint is missing. |
| Application.ResetSearch | src/algorithm/mod.rs:26 | Any variant's reset gives a fresh search of the same kind and a blank grid. |
| Application.NewApp | src/lib.rs:74-87 | The app starts with a blank 20×20 grid of 20-pixel tiles at (0,0), no endpoints and the first stage. |
| Application.LeftClick | src/lib.rs:152-170 | The machine advances on every left click, even a missed or refused one. At `EndSimulation` the click is a no-op. |
| Application.RightClick | src/lib.rs:103-106 | A right click outside the grid changes nothing. Inside, exactly the cell under the cursor becomes an obstacle, and the endpoints, the search and the stage stay. |
| Application.Completed | src/lib.rs:145 | The app asks the chosen search's `has_completed`. |
| Application.ExecuteStep | src/lib.rs:148-149 | `execute_step` goes to the chosen search. The search keeps its kind and the grid its shape, and an unready frame changes nothing. |
| Application.UpdateSimulation | src/lib.rs:144-150 | A completed run is left alone. Otherwise the update fails exactly when the chosen search's step does, and on success the new search and grid are that step's result. |
| Application.ResetSimulation | src/lib.rs:172-176 | Escape gives the first stage, a fresh search and a blank grid without endpoints. |
| Application.CompletedIsFinal | src/lib.rs:144-150 | Once completed, any sequence of frames leaves the app unchanged. |
| Application.ExhaustedDijkstraNeverCompletes | src/algorithm/dijkstra.rs:119-121 | A Dijkstra run whose queue ran dry stays incomplete over any sequence of frames, and the grid does not change. |
| Application.SetupStartsSearch | src/lib.rs:152-170 | Clicks in the grid place the start and the end, and the third click starts the search successfully. |
| Application.MissedStartStalls | src/lib.rs:152-170 | A first click outside the grid still advances the machine, the start is refused, and later clicks do nothing until Escape. |
| Application.StartRuns | src/lib.rs:162-167 | Starting an idle search on a grid with both endpoints establishes its run invariant. |
| Application.StepKeepsInv | src/lib.rs:144-150 | A step never aborts; it keeps an idle search idle and a running search running. |
| Application.EventsKeepInv | src/lib.rs:95-117 | Left click, right click, Escape and update all keep the app invariant, and no update aborts. |
| Application.ClicksKeepInv | src/lib.rs:100-113 | Left click, right click and Escape keep the app invariant. |
| Application.UpdateKeepsInv | src/lib.rs:144-150 | From the app invariant a frame update never aborts and keeps the invariant. |

## Left out

- Rendering is not modelled: the window, the font, the colours, the text of the statistics and the console messages. This covers `render`, `get_color_for_title`, `draw_text`, `load_font_asset` and `handle_algorithm_error`, which only prints.
- Time is not modelled. The readiness gate with its floating-point accumulator (0.3 s in BFS, `ONE_ITERATION_TIME_SEC` elsewhere) is the `ready` flag, and the floating-point time figures of the statistics are dropped.
- The searches call code defined in a later revision of the program than the `grid.rs` and `algorithm/mod.rs` modelled here: `SimulationCoordinator`, `Pathfinder`, `get_statistics`, `get_neighbors`, `cost`, `heuristic`, `mark_process`, `Grid::reset`, and the `start_title`/`goal_title` fields. They are modelled as follows:
  - A* asks the coordinator's `process_goal_reached` (`src/algorithm/a_star.rs:65`), which is taken to compare the cells and, on a match, to complete and stop the run;
  - Dijkstra and greedy best-first ask `is_goal_reached` (`src/algorithm/dijkstra.rs:95`, `src/algorithm/greedy_bfs.rs:60`), which is taken to be a plain comparison. Dijkstra's goal handling then sets only the completion flag and leaves processing on, while greedy best-first sets both flags itself (`src/algorithm/greedy_bfs.rs:61-62`);
  - `start_processing` switches processing on;
  - the path finder's `add_to_path` is an insert into the predecessor map (`Pathfinding.AddToPath`);
  - `reconstruct_path(start, goal)` (`src/algorithm/greedy_bfs.rs:63`, `src/algorithm/a_star.rs:66`) is `Pathfinding.ReconstructPath`: it ignores `start`, walks from the goal to the first cell without a predecessor, and replaces the path with that walk. Under the run invariants the start is the only such cell (the `ReachGoalDrawsPath` lemmas);
  - `get_neighbors` is BFS's inline neighbour rule;
  - `cost` and `heuristic` are uninterpreted functions;
  - `mark_process` follows `mark_visited`'s rule with the `Process` tile of `map/mod.rs`;
  - the grid reset blanks every tile and clears both endpoints.
- If the coordinator's readiness also requires processing to be on, a Dijkstra run would never step, because its `start` never switches processing on. The `ready` flag leaves that to the caller.
- The `i32` costs and the `u32` step counters are unbounded integers. No overflow can occur on a 20×20 grid with unit costs.
- Grids.New: requires a positive tile size, so the division-by-zero panic of `Grid::new` (`src/map/grid.rs:28-29`) is not modelled. Every call site passes a tile size of 20.
- Grids.OnMouseClicked: the `u32` sums `offset + columns * title_size` of the rectangle test (`src/map/grid.rs:54`, `src/map/grid.rs:56`) are unbounded integers, so their overflow panic is not modelled. The application's 20×20 grid of 20-pixel tiles at (0,0) stays far below 2^32.
- Mouse positions are whole pixels: the floor of the floating-point position. Because the offsets, the tile size and the rectangle bounds are whole numbers, the floor passes the rectangle test exactly when the position does (a position in (-1, 0) fails both), and inside the rectangle it selects the same cell as the source's truncating cast.
- When several panics could fire in one step, the model does not say which one fires first; a `Fault` names only its kind.
- The doubly-ended queue's order among equal priorities is left open. The model pops the first minimal entry, and no lemma relies on more than minimality.
- The predecessor walk has a fuel bound equal to the number of recorded cells. Running out of fuel stands for a walk that would cycle forever, and the lemmas prove it never happens under the invariants.
- Termination of Dijkstra and A* is stated step by step (`StepProgress`) rather than as a bound on the number of steps: a cell may be queued again whenever its cost falls, and the lexicographic measure of `Relaxation.Descends` is what shrinks.
- BFS in this revision neither records predecessors nor implements the algorithm interface, so it has no path and is not one of the application's searches.
- DijkstraSearch.ReachGoalDrawsPath: states that the path's cost is at most the goal's recorded cost, not that it is the cheapest path in the grid. Cost-optimality of the search is not proved.
- AStarSearch.ReachGoalDrawsPath: states the same bound without optimality. With the heuristic taken from the current cell to the neighbour, the usual A* optimality argument does not apply.
- AStarSearch.PopsLowestEstimate: speaks of the estimate recorded for each queued cell, not of a consistent heuristic to the goal, because the code uses the current-to-neighbour heuristic.

## Findings

| source | as written | input that shows it | evidently intended | confidence | as-written member | corrected member |
|---|---|---|---|---|---|---|
| src/map/grid.rs:26-37 | `Grid::new` builds `rows` outer vectors of `columns` tiles, while `mark_visited`, `on_mouse_clicked`, `is_obstacle` and `set_trace_back_path` index `[x][y]` with x below `columns` | `Grid::new(0, 0, 60, 40, 10)` then `mark_visited(5, 0)`: the guard admits x = 5 < 6 columns, but the table has 4 outer vectors, so the index panics | `columns` outer vectors of `rows` tiles, matching every access except `render` (`src/map/grid.rs:103-105`), whose loops swap the bounds in the same way | not executed; latent in the application, which only builds a square 20×20 grid | Grids.RowMajorMarkVisitedPanics | Grids.New |

=== FILE: a_star.dfy ===
/** A* on the tile grid, one expansion per ready step. It relaxes
    neighbours exactly as Dijkstra does, but queues each updated neighbour
    at its new cost plus the heuristic estimate from the current cell to the
    neighbour. Popping the goal ends the run with the reconstructed path;
    an expansion that leaves nothing to pop ends it without one. */
module AStarSearch {
  import opened Wrappers
  import opened MapTypes
  import opened Grids
  import opened SearchCommon
  import opened PriorityQueues
  import opened Pathfinding
  import opened Relaxation

  /** Frontier, `cost_so_far` and the path finder's predecessor map (kept
      together in `tables`); the path finder's path; the coordinator. */
  datatype AStar = AStar(tables: Tables, path: seq<Coord>, co: Coordinator)

  const DefaultAStar := AStar(EmptyTables, [], IdleCoordinator)

  /** `start`: refuses a grid without both endpoints; otherwise seeds the
      tables with the start cell and switches processing on. */
  function Start(a: AStar, g: Grid): (r: Result<AStar, AlgorithmError>)
    ensures r.Failure? <==> g.start.None? || g.goal.None?
    ensures r.Failure? ==> r.error == InvalidInputData
    ensures r.Success? ==>
      && r.value.path == a.path && r.value.co == a.co.(isProcessing := true)
      && g.start.value in Keys(r.value.tables.frontier)
      && PriorityOf(r.value.tables.frontier, g.start.value) == 0
      && g.start.value in r.value.tables.cost && r.value.tables.cost[g.start.value] == 0
      && g.start.value in r.value.tables.links && r.value.tables.links[g.start.value] == None
  {
    if g.start.None? || g.goal.None? then Failure(InvalidInputData)
    else Success(a.(tables := Seed(a.tables, g.start.value), co := a.co.(isProcessing := true)))
  }

  /** The goal was popped: the run completes and stops, the path is rebuilt
      from the predecessor map and drawn as `Path` tiles. A broken
      predecessor walk or a tile outside the grid is the source's abort. */
  function ReachGoal(a: AStar, g: Grid, goal: Coord): (r: Result<(AStar, Grid), Fault>)
    requires Valid(g)
    ensures r.Success? ==>
      && r.value.0.co == a.co.(hasCompleted := true, isProcessing := false)
      && r.value.0.tables == a.tables
      && IsChain(a.tables.links, r.value.0.path) && r.value.0.path[0] == goal
      && Valid(r.value.1) && SameExcept(g, r.value.1, set c | c in r.value.0.path)
      && forall i | 0 <= i < |r.value.0.path| ::
           InBounds(r.value.1, r.value.0.path[i]) && TileAt(r.value.1, r.value.0.path[i]) == Path
    ensures r.Failure? ==> Trace(a.tables.links, goal).Failure? || r.error == OutOfRange
  {
    var co := a.co.(hasCompleted := true, isProcessing := false);
    match ReconstructPath(Pathfinder(a.tables.links, a.path), goal)
    case Failure(f) => Failure(f)
    case Success(pf) =>
      match MarkPathAll(g, pf.path)
      case None => Failure(OutOfRange)
      case Some(g') => Success((a.(co := co, path := pf.path), g'))
  }

  /** Expanding a popped cell other than the goal: mark it visited, relax
      its neighbours by cost plus heuristic, and end the run without a path
      if nothing is left to pop. The cost of `cur` is read once per
      neighbour, so a cell without a recorded cost aborts only when it has
      neighbours. */
  function Expand(a: AStar, g: Grid, m: Metric, cur: Coord): (r: Result<(AStar, Grid), Fault>)
    requires Valid(g)
    ensures r.Success? ==>
      && Valid(r.value.1) && SameShape(g, r.value.1)
      && r.value.1.start == g.start && r.value.1.goal == g.goal
      && r.value.0.path == a.path
      && (|r.value.0.tables.frontier| > 0 ==> r.value.0.co == a.co)
      && (|r.value.0.tables.frontier| == 0 ==> r.value.0.co == a.co.(hasCompleted := true, isProcessing := false))
    ensures r.Failure? <==> cur !in a.tables.cost && |Neighbours(g, cur)| > 0
    ensures r.Failure? ==> r.error == UnknownCost
  {
    var g1 := MarkVisited(g, cur);
    NeighboursIgnoreOwnTile(g, g1, cur);
    var ns := Neighbours(g1, cur);
    if |ns| > 0 && cur !in a.tables.cost then Failure(UnknownCost)
    else
      var r := RelaxNeighbours(a.tables, g1, m, cur, ns);
      Success((Finish(a, r.0), r.1))
  }

  /** The neighbour loop of an expansion: nothing to do without
      neighbours, otherwise the relaxation by cost plus heuristic. */
  function RelaxNeighbours(t: Tables, g: Grid, m: Metric, cur: Coord, ns: seq<Coord>): (r: (Tables, Grid, seq<Coord>))
    requires Valid(g) && cur !in ns && (|ns| == 0 || cur in t.cost)
    ensures Valid(r.1) && SameExcept(g, r.1, set n | n in ns) && EndpointsKept(g, r.1)
  {
    if |ns| == 0 then (t, g, []) else RelaxAll(t, g, m, ByCostPlusHeuristic, cur, ns)
  }

  /** The end of an expansion: the new tables, and completion without a
      path when the frontier ran dry. */
  function Finish(a: AStar, t: Tables): (r: AStar)
    ensures r.tables == t && r.path == a.path
    ensures |t.frontier| > 0 ==> r.co == a.co
    ensures |t.frontier| == 0 ==> r.co == a.co.(hasCompleted := true, isProcessing := false)
  {
    if |t.frontier| == 0 then a.(tables := t, co := a.co.(hasCompleted := true, isProcessing := false))
    else a.(tables := t)
  }

  /** An expansion of a cell with a recorded cost is its neighbour loop
      followed by the check for a dry frontier. */
  lemma ExpandUnfold(a: AStar, g: Grid, m: Metric, cur: Coord)
    requires Valid(g) && cur in a.tables.cost
    ensures cur !in Neighbours(g, cur)
    ensures var r := RelaxNeighbours(a.tables, MarkVisited(g, cur), m, cur, Neighbours(g, cur));
      Expand(a, g, m, cur) == Success((Finish(a, r.0), r.1))
  {
    NeighboursIgnoreOwnTile(g, MarkVisited(g, cur), cur);
  }

  /** The state right after the pop of a step: the frontier without its
      minimum and one more step counted. */
  function Popped(a: AStar): (r: AStar)
    requires |a.tables.frontier| > 0
    ensures r.tables.cost == a.tables.cost && r.tables.links == a.tables.links
    ensures |r.tables.frontier| == |a.tables.frontier| - 1
    ensures r.co.steps == a.co.steps + 1 && r.path == a.path
  {
    a.(tables := a.tables.(frontier := PopMin(a.tables.frontier).value.1), co := a.co.(steps := a.co.steps + 1))
  }

  /** `execute_step`. Not ready: nothing happens. An empty frontier stops
      processing. Otherwise the minimum is popped and the step counted; an
      unset endpoint is the source's `unwrap` abort; the goal ends the run;
      any other cell is expanded. */
  function Step(a: AStar, g: Grid, m: Metric, ready: bool): (r: Result<(AStar, Grid), Fault>)
    requires Valid(g)
    ensures !ready ==> r == Success((a, g))
    ensures ready && |a.tables.frontier| == 0 ==> r == Success((a.(co := a.co.(isProcessing := false)), g))
    ensures ready && |a.tables.frontier| > 0 && (g.start.None? || g.goal.None?) ==> r == Failure(MissingEndpoint)
    ensures r.Success? ==> Valid(r.value.1) && SameShape(g, r.value.1)
    ensures r.Success? && ready && |a.tables.frontier| > 0 ==> r.value.0.co.steps == a.co.steps + 1
  {
    if !ready then Success((a, g))
    else
      match PopMin(a.tables.frontier)
      case None => Success((a.(co := a.co.(isProcessing := false)), g))
      case Some(popped) =>
        if g.start.None? || g.goal.None? then Failure(MissingEndpoint)
        else if popped.0.cell == g.goal.value then ReachGoal(Popped(a), g, g.goal.value)
        else Expand(Popped(a), g, m, popped.0.cell)
  }

  /** A ready step on a non-empty frontier with both endpoints set. */
  lemma StepAfterPop(a: AStar, g: Grid, m: Metric)
    requires Valid(g) && |a.tables.frontier| > 0 && g.start.Some? && g.goal.Some?
    ensures var cur := PopMin(a.tables.frontier).value.0.cell;
      Step(a, g, m, true) ==
        if cur == g.goal.value then ReachGoal(Popped(a), g, g.goal.value) else Expand(Popped(a), g, m, cur)
  {
  }

  /** A step completes a run only by popping the goal or by an expansion
      that leaves the frontier empty. */
  lemma StepCompletion(a: AStar, g: Grid, m: Metric, ready: bool)
    requires Valid(g) && !HasCompleted(a)
    ensures var r := Step(a, g, m, ready);
      r.Success? && HasCompleted(r.value.0) ==>
        && ready && |a.tables.frontier| > 0 && g.goal.Some?
        && (PopMin(a.tables.frontier).value.0.cell == g.goal.value || |r.value.0.tables.frontier| == 0)
  {
  }

  /** `reset`: a fresh search and a blank grid. */
  function Reset(a: AStar, g: Grid): (r: (AStar, Grid))
    requires Valid(g)
    ensures r.0 == DefaultAStar && !HasCompleted(r.0)
    ensures Valid(r.1) && SameShape(g, r.1) && r.1.start.None? && r.1.goal.None?
  {
    (DefaultAStar, Grids.Reset(g))
  }

  function HasCompleted(a: AStar): bool {
    a.co.hasCompleted
  }

  /** The figures of `output_statistics`: path length, steps, and the
      number of cells with a recorded cost. */
  function Stats(a: AStar): (s: Statistics)
    ensures s.pathLength == |a.path| && s.steps == a.co.steps && s.visitedNodes == |a.tables.cost.Keys|
  {
    Statistics(|a.path|, a.co.steps, |a.tables.cost|)
  }

  /** The priority a recorded cell was last queued at: its cost plus the
      heuristic from its predecessor (nothing for the start). */
  function Estimate(t: Tables, m: Metric, k: Coord): int
    requires k in t.cost && k in t.links
  {
    t.cost[k] + match t.links[k] case None => 0 case Some(p) => m.heuristic(p, k)
  }

  /** The run invariant for a grid whose endpoints are set: the cost tables
      satisfy the relaxation invariant from the start cell, and every cell
      is queued at most once and at its current estimate. */
  ghost predicate Inv(a: AStar, g: Grid, m: Metric) {
    && Valid(g) && g.start.Some? && g.goal.Some?
    && CostInv(a.tables, g, m, g.start.value)
    && DistinctKeys(a.tables.frontier)
    && (forall k | k in Keys(a.tables.frontier) :: PriorityOf(a.tables.frontier, k) == Estimate(a.tables, m, k))
  }

  lemma StartEstablishesInv(g: Grid, m: Metric)
    requires Valid(g) && g.start.Some? && g.goal.Some?
    ensures Start(DefaultAStar, g).Success?
    ensures var a := Start(DefaultAStar, g).value;
      Inv(a, g, m) && a.co.isProcessing && !HasCompleted(a)
  {
    var a := Start(DefaultAStar, g).value;
    SeedEstablishesInv(g, m, g.start.value);
    assert a.tables.frontier == [Entry(g.start.value, 0)];
    assert Keys(a.tables.frontier) == {g.start.value};
  }

  /** The popped cell has the lowest estimate of all queued cells, and the
      frontier left after the pop still satisfies the invariant's frontier
      part. */
  lemma PopsLowestEstimate(a: AStar, g: Grid, m: Metric)
    requires Inv(a, g, m) && |a.tables.frontier| > 0
    ensures var popped := PopMin(a.tables.frontier).value;
      && popped.0.cell in a.tables.cost
      && (forall k | k in Keys(a.tables.frontier) ::
            Estimate(a.tables, m, popped.0.cell) <= Estimate(a.tables, m, k))
      && DistinctKeys(popped.1)
      && Keys(popped.1) == Keys(a.tables.frontier) - {popped.0.cell}
      && (forall k | k in Keys(popped.1) :: PriorityOf(popped.1, k) == Estimate(a.tables, m, k))
  {
    var f := a.tables.frontier;
    var popped := PopMin(f).value;
    PopMinPriorities(f);
    forall k | k in Keys(f) ensures Estimate(a.tables, m, popped.0.cell) <= Estimate(a.tables, m, k) {
      var i := IndexOf(f, k);
      assert f[i] in f;
    }
  }

  lemma ReachGoalKeepsInv(a: AStar, g: Grid, m: Metric)
    requires Inv(a, g, m) && PositiveCost(m) && g.goal.value in a.tables.cost
    ensures var r := ReachGoal(a, g, g.goal.value);
      r.Success? && Inv(r.value.0, r.value.1, m)
      && r.value.1.start == g.start && r.value.1.goal == g.goal
  {
    TraceFromRecorded(a.tables, g, m, g.start.value, g.goal.value);
  }

  /** The neighbour loop keeps the invariant's table part: the cost
      invariant, single queueing, and every queued cell at its estimate. */
  lemma RelaxNeighboursKeepsInv(t: Tables, g: Grid, m: Metric, cur: Coord, ns: seq<Coord>, s: Coord)
    requires Valid(g) && PositiveCost(m) && CostInv(t, g, m, s) && cur in t.cost
    requires DistinctKeys(t.frontier)
    requires forall k | k in Keys(t.frontier) :: PriorityOf(t.frontier, k) == Estimate(t, m, k)
    requires forall n | n in ns :: InBounds(g, n) && Adjacent(cur, n)
    ensures cur !in ns
    ensures var r := RelaxNeighbours(t, g, m, cur, ns);
      && CostInv(r.0, r.1, m, s) && DistinctKeys(r.0.frontier)
      && (forall k | k in Keys(r.0.frontier) :: PriorityOf(r.0.frontier, k) == Estimate(r.0, m, k))
  {
    RelaxAllPreservesInv(t, g, m, ByCostPlusHeuristic, cur, ns, s);
    if |ns| > 0 {
      RelaxAllDistinct(t, g, m, ByCostPlusHeuristic, cur, ns);
      RelaxAllEstimates(t, g, m, cur, ns);
    }
  }

  /** Relaxing by cost plus heuristic queues every updated neighbour at
      its new estimate and leaves the other queued cells' estimates alone. */
  lemma RelaxAllEstimates(t: Tables, g: Grid, m: Metric, cur: Coord, ns: seq<Coord>)
    requires Valid(g) && cur in t.cost && cur !in ns
    requires Keys(t.frontier) <= t.cost.Keys && t.links.Keys == t.cost.Keys
    requires forall k | k in Keys(t.frontier) :: PriorityOf(t.frontier, k) == Estimate(t, m, k)
    ensures var r := RelaxAll(t, g, m, ByCostPlusHeuristic, cur, ns).0;
      && Keys(r.frontier) <= r.cost.Keys && r.links.Keys == r.cost.Keys
      && forall k | k in Keys(r.frontier) :: PriorityOf(r.frontier, k) == Estimate(r, m, k)
  {
    RelaxAllKeysAgree(t, g, m, ByCostPlusHeuristic, cur, ns);
    RelaxAllQueuedEstimates(t, g, m, cur, ns);
  }

  /** The priority half of `RelaxAllEstimates`. */
  lemma RelaxAllQueuedEstimates(t: Tables, g: Grid, m: Metric, cur: Coord, ns: seq<Coord>)
    requires Valid(g) && cur in t.cost && cur !in ns
    requires Keys(t.frontier) <= t.cost.Keys && t.links.Keys == t.cost.Keys
    requires forall k | k in Keys(t.frontier) :: PriorityOf(t.frontier, k) == Estimate(t, m, k)
    requires var r := RelaxAll(t, g, m, ByCostPlusHeuristic, cur, ns).0;
      Keys(r.frontier) <= r.cost.Keys && r.links.Keys == r.cost.Keys
    ensures var r := RelaxAll(t, g, m, ByCostPlusHeuristic, cur, ns).0;
      forall k | k in Keys(r.frontier) :: PriorityOf(r.frontier, k) == Estimate(r, m, k)
  {
    var r := RelaxAll(t, g, m, ByCostPlusHeuristic, cur, ns);
    forall k | k in Keys(r.0.frontier) ensures PriorityOf(r.0.frontier, k) == Estimate(r.0, m, k) {
      if k in r.2 {
        UpdatedEstimate(t, g, m, cur, ns, k);
      } else {
        KeptEstimate(t, g, m, cur, ns, k);
      }
    }
  }

  /** A neighbour the relaxation improved is queued at its new estimate. */
  lemma UpdatedEstimate(t: Tables, g: Grid, m: Metric, cur: Coord, ns: seq<Coord>, k: Coord)
    requires Valid(g) && cur in t.cost && cur !in ns
    requires k in RelaxAll(t, g, m, ByCostPlusHeuristic, cur, ns).2
    requires var r := RelaxAll(t, g, m, ByCostPlusHeuristic, cur, ns).0;
      k in r.cost && k in r.links && k in Keys(r.frontier)
    ensures var r := RelaxAll(t, g, m, ByCostPlusHeuristic, cur, ns).0;
      PriorityOf(r.frontier, k) == Estimate(r, m, k)
  {
    var r := RelaxAll(t, g, m, ByCostPlusHeuristic, cur, ns);
    RelaxAllUpdated(t, g, m, ByCostPlusHeuristic, cur, ns);
    RelaxAllLinksUpdated(t, g, m, ByCostPlusHeuristic, cur, ns);
    RelaxAllFrontier(t, g, m, ByCostPlusHeuristic, cur, ns);
    assert r.0.links[k] == Some(cur);
    assert r.0.cost[k] == t.cost[cur] + m.cost(cur, k);
  }

  /** A queued cell the relaxation did not improve keeps its estimate. */
  lemma KeptEstimate(t: Tables, g: Grid, m: Metric, cur: Coord, ns: seq<Coord>, k: Coord)
    requires Valid(g) && cur in t.cost && cur !in ns
    requires Keys(t.frontier) <= t.cost.Keys && t.links.Keys == t.cost.Keys
    requires forall k | k in Keys(t.frontier) :: PriorityOf(t.frontier, k) == Estimate(t, m, k)
    requires k !in RelaxAll(t, g, m, ByCostPlusHeuristic, cur, ns).2
    requires var r := RelaxAll(t, g, m, ByCostPlusHeuristic, cur, ns).0;
      k in r.cost && k in r.links && k in Keys(r.frontier)
    ensures var r := RelaxAll(t, g, m, ByCostPlusHeuristic, cur, ns).0;
      PriorityOf(r.frontier, k) == Estimate(r, m, k)
  {
    var r := RelaxAll(t, g, m, ByCostPlusHeuristic, cur, ns);
    RelaxAllQueued(t, g, m, ByCostPlusHeuristic, cur, ns);
    assert k in Keys(t.frontier);
    RelaxAllUpdated(t, g, m, ByCostPlusHeuristic, cur, ns);
    RelaxAllLinksKept(t, g, m, ByCostPlusHeuristic, cur, ns);
    RelaxAllFrontierKept(t, g, m, ByCostPlusHeuristic, cur, ns);
    assert r.0.links[k] == t.links[k];
    assert r.0.cost[k] == t.cost[k];
  }

  /** The pop keeps the invariant and yields a cell with a recorded cost. */
  lemma PopKeepsInv(a: AStar, g: Grid, m: Metric)
    requires Inv(a, g, m) && |a.tables.frontier| > 0
    ensures PopMin(a.tables.frontier).value.0.cell in a.tables.cost
    ensures Inv(Popped(a), g, m)
  {
    PopsLowestEstimate(a, g, m);
    var t := Popped(a).tables;
    assert forall k | k in Keys(t.frontier) :: Estimate(t, m, k) == Estimate(a.tables, m, k);
  }

  lemma ExpandKeepsInv(a: AStar, g: Grid, m: Metric, cur: Coord)
    requires Inv(a, g, m) && PositiveCost(m) && cur in a.tables.cost
    ensures var r := Expand(a, g, m, cur);
      r.Success? && Inv(r.value.0, r.value.1, m)
      && r.value.1.start == g.start && r.value.1.goal == g.goal
  {
    var g1 := MarkVisited(g, cur);
    ExpandUnfold(a, g, m, cur);
    var ns := Neighbours(g, cur);
    NeighboursIgnoreOwnTile(g, g1, cur);
    assert CostInv(a.tables, g1, m, g.start.value);
    RelaxNeighboursKeepsInv(a.tables, g1, m, cur, ns, g.start.value);
  }

  /** A ready step of a run in the invariant never aborts and keeps the
      invariant, whatever cell it pops. */
  lemma StepPreservesInv(a: AStar, g: Grid, m: Metric, ready: bool)
    requires Inv(a, g, m) && PositiveCost(m)
    ensures Step(a, g, m, ready).Success?
    ensures var r := Step(a, g, m, ready).value;
      Inv(r.0, r.1, m) && r.1.start == g.start && r.1.goal == g.goal
  {
    if ready && |a.tables.frontier| > 0 {
      PopKeepsInv(a, g, m);
      StepAfterPop(a, g, m);
      var cur := PopMin(a.tables.frontier).value.0.cell;
      if cur == g.goal.value {
        ReachGoalKeepsInv(Popped(a), g, m);
      } else {
        ExpandKeepsInv(Popped(a), g, m, cur);
      }
    }
  }

  /** The goal handling of a run in the invariant completes and stops the
      run with the predecessor walk from the goal back to the start, through
      adjacent cells of the grid, no costlier than the goal's recorded cost
      and drawn as `Path` tiles. */
  lemma ReachGoalDrawsPath(a: AStar, g: Grid, m: Metric)
    requires Valid(g) && g.start.Some? && g.goal.Some? && PositiveCost(m)
    requires CostInv(a.tables, g, m, g.start.value) && g.goal.value in a.tables.cost
    ensures ReachGoal(a, g, g.goal.value).Success?
    ensures var r := ReachGoal(a, g, g.goal.value).value;
      var p := r.0.path;
      && HasCompleted(r.0) && !r.0.co.isProcessing
      && p[0] == g.goal.value && p[|p| - 1] == g.start.value
      && (forall i | 0 <= i < |p| - 1 :: Adjacent(p[i + 1], p[i]))
      && PathCost(m, p) <= a.tables.cost[g.goal.value]
      && (forall i | 0 <= i < |p| :: InBounds(r.1, p[i]) && TileAt(r.1, p[i]) == Path)
  {
    TraceFromRecorded(a.tables, g, m, g.start.value, g.goal.value);
    var p := Trace(a.tables.links, g.goal.value).value;
    var g' := MarkPathAll(g, p);
    assert g'.Some?;
    var r := ReachGoal(a, g, g.goal.value);
    assert r == Success((a.(co := a.co.(hasCompleted := true, isProcessing := false), path := p), g'.value));
  }

  /** Expanding a cell with a recorded cost: exactly the neighbours that
      are unseen or reachable more cheaply through it get that cost, `cur`
      as predecessor, and a place in the frontier at that cost plus the
      heuristic from `cur`; no other queued cell, cost or predecessor
      changes. */
  lemma ExpandRelaxes(a: AStar, g: Grid, m: Metric, cur: Coord)
    requires Valid(g) && cur in a.tables.cost
    ensures Expand(a, g, m, cur).Success?
    ensures var t := Expand(a, g, m, cur).value.0.tables;
      var c := a.tables.cost[cur];
      && (forall n | n in Neighbours(g, cur) && (n !in a.tables.cost || c + m.cost(cur, n) < a.tables.cost[n]) ::
            && n in t.cost && t.cost[n] == c + m.cost(cur, n)
            && n in t.links && t.links[n] == Some(cur)
            && n in Keys(t.frontier) && PriorityOf(t.frontier, n) == c + m.cost(cur, n) + m.heuristic(cur, n))
      && (forall k | k in a.tables.cost && !(k in Neighbours(g, cur) && c + m.cost(cur, k) < a.tables.cost[k]) ::
            k in t.cost && t.cost[k] == a.tables.cost[k])
      && (forall k | k in a.tables.links && !(k in Neighbours(g, cur) && (k !in a.tables.cost || c + m.cost(cur, k) < a.tables.cost[k])) ::
            k in t.links && t.links[k] == a.tables.links[k])
      && (forall k | k in Keys(a.tables.frontier) && !(k in Neighbours(g, cur) && (k !in a.tables.cost || c + m.cost(cur, k) < a.tables.cost[k])) ::
            k in Keys(t.frontier) && PriorityOf(t.frontier, k) == PriorityOf(a.tables.frontier, k))
      && Keys(t.frontier) == Keys(a.tables.frontier) +
           (set n | n in Neighbours(g, cur) && (n !in a.tables.cost || c + m.cost(cur, n) < a.tables.cost[n]))
  {
    ExpandUnfold(a, g, m, cur);
    RelaxNeighboursEffects(a.tables, MarkVisited(g, cur), m, cur, Neighbours(g, cur));
  }

  /** `ExpandRelaxes` for the neighbour loop over any list `ns`. */
  lemma RelaxNeighboursEffects(t: Tables, g: Grid, m: Metric, cur: Coord, ns: seq<Coord>)
    requires Valid(g) && cur in t.cost && cur !in ns
    ensures var t' := RelaxNeighbours(t, g, m, cur, ns).0;
      var c := t.cost[cur];
      && (forall n | n in ns && (n !in t.cost || c + m.cost(cur, n) < t.cost[n]) ::
            && n in t'.cost && t'.cost[n] == c + m.cost(cur, n)
            && n in t'.links && t'.links[n] == Some(cur)
            && n in Keys(t'.frontier) && PriorityOf(t'.frontier, n) == c + m.cost(cur, n) + m.heuristic(cur, n))
      && (forall k | k in t.cost && !(k in ns && c + m.cost(cur, k) < t.cost[k]) ::
            k in t'.cost && t'.cost[k] == t.cost[k])
      && (forall k | k in t.links && !(k in ns && (k !in t.cost || c + m.cost(cur, k) < t.cost[k])) ::
            k in t'.links && t'.links[k] == t.links[k])
      && (forall k | k in Keys(t.frontier) && !(k in ns && (k !in t.cost || c + m.cost(cur, k) < t.cost[k])) ::
            k in Keys(t'.frontier) && PriorityOf(t'.frontier, k) == PriorityOf(t.frontier, k))
      && Keys(t'.frontier) == Keys(t.frontier) +
           (set n | n in ns && (n !in t.cost || c + m.cost(cur, n) < t.cost[n]))
  {
    if |ns| > 0 {
      var r := RelaxAll(t, g, m, ByCostPlusHeuristic, cur, ns);
      RelaxAllUpdated(t, g, m, ByCostPlusHeuristic, cur, ns);
      RelaxAllLinks(t, g, m, ByCostPlusHeuristic, cur, ns);
      RelaxAllFrontierKeys(t, g, m, ByCostPlusHeuristic, cur, ns);
      RelaxAllFrontier(t, g, m, ByCostPlusHeuristic, cur, ns);
      RelaxAllFrontierKept(t, g, m, ByCostPlusHeuristic, cur, ns);
      assert (set n | n in r.2) ==
        (set n | n in ns && (n !in t.cost || t.cost[cur] + m.cost(cur, n) < t.cost[n]));
    }
  }

  /** Reaching the goal ends the run with the path of `ReachGoalDrawsPath`. */
  lemma StepReachingGoal(a: AStar, g: Grid, m: Metric)
    requires Inv(a, g, m) && PositiveCost(m) && |a.tables.frontier| > 0
    requires PopMin(a.tables.frontier).value.0.cell == g.goal.value
    ensures Step(a, g, m, true) == ReachGoal(Popped(a), g, g.goal.value)
    ensures ReachGoal(Popped(a), g, g.goal.value).Success?
  {
    PopKeepsInv(a, g, m);
    StepAfterPop(a, g, m);
    ReachGoalDrawsPath(Popped(a), g, m);
  }

  /** A step that pops a cell other than the goal is its expansion. */
  lemma StepExpanding(a: AStar, g: Grid, m: Metric)
    requires Inv(a, g, m) && |a.tables.frontier| > 0
    requires PopMin(a.tables.frontier).value.0.cell != g.goal.value
    ensures Step(a, g, m, true) == Expand(Popped(a), g, m, PopMin(a.tables.frontier).value.0.cell)
    ensures Expand(Popped(a), g, m, PopMin(a.tables.frontier).value.0.cell).Success?
  {
    PopKeepsInv(a, g, m);
    StepAfterPop(a, g, m);
    ExpandRelaxes(Popped(a), g, m, PopMin(a.tables.frontier).value.0.cell);
  }

  /** Every ready step of a run in the invariant either pops the goal and
      completes, or descends in `Descends` (fewer cells without a recorded
      cost, or as many and a smaller total of recorded costs, or both the
      same and a shorter frontier), whether or not the expansion also
      ends the run on a dry frontier. All three figures are bounded below
      (`CostTotalNonNegative`), so a run stops after finitely many steps. */
  lemma StepProgress(a: AStar, g: Grid, m: Metric)
    requires Inv(a, g, m) && PositiveCost(m) && |a.tables.frontier| > 0
    ensures var r := Step(a, g, m, true);
      && r.Success?
      && (PopMin(a.tables.frontier).value.0.cell == g.goal.value ==> HasCompleted(r.value.0))
      && (PopMin(a.tables.frontier).value.0.cell != g.goal.value ==> Descends(r.value.0.tables, a.tables, g))
  {
    StepPreservesInv(a, g, m, true);
    PopKeepsInv(a, g, m);
    StepAfterPop(a, g, m);
    var cur := PopMin(a.tables.frontier).value.0.cell;
    if cur != g.goal.value {
      ExpandUnfold(Popped(a), g, m, cur);
      var g1 := MarkVisited(g, cur);
      NeighboursIgnoreOwnTile(g, g1, cur);
      var ns := Neighbours(g1, cur);
      if |ns| > 0 {
        PopRelaxDescends(a.tables, Popped(a).tables, g1, m, ByCostPlusHeuristic, cur, ns);
      }
    }
  }
}

=== FILE: app.dfy ===
/** The application layer: the mouse-action state machine that walks the
    user through placing the start, placing the end and starting the run,
    and the four event handlers that drive the chosen algorithm on the
    20 x 20 grid (left click, right click, Escape, frame update). The
    window, the font and the drawing are not modelled; the mouse position
    is given in whole pixels and the frame timer as the `ready` verdict. */
module Application {
  import opened Wrappers
  import opened MapTypes
  import opened Grids
  import opened SearchCommon
  import opened Relaxation
  import DijkstraSearch
  import GreedyBestFirst
  import AStarSearch

  /** What the next left click does. */
  datatype MouseActionState = SetStartPoint | SetEndPoint | StartSimulation | EndSimulation

  /** The position of a state in the setup sequence. */
  function Stage(s: MouseActionState): nat {
    match s
    case SetStartPoint => 0
    case SetEndPoint => 1
    case StartSimulation => 2
    case EndSimulation => 3
  }

  /** A state is determined by its stage. */
  lemma StageInjective(a: MouseActionState, b: MouseActionState)
    requires Stage(a) == Stage(b)
    ensures a == b
  {
  }

  /** `MouseActionState::new`: the first stage. */
  function Initial(): (s: MouseActionState)
    ensures Stage(s) == 0
  {
    SetStartPoint
  }

  /** `next`: one stage further; `EndSimulation` is final. */
  function Next(s: MouseActionState): (r: MouseActionState)
    ensures Stage(r) == if Stage(s) == 3 then 3 else Stage(s) + 1
  {
    match s
    case SetStartPoint => SetEndPoint
    case SetEndPoint => StartSimulation
    case StartSimulation => EndSimulation
    case EndSimulation => EndSimulation
  }

  /** `reset`: back to the first stage from anywhere. */
  function Restart(s: MouseActionState): (r: MouseActionState)
    ensures Stage(r) == 0
  {
    SetStartPoint
  }

  /** `n` applications of `Next`. */
  function Advance(s: MouseActionState, n: nat): MouseActionState
    decreases n
  {
    if n == 0 then s else Advance(Next(s), n - 1)
  }

  /** Each `Next` moves one stage on until the last. */
  lemma {:induction false} AdvanceStage(s: MouseActionState, n: nat)
    ensures Stage(Advance(s, n)) == if Stage(s) + n >= 3 then 3 else Stage(s) + n
    decreases n
  {
    if n > 0 {
      AdvanceStage(Next(s), n - 1);
    }
  }

  /** Three steps reach `EndSimulation` from any state, and nothing leaves
      it but `reset`. */
  lemma ThreeStepsEnd(s: MouseActionState, n: nat)
    ensures Advance(s, 3) == EndSimulation
    ensures Advance(EndSimulation, n) == EndSimulation
    ensures Advance(Restart(s), 3) == EndSimulation && Stage(Advance(Restart(s), 2)) == 2
  {
    AdvanceStage(s, 3);
    StageInjective(Advance(s, 3), EndSimulation);
    AdvanceStage(EndSimulation, n);
    StageInjective(Advance(EndSimulation, n), EndSimulation);
    AdvanceStage(Restart(s), 3);
    StageInjective(Advance(Restart(s), 3), EndSimulation);
    AdvanceStage(Restart(s), 2);
  }

  /** The algorithm the application was built with: one of the three
      variants that implement the algorithm interface. */
  datatype Search =
    | DijkstraRun(d: DijkstraSearch.Dijkstra)
    | GreedyRun(gr: GreedyBestFirst.Greedy)
    | AStarRun(a: AStarSearch.AStar)

  predicate SameKind(s: Search, s': Search) {
    && (s.DijkstraRun? <==> s'.DijkstraRun?)
    && (s.GreedyRun? <==> s'.GreedyRun?)
    && (s.AStarRun? <==> s'.AStarRun?)
  }

  /** A newly built algorithm of the same kind. */
  function Fresh(s: Search): (r: Search)
    ensures SameKind(s, r) && !Completed(r)
  {
    match s
    case DijkstraRun(_) => DijkstraRun(DijkstraSearch.DefaultDijkstra)
    case GreedyRun(_) => GreedyRun(GreedyBestFirst.DefaultGreedy)
    case AStarRun(_) => AStarRun(AStarSearch.DefaultAStar)
  }

  /** `has_completed` of the chosen algorithm. */
  function Completed(s: Search): bool {
    match s
    case DijkstraRun(d) => DijkstraSearch.HasCompleted(d)
    case GreedyRun(gr) => GreedyBestFirst.HasCompleted(gr)
    case AStarRun(a) => AStarSearch.HasCompleted(a)
  }

  /** `start` of the chosen algorithm: every variant refuses exactly a grid
      without both endpoints, and leaves itself as it was when it does. */
  function StartSearch(s: Search, g: Grid): (r: Result<Search, AlgorithmError>)
    ensures r.Failure? <==> g.start.None? || g.goal.None?
    ensures r.Success? ==> SameKind(s, r.value)
  {
    match s
    case DijkstraRun(d) =>
      (match DijkstraSearch.Start(d, g) case Success(d') => Success(DijkstraRun(d')) case Failure(e) => Failure(e))
    case GreedyRun(gr) =>
      (match GreedyBestFirst.Start(gr, g) case Success(gr') => Success(GreedyRun(gr')) case Failure(e) => Failure(e))
    case AStarRun(a) =>
      (match AStarSearch.Start(a, g) case Success(a') => Success(AStarRun(a')) case Failure(e) => Failure(e))
  }

  /** `execute_step` of the chosen algorithm. */
  function ExecuteStep(s: Search, g: Grid, m: Metric, ready: bool): (r: Result<(Search, Grid), Fault>)
    requires Valid(g)
    ensures r.Success? ==> SameKind(s, r.value.0) && Valid(r.value.1) && SameShape(g, r.value.1)
    ensures !ready ==> r == Success((s, g))
  {
    match s
    case DijkstraRun(d) =>
      (match DijkstraSearch.Step(d, g, m, ready)
       case Success(p) => Success((DijkstraRun(p.0), p.1))
       case Failure(f) => Failure(f))
    case GreedyRun(gr) =>
      (match GreedyBestFirst.Step(gr, g, m, ready)
       case Success(p) => Success((GreedyRun(p.0), p.1))
       case Failure(f) => Failure(f))
    case AStarRun(a) =>
      (match AStarSearch.Step(a, g, m, ready)
       case Success(p) => Success((AStarRun(p.0), p.1))
       case Failure(f) => Failure(f))
  }

  /** `reset` of the chosen algorithm: a new algorithm and a blank grid. */
  function ResetSearch(s: Search, g: Grid): (r: (Search, Grid))
    requires Valid(g)
    ensures r.0 == Fresh(s)
    ensures Valid(r.1) && SameShape(g, r.1) && r.1.start.None? && r.1.goal.None?
    ensures forall c | InBounds(r.1, c) :: TileAt(r.1, c) == Normal(false)
  {
    match s
    case DijkstraRun(d) => var p := DijkstraSearch.Reset(d, g); (DijkstraRun(p.0), p.1)
    case GreedyRun(gr) => var p := GreedyBestFirst.Reset(gr, g); (GreedyRun(p.0), p.1)
    case AStarRun(a) => var p := AStarSearch.Reset(a, g); (AStarRun(p.0), p.1)
  }

  /** The grid, the algorithm and the mouse-action state. */
  datatype App = App(grid: Grid, search: Search, fsm: MouseActionState)

  /** `App::new`: a 400 x 400 pixel grid of 20-pixel tiles at the window's
      corner, nothing designated, the machine at its first stage. */
  function NewApp(s: Search): (app: App)
    ensures Valid(app.grid) && app.grid.columns == 20 && app.grid.rows == 20 && app.grid.tileSize == 20
    ensures app.grid.offsetX == 0 && app.grid.offsetY == 0
    ensures app.grid.start.None? && app.grid.goal.None?
    ensures forall c | InBounds(app.grid, c) :: TileAt(app.grid, c) == Normal(false)
    ensures app.search == s && Stage(app.fsm) == 0
  {
    var g := Grids.New(0, 0, 400, 400, 20);
    BlockUnique(400, 20, g.columns, 20);
    BlockUnique(400, 20, g.rows, 20);
    App(g, s, Initial())
  }

  /** `handle_mouse_action` (left click): place the start, then the end,
      then start the algorithm; the machine moves on in every one of these
      stages, also when the click misses the grid or the start is refused.
      At `EndSimulation` a click does nothing. */
  function LeftClick(app: App, px: int, py: int): (r: App)
    requires Valid(app.grid)
    ensures Valid(r.grid) && SameShape(app.grid, r.grid) && SameKind(app.search, r.search)
    ensures r.fsm == Next(app.fsm)
    ensures app.fsm == EndSimulation ==> r == app
    ensures app.fsm != StartSimulation ==> r.search == app.search
    ensures app.fsm == StartSimulation ==> r.grid == app.grid
  {
    match app.fsm
    case SetStartPoint => app.(grid := OnMouseClicked(app.grid, px, py, Start), fsm := Next(app.fsm))
    case SetEndPoint => app.(grid := OnMouseClicked(app.grid, px, py, End), fsm := Next(app.fsm))
    case StartSimulation =>
      var s := StartSearch(app.search, app.grid);
      app.(search := if s.Success? then s.value else app.search, fsm := Next(app.fsm))
    case EndSimulation => app
  }

  /** The right click: the tile under the cursor becomes an obstacle, at
      any stage; the start and end designations stay. */
  function RightClick(app: App, px: int, py: int): (r: App)
    requires Valid(app.grid)
    ensures Valid(r.grid) && SameShape(app.grid, r.grid)
    ensures r.grid.start == app.grid.start && r.grid.goal == app.grid.goal
    ensures r.search == app.search && r.fsm == app.fsm
    ensures !InRect(app.grid, px, py) ==> r == app
    ensures InRect(app.grid, px, py) ==>
      var c := CellAt(app.grid, px, py);
      TileAt(r.grid, c) == Obstacle && SameExcept(app.grid, r.grid, {c})
  {
    app.(grid := OnMouseClicked(app.grid, px, py, Obstacle))
  }

  /** `update_simulation_state`: once the algorithm has completed nothing
      happens; otherwise one `execute_step`. */
  function UpdateSimulation(app: App, m: Metric, ready: bool): (r: Result<App, Fault>)
    requires Valid(app.grid)
    ensures Completed(app.search) ==> r == Success(app)
    ensures r.Success? ==> Valid(r.value.grid) && SameShape(app.grid, r.value.grid) && r.value.fsm == app.fsm
    ensures !Completed(app.search) ==>
      (r.Failure? <==> ExecuteStep(app.search, app.grid, m, ready).Failure?)
    ensures !Completed(app.search) && r.Success? ==>
      (r.value.search, r.value.grid) == ExecuteStep(app.search, app.grid, m, ready).value
  {
    if Completed(app.search) then Success(app)
    else
      match ExecuteStep(app.search, app.grid, m, ready)
      case Success(p) => Success(app.(search := p.0, grid := p.1))
      case Failure(f) => Failure(f)
  }

  /** `reset_simulation` (Escape): the machine back at its first stage, a
      new algorithm of the same kind and a blank grid without endpoints. */
  function ResetSimulation(app: App): (r: App)
    requires Valid(app.grid)
    ensures Stage(r.fsm) == 0 && r.search == Fresh(app.search) && !Completed(r.search)
    ensures Valid(r.grid) && SameShape(app.grid, r.grid) && r.grid.start.None? && r.grid.goal.None?
    ensures forall c | InBounds(r.grid, c) :: TileAt(r.grid, c) == Normal(false)
  {
    var p := ResetSearch(app.search, app.grid);
    App(p.1, p.0, Restart(app.fsm))
  }

  /** A sequence of frame updates, stopping at the first abort. */
  function Updates(app: App, m: Metric, readies: seq<bool>): Result<App, Fault>
    requires Valid(app.grid)
    decreases |readies|
  {
    if |readies| == 0 then Success(app)
    else
      match UpdateSimulation(app, m, readies[0])
      case Failure(f) => Failure(f)
      case Success(app') => Updates(app', m, readies[1..])
  }

  /** A completed simulation stays as it is, whatever frames follow. */
  lemma {:induction false} CompletedIsFinal(app: App, m: Metric, readies: seq<bool>)
    requires Valid(app.grid) && Completed(app.search)
    ensures Updates(app, m, readies) == Success(app)
    decreases |readies|
  {
    if |readies| > 0 {
      CompletedIsFinal(app, m, readies[1..]);
    }
  }

  /** A Dijkstra run whose frontier ran dry without reaching the goal stops
      processing but never reports completion (greedy best-first and A*
      do): every later frame runs a step again, the grid stays as it is and
      the statistics never show. */
  lemma {:induction false} ExhaustedDijkstraNeverCompletes(app: App, m: Metric, readies: seq<bool>)
    requires Valid(app.grid) && app.search.DijkstraRun?
    requires |app.search.d.tables.frontier| == 0 && !Completed(app.search)
    ensures Updates(app, m, readies).Success?
    ensures var r := Updates(app, m, readies).value;
      && r.search.DijkstraRun? && |r.search.d.tables.frontier| == 0
      && !Completed(r.search) && r.grid == app.grid && r.fsm == app.fsm
    decreases |readies|
  {
    if |readies| > 0 {
      var a1 := UpdateSimulation(app, m, readies[0]).value;
      ExhaustedDijkstraNeverCompletes(a1, m, readies[1..]);
    }
  }

  /** The setup sequence from the first stage: a click inside the grid
      places the start, a second one the end, and a third click anywhere
      starts the algorithm, which accepts the grid; the machine is then at
      its last stage. */
  lemma SetupStartsSearch(app: App, sx: int, sy: int, ex: int, ey: int, px: int, py: int)
    requires Valid(app.grid) && app.fsm == SetStartPoint
    requires InRect(app.grid, sx, sy) && InRect(app.grid, ex, ey)
    ensures var a1 := LeftClick(app, sx, sy);
      var a2 := LeftClick(a1, ex, ey);
      var a3 := LeftClick(a2, px, py);
      && a2.grid.start.Some? && Covers(app.grid, a2.grid.start.value, sx, sy)
      && a2.grid.goal.Some? && Covers(app.grid, a2.grid.goal.value, ex, ey)
      && StartSearch(app.search, a2.grid).Success?
      && a3.search == StartSearch(app.search, a2.grid).value
      && a3.grid == a2.grid && a3.fsm == EndSimulation
  {
  }

  /** A first click that misses the grid leaves a grid without a start, so
      the third click's start is refused, yet the machine still reaches its
      last stage: the algorithm never runs and further clicks change
      nothing until Escape. */
  lemma MissedStartStalls(app: App, sx: int, sy: int, ex: int, ey: int, px: int, py: int, qx: int, qy: int)
    requires Valid(app.grid) && app.fsm == SetStartPoint && app.grid.start.None?
    requires !InRect(app.grid, sx, sy)
    ensures var a3 := LeftClick(LeftClick(LeftClick(app, sx, sy), ex, ey), px, py);
      && a3.fsm == EndSimulation && a3.search == app.search && a3.grid.start.None?
      && LeftClick(a3, qx, qy) == a3
  {
  }

  /** The search before its start: empty tables. */
  ghost predicate Idle(s: Search) {
    match s
    case DijkstraRun(d) => d.tables == EmptyTables && d.visited == []
    case GreedyRun(gr) => gr.frontier == [] && gr.visited == [] && gr.pf.links == map[]
    case AStarRun(a) => a.tables == EmptyTables
  }

  /** The search after its start: the variant's run invariant. */
  ghost predicate Running(s: Search, g: Grid, m: Metric) {
    match s
    case DijkstraRun(d) => DijkstraSearch.Inv(d, g, m)
    case GreedyRun(gr) => GreedyBestFirst.Inv(gr, g)
    case AStarRun(a) => AStarSearch.Inv(a, g, m)
  }

  /** The application invariant: a well-formed grid, an idle algorithm
      until the machine has passed its start stage, and an idle or running
      algorithm after. */
  ghost predicate AppInv(app: App, m: Metric) {
    && Valid(app.grid)
    && (app.fsm != EndSimulation ==> Idle(app.search))
    && (Idle(app.search) || Running(app.search, app.grid, m))
  }

  lemma NewAppInv(s: Search, m: Metric)
    requires Idle(s)
    ensures AppInv(NewApp(s), m)
  {
  }

  /** The run invariants look at the grid only through its shape and its
      endpoints, so they survive a grid change that keeps both. */
  lemma RunningKeptByShape(s: Search, g: Grid, g': Grid, m: Metric)
    requires Running(s, g, m) && Valid(g') && SameShape(g, g')
    requires g'.start == g.start && g'.goal == g.goal
    ensures Running(s, g', m)
  {
    assert forall c :: InBounds(g, c) == InBounds(g', c);
  }

  /** Starting an idle algorithm on a grid with both endpoints puts it in
      its run invariant. */
  lemma StartRuns(s: Search, g: Grid, m: Metric)
    requires Idle(s) && Valid(g) && g.start.Some? && g.goal.Some?
    ensures StartSearch(s, g).Success? && Running(StartSearch(s, g).value, g, m)
  {
    match s
    case DijkstraRun(d) =>
      DijkstraSearch.StartEstablishesInv(g, m);
      assert DijkstraSearch.Start(d, g).value.tables == DijkstraSearch.Start(DijkstraSearch.DefaultDijkstra, g).value.tables;
    case GreedyRun(gr) =>
      GreedyBestFirst.StartEstablishesInv(g);
      var r := GreedyBestFirst.Start(gr, g).value;
      var r0 := GreedyBestFirst.Start(GreedyBestFirst.DefaultGreedy, g).value;
      assert r.frontier == r0.frontier && r.visited == r0.visited && r.pf.links == r0.pf.links;
    case AStarRun(a) =>
      AStarSearch.StartEstablishesInv(g, m);
      assert AStarSearch.Start(a, g).value.tables == AStarSearch.Start(AStarSearch.DefaultAStar, g).value.tables;
  }

  /** A frame update of an idle algorithm aborts nothing and leaves it
      idle on the same grid; one of a running algorithm aborts nothing and
      keeps it running, for step costs that are positive. */
  lemma StepKeepsInv(s: Search, g: Grid, m: Metric, ready: bool)
    requires Valid(g) && PositiveCost(m) && (Idle(s) || Running(s, g, m))
    ensures ExecuteStep(s, g, m, ready).Success?
    ensures var r := ExecuteStep(s, g, m, ready).value;
      && (Idle(s) ==> Idle(r.0) && r.1 == g)
      && (Running(s, g, m) ==> Running(r.0, r.1, m))
  {
    if Running(s, g, m) {
      match s
      case DijkstraRun(d) => DijkstraSearch.StepPreservesInv(d, g, m, ready);
      case GreedyRun(gr) => GreedyBestFirst.StepPreservesInv(gr, g, m, ready);
      case AStarRun(a) => AStarSearch.StepPreservesInv(a, g, m, ready);
    }
  }

  /** Every event keeps the application invariant, and a frame update of
      an application in the invariant never aborts: whatever the user
      clicks, the algorithms' panics cannot be reached. */
  lemma EventsKeepInv(app: App, m: Metric, px: int, py: int, ready: bool)
    requires AppInv(app, m) && PositiveCost(m)
    ensures AppInv(LeftClick(app, px, py), m)
    ensures AppInv(RightClick(app, px, py), m)
    ensures AppInv(ResetSimulation(app), m)
    ensures UpdateSimulation(app, m, ready).Success? && AppInv(UpdateSimulation(app, m, ready).value, m)
  {
    ClicksKeepInv(app, m, px, py);
    UpdateKeepsInv(app, m, ready);
  }

  /** Mouse clicks and the reset keep the application invariant. */
  lemma ClicksKeepInv(app: App, m: Metric, px: int, py: int)
    requires AppInv(app, m)
    ensures AppInv(LeftClick(app, px, py), m)
    ensures AppInv(RightClick(app, px, py), m)
    ensures AppInv(ResetSimulation(app), m)
  {
    if Running(app.search, app.grid, m) {
      RunningKeptByShape(app.search, app.grid, RightClick(app, px, py).grid, m);
    }
  }

  /** A frame update keeps the application invariant and never aborts. */
  lemma UpdateKeepsInv(app: App, m: Metric, ready: bool)
    requires AppInv(app, m) && PositiveCost(m)
    ensures UpdateSimulation(app, m, ready).Success? && AppInv(UpdateSimulation(app, m, ready).value, m)
  {
    if app.fsm == StartSimulation && app.grid.start.Some? && app.grid.goal.Some? {
      StartRuns(app.search, app.grid, m);
    }
    if !Completed(app.search) {
      StepKeepsInv(app.search, app.grid, m, ready);
    }
  }
}

=== FILE: bfs.dfy ===
/** Breadth-first search as a per-step state machine: a FIFO queue of cells
    to expand, the list of discovered cells, a running flag and a step
    counter. A step pops one cell and discovers its unvisited, non-obstacle
    neighbours in the order Up, Down, Left, Right; discovering the end cell
    stops the search at once. The pacing timer is the `ready` flag. */
module BreadthFirst {
  import opened Wrappers
  import opened MapTypes
  import opened Grids
  import opened SearchCommon

  datatype Bfs = Bfs(queue: seq<Coord>, visited: seq<Coord>, isProcessing: bool, steps: nat)

  const DefaultBfs := Bfs([], [], false, 0)

  /** `is_goal_reached`: reports whether `current` is the goal and, if it
      is, stops the search; nothing else changes. */
  function GoalReached(b: Bfs, current: Coord, goal: Coord): (r: (bool, Bfs))
    ensures r.0 <==> current == goal
    ensures r.1.queue == b.queue && r.1.visited == b.visited && r.1.steps == b.steps
    ensures r.1.isProcessing <==> b.isProcessing && current != goal
  {
    if current != goal then (false, b) else (true, b.(isProcessing := false))
  }

  /** `start`: without both endpoints nothing happens; otherwise the start
      cell is queued and the search runs. */
  function Start(b: Bfs, g: Grid): (r: Bfs)
    ensures g.start.None? || g.goal.None? ==> r == b
    ensures g.start.Some? && g.goal.Some? ==>
      && r.queue == b.queue + [g.start.value] && r.isProcessing
      && r.visited == b.visited && r.steps == b.steps
  {
    if g.start.None? || g.goal.None? then b
    else b.(queue := b.queue + [g.start.value], isProcessing := true)
  }

  /** The candidate in direction `d` is discovered: it lies in the grid, is
      not yet discovered and is not an obstacle. */
  predicate Discovers(b: Bfs, g: Grid, cur: Coord, d: Direction)
    requires Valid(g)
  {
    var n := Candidate(g, cur, d);
    n.Some? && n.value !in b.visited && !IsObstacle(g, n.value)
  }

  /** One pass of the direction loop: a discovered cell is marked visited
      and recorded; the goal stops the loop (flag set) without being queued,
      any other discovery is queued. */
  function ExpandOne(b: Bfs, g: Grid, cur: Coord, goal: Coord, d: Direction): (r: (Bfs, Grid, bool))
    requires Valid(g)
    ensures !Discovers(b, g, cur, d) ==> r == (b, g, false)
    ensures Discovers(b, g, cur, d) ==>
      var n := Candidate(g, cur, d).value;
      && r.0.visited == b.visited + [n] && r.1 == MarkVisited(g, n) && r.0.steps == b.steps
      && (r.2 <==> n == goal)
      && (r.2 ==> r.0.queue == b.queue && !r.0.isProcessing)
      && (!r.2 ==> r.0.queue == b.queue + [n] && r.0.isProcessing == b.isProcessing)
  {
    if !Discovers(b, g, cur, d) then (b, g, false)
    else
      var n := Candidate(g, cur, d).value;
      var b' := b.(visited := b.visited + [n]);
      var (hit, b'') := GoalReached(b', n, goal);
      if hit then (b'', MarkVisited(g, n), true)
      else (b'.(queue := b'.queue + [n]), MarkVisited(g, n), false)
  }

  /** The loop over the directions `dirs` of one step; it ends early when
      the goal is discovered. */
  function Expand(b: Bfs, g: Grid, cur: Coord, goal: Coord, dirs: seq<Direction>): (r: (Bfs, Grid, bool))
    requires Valid(g)
    ensures Valid(r.1) && SameShape(g, r.1) && r.1.start == g.start && r.1.goal == g.goal
    ensures |b.visited| <= |r.0.visited| && r.0.visited[..|b.visited|] == b.visited
    ensures r.0.steps == b.steps
    decreases |dirs|
  {
    if |dirs| == 0 then (b, g, false)
    else
      var one := ExpandOne(b, g, cur, goal, dirs[0]);
      if one.2 then one else Expand(one.0, one.1, cur, goal, dirs[1..])
  }

  /** The cells an expansion discovered, in discovery order. */
  function Found(b: Bfs, r: (Bfs, Grid, bool)): seq<Coord>
    requires |b.visited| <= |r.0.visited|
  {
    r.0.visited[|b.visited|..]
  }

  /** One pass of the direction loop: the loop is this pass followed by
      the rest unless the pass found the goal. The pass discovers at most
      the candidate in its direction, queues it unless it is the goal, and
      writes no obstacle. */
  lemma ExpandStep(b: Bfs, g: Grid, cur: Coord, goal: Coord, dirs: seq<Direction>)
    requires Valid(g) && |dirs| > 0
    ensures var one := ExpandOne(b, g, cur, goal, dirs[0]);
      && Expand(b, g, cur, goal, dirs) == (if one.2 then one else Expand(one.0, one.1, cur, goal, dirs[1..]))
      && |b.visited| <= |one.0.visited| && one.0.visited == b.visited + Found(b, one)
      && Found(b, one) == (if Discovers(b, g, cur, dirs[0]) then [Candidate(g, cur, dirs[0]).value] else [])
      && (one.2 ==> Found(b, one) == [goal] && one.0.queue == b.queue && !one.0.isProcessing)
      && (!one.2 ==> one.0.queue == b.queue + Found(b, one) && goal !in Found(b, one)
                     && one.0.isProcessing == b.isProcessing)
  {
    var one := ExpandOne(b, g, cur, goal, dirs[0]);
    if Discovers(b, g, cur, dirs[0]) {
      var n := Candidate(g, cur, dirs[0]).value;
      assert Found(b, one) == [n];
    } else {
      assert Found(b, one) == [];
    }
  }

  /** The tiles one pass of the direction loop writes. */
  lemma ExpandStepGrid(b: Bfs, g: Grid, cur: Coord, goal: Coord, d: Direction)
    requires Valid(g)
    ensures var one := ExpandOne(b, g, cur, goal, d);
      && |b.visited| <= |one.0.visited|
      && Valid(one.1) && SameShape(g, one.1) && SameObstacles(g, one.1) && EndpointsKept(g, one.1)
      && SameExcept(g, one.1, set n | n in Found(b, one))
  {
    var one := ExpandOne(b, g, cur, goal, d);
    if Discovers(b, g, cur, d) {
      var n := Candidate(g, cur, d).value;
      assert Found(b, one) == [n];
      assert (set x | x in [n]) == {n};
    } else {
      assert Found(b, one) == [];
    }
  }

  /** When the first pass does not stop the loop, the discoveries of the
      loop are those of the pass followed by those of the rest. */
  lemma ExpandSplit(b: Bfs, g: Grid, cur: Coord, goal: Coord, dirs: seq<Direction>)
    requires Valid(g) && |dirs| > 0 && !ExpandOne(b, g, cur, goal, dirs[0]).2
    ensures var one := ExpandOne(b, g, cur, goal, dirs[0]);
      Found(b, Expand(b, g, cur, goal, dirs)) == Found(b, one) + Found(one.0, Expand(one.0, one.1, cur, goal, dirs[1..]))
  {
    var one := ExpandOne(b, g, cur, goal, dirs[0]);
    ExpandStep(b, g, cur, goal, dirs);
    var r := Expand(one.0, one.1, cur, goal, dirs[1..]);
    assert r.0.visited[..|one.0.visited|] == one.0.visited;
  }

  /** An expansion only writes the tiles it discovers, writes no obstacle
      and keeps Start and End in place. */
  lemma {:induction false} ExpandGrid(b: Bfs, g: Grid, cur: Coord, goal: Coord, dirs: seq<Direction>)
    requires Valid(g)
    ensures SameExcept(g, Expand(b, g, cur, goal, dirs).1, set n | n in Found(b, Expand(b, g, cur, goal, dirs)))
    ensures SameObstacles(g, Expand(b, g, cur, goal, dirs).1)
    ensures EndpointsKept(g, Expand(b, g, cur, goal, dirs).1)
    decreases |dirs|
  {
    if |dirs| > 0 {
      var one := ExpandOne(b, g, cur, goal, dirs[0]);
      ExpandStep(b, g, cur, goal, dirs);
      ExpandStepGrid(b, g, cur, goal, dirs[0]);
      if !one.2 {
        var r := Expand(one.0, one.1, cur, goal, dirs[1..]);
        ExpandGrid(one.0, one.1, cur, goal, dirs[1..]);
        ExpandSplit(b, g, cur, goal, dirs);
        SameExceptTrans(g, one.1, r.1, set n | n in Found(b, one), set n | n in Found(one.0, r));
        SameObstaclesTrans(g, one.1, r.1);
        assert (set n | n in Found(b, one) + Found(one.0, r)) ==
          (set n | n in Found(b, one)) + (set n | n in Found(one.0, r));
      }
    }
  }

  /** An expansion discovers only neighbours of `cur` (as `Filter` lists
      them) that were not yet discovered. */
  lemma {:induction false} ExpandFresh(b: Bfs, g: Grid, cur: Coord, goal: Coord, dirs: seq<Direction>)
    requires Valid(g)
    ensures forall n | n in Found(b, Expand(b, g, cur, goal, dirs)) :: n in Filter(g, cur, dirs) && n !in b.visited
    decreases |dirs|
  {
    if |dirs| > 0 {
      var one := ExpandOne(b, g, cur, goal, dirs[0]);
      ExpandStep(b, g, cur, goal, dirs);
      assert Filter(g, cur, dirs) == if Keep(g, cur, dirs[0]).None? then Filter(g, cur, dirs[1..])
        else [Keep(g, cur, dirs[0]).value] + Filter(g, cur, dirs[1..]);
      if !one.2 {
        var r := Expand(one.0, one.1, cur, goal, dirs[1..]);
        ExpandFresh(one.0, one.1, cur, goal, dirs[1..]);
        FilterSameObstacles(g, one.1, cur, dirs[1..]);
        ExpandSplit(b, g, cur, goal, dirs);
        forall n | n in Found(b, Expand(b, g, cur, goal, dirs)) ensures n in Filter(g, cur, dirs) && n !in b.visited {
          if n !in Found(b, one) {
            assert n in Found(one.0, r);
          }
        }
      }
    }
  }

  /** Discoveries come in direction order. */
  lemma {:induction false} ExpandOrdered(b: Bfs, g: Grid, cur: Coord, goal: Coord, dirs: seq<Direction>)
    requires Valid(g) && Increasing(dirs)
    ensures InDirectionOrder(cur, Found(b, Expand(b, g, cur, goal, dirs)))
    decreases |dirs|
  {
    if |dirs| > 0 {
      var one := ExpandOne(b, g, cur, goal, dirs[0]);
      ExpandStep(b, g, cur, goal, dirs);
      if !one.2 {
        var r := Expand(one.0, one.1, cur, goal, dirs[1..]);
        IncreasingTail(dirs);
        ExpandOrdered(one.0, one.1, cur, goal, dirs[1..]);
        ExpandSplit(b, g, cur, goal, dirs);
        if Discovers(b, g, cur, dirs[0]) {
          var n := Candidate(g, cur, dirs[0]).value;
          var tail := Found(one.0, r);
          ExpandFresh(one.0, one.1, cur, goal, dirs[1..]);
          FilterRanksAbove(one.1, cur, dirs);
          OrderCons(cur, n, tail);
        }
      }
    }
  }

  /** Every discovery queued and the running flag untouched. */
  predicate QueuedAll(b: Bfs, r: (Bfs, Grid, bool), goal: Coord)
    requires |b.visited| <= |r.0.visited|
  {
    r.0.queue == b.queue + Found(b, r) && goal !in Found(b, r) && r.0.isProcessing == b.isProcessing
  }

  /** Discovery ended with the goal, which is not queued, and the search
      stopped. */
  predicate StoppedAt(b: Bfs, r: (Bfs, Grid, bool), goal: Coord)
    requires |b.visited| <= |r.0.visited|
  {
    var found := Found(b, r);
    && |found| > 0 && found[|found| - 1] == goal
    && r.0.queue == b.queue + found[..|found| - 1] && !r.0.isProcessing
  }

  /** Discoveries queued in front of a run that stopped at the goal keep
      their place in the queue. */
  lemma StoppedAtCons(b: Bfs, one: (Bfs, Grid, bool), r: (Bfs, Grid, bool), goal: Coord)
    requires |b.visited| <= |one.0.visited| <= |r.0.visited|
    requires Found(b, r) == Found(b, one) + Found(one.0, r)
    requires one.0.queue == b.queue + Found(b, one)
    requires StoppedAt(one.0, r, goal)
    ensures StoppedAt(b, r, goal)
  {
    var tail := Found(one.0, r);
    var f := Found(b, one) + tail;
    assert f[..|f| - 1] == Found(b, one) + tail[..|tail| - 1];
  }

  /** Without the goal among the discoveries all of them are queued and the
      running flag is untouched. */
  lemma {:induction false} ExpandQueuesAll(b: Bfs, g: Grid, cur: Coord, goal: Coord, dirs: seq<Direction>)
    requires Valid(g)
    ensures !Expand(b, g, cur, goal, dirs).2 ==> QueuedAll(b, Expand(b, g, cur, goal, dirs), goal)
    decreases |dirs|
  {
    if |dirs| > 0 {
      var one := ExpandOne(b, g, cur, goal, dirs[0]);
      ExpandStep(b, g, cur, goal, dirs);
      if !one.2 {
        var r := Expand(one.0, one.1, cur, goal, dirs[1..]);
        ExpandQueuesAll(one.0, one.1, cur, goal, dirs[1..]);
        ExpandSplit(b, g, cur, goal, dirs);
        if !r.2 {
          assert r.0.queue == b.queue + (Found(b, one) + Found(one.0, r));
        }
      }
    }
  }

  /** With the goal among the discoveries, discovery ends at the goal, which
      is not queued, and the search stops. */
  lemma {:induction false} ExpandStopsAtGoal(b: Bfs, g: Grid, cur: Coord, goal: Coord, dirs: seq<Direction>)
    requires Valid(g)
    ensures Expand(b, g, cur, goal, dirs).2 ==> StoppedAt(b, Expand(b, g, cur, goal, dirs), goal)
    decreases |dirs|
  {
    if |dirs| > 0 {
      var one := ExpandOne(b, g, cur, goal, dirs[0]);
      ExpandStep(b, g, cur, goal, dirs);
      if !one.2 {
        var r := Expand(one.0, one.1, cur, goal, dirs[1..]);
        ExpandStopsAtGoal(one.0, one.1, cur, goal, dirs[1..]);
        ExpandSplit(b, g, cur, goal, dirs);
        if r.2 {
          StoppedAtCons(b, one, r, goal);
        }
      }
    }
  }

  /** An expansion that does not stop discovers every neighbour of `cur`
      not discovered before. */
  lemma {:induction false} ExpandComplete(b: Bfs, g: Grid, cur: Coord, goal: Coord, dirs: seq<Direction>)
    requires Valid(g)
    ensures !Expand(b, g, cur, goal, dirs).2 ==>
      forall n | n in Filter(g, cur, dirs) && n !in b.visited :: n in Found(b, Expand(b, g, cur, goal, dirs))
    decreases |dirs|
  {
    if |dirs| > 0 {
      var one := ExpandOne(b, g, cur, goal, dirs[0]);
      ExpandStep(b, g, cur, goal, dirs);
      if !one.2 {
        var r := Expand(one.0, one.1, cur, goal, dirs[1..]);
        ExpandComplete(one.0, one.1, cur, goal, dirs[1..]);
        FilterSameObstacles(g, one.1, cur, dirs[1..]);
        ExpandSplit(b, g, cur, goal, dirs);
        assert Filter(g, cur, dirs) == if Keep(g, cur, dirs[0]).None? then Filter(g, cur, dirs[1..])
          else [Keep(g, cur, dirs[0]).value] + Filter(g, cur, dirs[1..]);
        if !r.2 {
          forall n | n in Filter(g, cur, dirs) && n !in b.visited
            ensures n in Found(b, Expand(b, g, cur, goal, dirs))
          {
            if n in Filter(g, cur, dirs[1..]) && n !in one.0.visited {
              assert n in Found(one.0, r);
            } else {
              assert n in Found(b, one);
            }
          }
        }
      }
    }
  }

  /** An expansion over directions in increasing order discovers distinct
      neighbours of `cur` that were not discovered before, and appends them
      to the discovered list. */
  lemma ExpandDiscovers(b: Bfs, g: Grid, cur: Coord, goal: Coord, dirs: seq<Direction>)
    requires Valid(g) && Increasing(dirs)
    ensures var r := Expand(b, g, cur, goal, dirs);
      && r.0.visited == b.visited + Found(b, r)
      && (forall n | n in Found(b, r) :: n in Filter(g, cur, dirs) && n !in b.visited)
      && Distinct(Found(b, r))
  {
    var r := Expand(b, g, cur, goal, dirs);
    ExpandFresh(b, g, cur, goal, dirs);
    ExpandOrdered(b, g, cur, goal, dirs);
    var found := Found(b, r);
    forall i, j | 0 <= i < j < |found| ensures found[i] != found[j] {
      assert Rank(DirectionTo(cur, found[i])) < Rank(DirectionTo(cur, found[j]));
    }
  }

  /** `update`: a no-op unless running and ready; an empty queue ends the
      search; otherwise the front cell is popped, the step counted and the
      cell expanded, and a popped goal also ends the search. Unwrapping an
      unset end is the `MissingEndpoint` panic: every pop reaches an unwrap
      of the end. */
  function Update(b: Bfs, g: Grid, ready: bool): (r: Result<(Bfs, Grid), Fault>)
    requires Valid(g)
    ensures !b.isProcessing || !ready ==> r == Success((b, g))
    ensures b.isProcessing && ready && |b.queue| == 0 ==> r == Success((b.(isProcessing := false), g))
    ensures b.isProcessing && ready && |b.queue| > 0 ==> (r.Failure? <==> g.goal.None?)
    ensures r.Success? && b.isProcessing && ready && |b.queue| > 0 ==> r.value.0.steps == b.steps + 1
    ensures r.Success? ==>
      && Valid(r.value.1) && SameShape(g, r.value.1) && SameObstacles(g, r.value.1) && EndpointsKept(g, r.value.1)
      && r.value.1.start == g.start && r.value.1.goal == g.goal
  {
    if !b.isProcessing || !ready then Success((b, g))
    else if |b.queue| == 0 then Success((b.(isProcessing := false), g))
    else if g.goal.None? then Failure(MissingEndpoint)
    else Success(Advance(b, g, g.goal.value))
  }

  /** The pop of the front cell, its expansion, and the goal check of the
      popped cell unless the expansion stopped at the goal. */
  function Advance(b: Bfs, g: Grid, goal: Coord): (r: (Bfs, Grid))
    requires Valid(g) && |b.queue| > 0
    ensures Valid(r.1) && SameShape(g, r.1) && SameObstacles(g, r.1) && EndpointsKept(g, r.1)
    ensures r.1.start == g.start && r.1.goal == g.goal
    ensures r.0.steps == b.steps + 1
  {
    var cur := b.queue[0];
    var popped := b.(queue := b.queue[1..], steps := b.steps + 1);
    ExpandGrid(popped, g, cur, goal, Directions);
    var e := Expand(popped, g, cur, goal, Directions);
    if e.2 then (e.0, e.1) else (GoalReached(e.0, cur, goal).1, e.1)
  }

  /** A step's advance is the expansion of the popped front cell, followed
      by the goal check of that cell unless the expansion stopped. */
  lemma AdvanceIsExpand(b: Bfs, g: Grid, goal: Coord)
    requires Valid(g) && |b.queue| > 0
    ensures var popped := b.(queue := b.queue[1..], steps := b.steps + 1);
      var r := Expand(popped, g, b.queue[0], goal, Directions);
      var a := Advance(b, g, goal).0;
      && a.visited == r.0.visited && a.queue == r.0.queue
      && a.isProcessing == (r.0.isProcessing && (r.2 || b.queue[0] != goal))
  {
  }

  /** What one ready step of a running search does with a non-empty
      queue: it counts the step, pops the front cell `cur`, and appends to
      the discovered list distinct neighbours of `cur` not discovered
      before, in direction order. If the end is not among them, all such
      neighbours are discovered and queued, and the search goes on unless
      `cur` is the end; if it is, discovery ends with the end, which is not
      queued, and the search stops. */
  lemma UpdateExpands(b: Bfs, g: Grid)
    requires Valid(g) && b.isProcessing && |b.queue| > 0 && g.goal.Some?
    ensures Update(b, g, true).Success?
    ensures var b' := Update(b, g, true).value.0;
      var cur := b.queue[0];
      var goal := g.goal.value;
      && b'.steps == b.steps + 1
      && |b.visited| <= |b'.visited|
      && var found := b'.visited[|b.visited|..];
      && b'.visited == b.visited + found
      && (forall n | n in found :: n in Neighbours(g, cur) && n !in b.visited)
      && Distinct(found)
      && (forall i, j | 0 <= i < j < |found| :: Rank(DirectionTo(cur, found[i])) < Rank(DirectionTo(cur, found[j])))
      && (goal !in found ==>
            && b'.queue == b.queue[1..] + found
            && (forall n | n in Neighbours(g, cur) && n !in b.visited :: n in found)
            && (b'.isProcessing <==> cur != goal))
      && (goal in found ==>
            && found[|found| - 1] == goal
            && b'.queue == b.queue[1..] + found[..|found| - 1]
            && !b'.isProcessing)
  {
    var goal := g.goal.value;
    var cur := b.queue[0];
    var popped := b.(queue := b.queue[1..], steps := b.steps + 1);
    var r := Expand(popped, g, cur, goal, Directions);
    ExpandDiscovers(popped, g, cur, goal, Directions);
    ExpandOrdered(popped, g, cur, goal, Directions);
    ExpandQueuesAll(popped, g, cur, goal, Directions);
    ExpandStopsAtGoal(popped, g, cur, goal, Directions);
    ExpandComplete(popped, g, cur, goal, Directions);
    AdvanceIsExpand(b, g, goal);
    var b' := Update(b, g, true).value.0;
    assert b'.visited[|b.visited|..] == Found(popped, r);
  }

  /** The run invariant: discoveries are distinct cells of the grid; every
      queued cell was discovered or is the start; the end is only ever
      queued as the start; a running search has both endpoints; and once
      the end is discovered the search no longer runs. */
  ghost predicate Inv(b: Bfs, g: Grid) {
    && Valid(g)
    && Distinct(b.visited)
    && (forall v | v in b.visited :: InBounds(g, v))
    && (forall q | q in b.queue :: InBounds(g, q) && (q in b.visited || g.start == Some(q)))
    && (forall q | q in b.queue && g.goal == Some(q) :: g.start == Some(q))
    && (b.isProcessing ==> g.start.Some? && g.goal.Some?)
    && (g.goal.Some? && g.goal.value in b.visited ==> !b.isProcessing)
  }

  lemma StartEstablishesInv(g: Grid)
    requires Valid(g)
    ensures Inv(Start(DefaultBfs, g), g)
  {
  }

  /** After a step, every queued cell was queued before or is a discovery
      other than the goal. */
  lemma QueueGrowth(q: seq<Coord>, found: seq<Coord>, goal: Coord, q': seq<Coord>)
    requires |q| > 0
    requires || (goal !in found && q' == q[1..] + found)
             || (|found| > 0 && found[|found| - 1] == goal && Distinct(found) && q' == q[1..] + found[..|found| - 1])
    ensures forall x | x in q' :: x in q || (x in found && x != goal)
  {
    if goal in found {
      var k := |found| - 1;
      assert forall i | 0 <= i < k :: found[i] != found[k];
      assert forall x | x in found[..k] :: x in found && x != goal;
    }
    assert forall x | x in q[1..] :: x in q;
  }

  /** A step from an invariant state never panics and keeps the invariant. */
  lemma UpdatePreservesInv(b: Bfs, g: Grid, ready: bool)
    requires Inv(b, g)
    ensures Update(b, g, ready).Success?
    ensures Inv(Update(b, g, ready).value.0, Update(b, g, ready).value.1)
  {
    if b.isProcessing && ready && |b.queue| > 0 {
      var goal := g.goal.value;
      UpdateExpands(b, g);
      var r := Update(b, g, ready).value;
      var b' := r.0;
      var found := b'.visited[|b.visited|..];
      DistinctAppend(b.visited, found);
      QueueGrowth(b.queue, found, goal, b'.queue);
      assert forall n | n in found :: InBounds(g, n);
      assert goal !in b.visited;
    }
  }

  /** Cells not yet discovered, counted twice, plus the queue length. */
  function Measure(b: Bfs, g: Grid): nat {
    2 * |AllCells(g.columns, g.rows) - set v | v in b.visited| + |b.queue|
  }

  /** Every step of a running search either ends it or strictly lowers the
      measure, so a run on a finite grid stops after finitely many steps:
      each pop shrinks the queue and each discovery uses up an undiscovered
      cell while adding one queue entry. */
  lemma UpdateProgress(b: Bfs, g: Grid)
    requires Inv(b, g) && b.isProcessing
    ensures var r := Update(b, g, true);
      r.Success? && (!r.value.0.isProcessing || Measure(r.value.0, r.value.1) < Measure(b, g))
  {
    UpdatePreservesInv(b, g, true);
    if |b.queue| > 0 {
      UpdateExpands(b, g);
      var r := Update(b, g, true).value;
      var found := r.0.visited[|b.visited|..];
      var all := AllCells(g.columns, g.rows);
      assert forall n | n in found :: n in Neighbours(g, b.queue[0]);
      DiscoveryUsesCells(all, b.visited, found);
      assert r.1.columns == g.columns && r.1.rows == g.rows;
    }
  }

  /** The four cells around `s`, in direction order. */
  function Around(s: Coord): seq<Coord>
    requires 0 < s.x && 0 < s.y
  {
    [Coord(s.x, s.y - 1), Coord(s.x, s.y + 1), Coord(s.x - 1, s.y), Coord(s.x + 1, s.y)]
  }

  /** Distinct cells adjacent to `s`, in strictly increasing direction
      order, that include all four cells around `s` are exactly those four
      in direction order. */
  lemma AllFourInOrder(s: Coord, found: seq<Coord>)
    requires 0 < s.x && 0 < s.y
    requires Distinct(found) && forall n | n in found :: Adjacent(s, n)
    requires forall i, j | 0 <= i < j < |found| :: Rank(DirectionTo(s, found[i])) < Rank(DirectionTo(s, found[j]))
    requires forall n | n in Around(s) :: n in found
    ensures found == Around(s)
  {
    var expected := Around(s);
    assert |found| == 4 by {
      forall n | n in found ensures n in expected {
        AdjacentByDirection(s, n);
      }
      DistinctCard(found);
      DistinctCard(expected);
      SubsetCardinality(set n | n in expected, set n | n in found);
      SubsetCardinality(set n | n in found, set n | n in expected);
    }
    var r0, r1, r2, r3 := Rank(DirectionTo(s, found[0])), Rank(DirectionTo(s, found[1])),
      Rank(DirectionTo(s, found[2])), Rank(DirectionTo(s, found[3]));
    assert r0 < r1 < r2 < r3 < 4;
    forall k | 0 <= k < 4 ensures found[k] == expected[k] {
      AdjacentByDirection(s, found[k]);
    }
  }

  /** The first step from a start cell with four free neighbours and an end
      elsewhere queues those neighbours in the order Up, Down, Left, Right. */
  lemma FirstStepQueuesNeighbours(g: Grid, s: Coord)
    requires Valid(g) && g.start == Some(s) && g.goal.Some?
    requires s != g.goal.value && !Adjacent(s, g.goal.value)
    requires 0 < s.x && s.x + 1 < g.columns && 0 < s.y && s.y + 1 < g.rows
    requires forall n | n in Around(s) :: !IsObstacle(g, n)
    ensures var r := Update(Start(DefaultBfs, g), g, true);
      && r.Success?
      && r.value.0.queue == Around(s)
      && r.value.0.steps == 1 && r.value.0.isProcessing
  {
    var b := Start(DefaultBfs, g);
    assert b.queue == [s] && b.visited == [] && b.isProcessing;
    UpdateExpands(b, g);
    var b' := Update(b, g, true).value.0;
    var found := b'.visited[|b.visited|..];
    FirstStepFindsAround(g, s, found);
    AllFourInOrder(s, found);
  }

  lemma FirstStepFindsAround(g: Grid, s: Coord, found: seq<Coord>)
    requires Valid(g) && g.goal.Some? && !Adjacent(s, g.goal.value)
    requires 0 < s.x && s.x + 1 < g.columns && 0 < s.y && s.y + 1 < g.rows
    requires forall n | n in Around(s) :: !IsObstacle(g, n)
    requires forall n | n in found :: n in Neighbours(g, s)
    requires g.goal.value !in found ==> forall n | n in Neighbours(g, s) :: n in found
    ensures g.goal.value !in found
    ensures forall n | n in found :: Adjacent(s, n)
    ensures forall n | n in Around(s) :: n in found
  {
    forall n | n in Around(s) ensures n in Neighbours(g, s) { }
  }

  /** The grid of the first-step scenario: 10x10 one-pixel tiles, start
      clicked at (3, 3), end at (9, 9). */
  function ScenarioGrid(): (g: Grid)
    ensures Valid(g) && g.columns == 10 && g.rows == 10
    ensures g.start == Some(Coord(3, 3)) && g.goal == Some(Coord(9, 9))
    ensures forall c | InBounds(g, c) && c != Coord(3, 3) && c != Coord(9, 9) :: TileAt(g, c) == Normal(false)
  {
    var g0 := New(0, 0, 10, 10, 1);
    assert g0.columns == 10 && g0.rows == 10;
    var g1 := OnMouseClicked(g0, 3, 3, Tile.Start);
    assert Covers(g0, Coord(3, 3), 3, 3);
    var g := OnMouseClicked(g1, 9, 9, End);
    assert Covers(g1, Coord(9, 9), 9, 9);
    g
  }

  /** The first-step scenario: on a 10x10 grid without obstacles, with the
      start at (3, 3) and the end at (9, 9), as `ScenarioGrid` builds it,
      one step queues (3, 2), (3, 4), (2, 3), (4, 3) in that order and
      counts one step. */
  lemma FirstStepScenario(g: Grid)
    requires Valid(g) && g.columns == 10 && g.rows == 10
    requires g.start == Some(Coord(3, 3)) && g.goal == Some(Coord(9, 9))
    requires forall c | InBounds(g, c) && c != Coord(3, 3) && c != Coord(9, 9) :: TileAt(g, c) == Normal(false)
    ensures var r := Update(Start(DefaultBfs, g), g, true);
      && r.Success?
      && r.value.0.queue == [Coord(3, 2), Coord(3, 4), Coord(2, 3), Coord(4, 3)]
      && r.value.0.steps == 1 && r.value.0.isProcessing
  {
    var s := Coord(3, 3);
    assert Around(s) == [Coord(3, 2), Coord(3, 4), Coord(2, 3), Coord(4, 3)];
    forall n | n in Around(s) ensures !IsObstacle(g, n) {
      assert InBounds(g, n) && n != s && n != Coord(9, 9);
    }
    assert !Adjacent(s, Coord(9, 9));
    FirstStepQueuesNeighbours(g, s);
  }
  /** `start` queues the start cell without recording it as discovered,
      so the second step of the scenario discovers the start again from
      its Up neighbour (3, 2) and queues it a second time. */
  lemma SecondStepRequeuesStart(g: Grid)
    requires Valid(g) && g.columns == 10 && g.rows == 10
    requires g.start == Some(Coord(3, 3)) && g.goal == Some(Coord(9, 9))
    requires forall c | InBounds(g, c) && c != Coord(9, 9) :: TileAt(g, c) == (if c == Coord(3, 3) then Tile.Start else Normal(false))
    ensures Start(DefaultBfs, g).queue == [Coord(3, 3)]
    ensures var b1 := Update(Start(DefaultBfs, g), g, true).value;
      var r := Update(b1.0, b1.1, true);
      && r.Success?
      && Coord(3, 3) !in b1.0.visited
      && Coord(3, 3) in r.value.0.queue && Coord(3, 3) in r.value.0.visited
  {
    var s := Coord(3, 3);
    var b0 := Start(DefaultBfs, g);
    FirstStepScenario(g);
    UpdateExpands(b0, g);
    var b1 := Update(b0, g, true).value;
    assert b1.0.visited == [Coord(3, 2), Coord(3, 4), Coord(2, 3), Coord(4, 3)];
    var cur := Coord(3, 2);
    var g1 := b1.1;
    assert !IsObstacle(g1, s) by {
      assert SameObstacles(g, g1);
      assert InBounds(g, s);
    }
    assert s in Neighbours(g1, cur);
    assert Coord(9, 9) !in Neighbours(g1, cur) by {
      assert !Adjacent(cur, Coord(9, 9));
    }
    UpdateExpands(b1.0, g1);
  }
}

=== FILE: dijkstra.dfy ===
/** Dijkstra's algorithm (uniform-cost search) on the tile grid, one
    expansion per ready step. The frontier is ordered by the cost so far;
    a popped cell that is the goal ends the run and the predecessor walk
    from the goal becomes the path; any other popped cell is marked
    visited and its neighbours are relaxed. */
module DijkstraSearch {
  import opened Wrappers
  import opened MapTypes
  import opened Grids
  import opened SearchCommon
  import opened PriorityQueues
  import opened Pathfinding
  import opened Relaxation

  /** Frontier, costs and predecessors; the solution path; every cell ever
      pushed, in push order (re-pushes included); the coordinator. */
  datatype Dijkstra = Dijkstra(tables: Tables, path: seq<Coord>, visited: seq<Coord>, co: Coordinator)

  const DefaultDijkstra := Dijkstra(EmptyTables, [], [], IdleCoordinator)

  /** `start`: refuses a grid without both endpoints; otherwise seeds the
      tables with the start cell. It does not switch processing on. */
  function Start(d: Dijkstra, g: Grid): (r: Result<Dijkstra, AlgorithmError>)
    ensures r.Failure? <==> g.start.None? || g.goal.None?
    ensures r.Failure? ==> r.error == InvalidInputData
    ensures r.Success? ==>
      && r.value.path == d.path && r.value.visited == d.visited && r.value.co == d.co
      && g.start.value in Keys(r.value.tables.frontier)
      && g.start.value in r.value.tables.cost && r.value.tables.cost[g.start.value] == 0
      && g.start.value in r.value.tables.links && r.value.tables.links[g.start.value] == None
  {
    if g.start.None? || g.goal.None? then Failure(InvalidInputData)
    else Success(d.(tables := Seed(d.tables, g.start.value)))
  }

  /** `handle_goal_reached`: completion, then the walk from the goal appended
      to the path and written onto the grid as `Path` tiles. A missing
      predecessor entry or a tile outside the grid is the source's abort. */
  function ReachGoal(d: Dijkstra, g: Grid, goal: Coord): (r: Result<(Dijkstra, Grid), Fault>)
    requires Valid(g)
    ensures r.Success? ==>
      && r.value.0.co == d.co.(hasCompleted := true)
      && r.value.0.tables == d.tables && r.value.0.visited == d.visited
      && |d.path| <= |r.value.0.path| && r.value.0.path[..|d.path|] == d.path
      && Valid(r.value.1) && SameExcept(g, r.value.1, set c | c in r.value.0.path[|d.path|..])
    ensures r.Failure? ==> Trace(d.tables.links, goal).Failure? || r.error == OutOfRange
  {
    match Trace(d.tables.links, goal)
    case Failure(f) => Failure(f)
    case Success(p) =>
      match MarkPathAll(g, p)
      case None => Failure(OutOfRange)
      case Some(g') =>
        var d' := d.(co := d.co.(hasCompleted := true), path := d.path + p);
        assert d'.path[|d.path|..] == p;
        Success((d', g'))
  }

  /** The expansion of a popped cell that is not the goal: mark it visited,
      then relax its neighbours by cost, recording every pushed neighbour as
      visited. The cost of `cur` is read once per neighbour, so a cell
      without a recorded cost aborts only when it has neighbours. */
  function Expand(d: Dijkstra, g: Grid, m: Metric, cur: Coord): (r: Result<(Dijkstra, Grid), Fault>)
    requires Valid(g)
    ensures r.Success? ==>
      && Valid(r.value.1) && SameShape(g, r.value.1)
      && r.value.1.start == g.start && r.value.1.goal == g.goal
      && r.value.0.path == d.path && r.value.0.co == d.co
      && |d.visited| <= |r.value.0.visited| && r.value.0.visited[..|d.visited|] == d.visited
    ensures r.Failure? <==> cur !in d.tables.cost && |Neighbours(g, cur)| > 0
    ensures r.Failure? ==> r.error == UnknownCost
  {
    var g1 := MarkVisited(g, cur);
    NeighboursIgnoreOwnTile(g, g1, cur);
    var ns := Neighbours(g1, cur);
    if |ns| == 0 then Success((d, g1))
    else if cur !in d.tables.cost then Failure(UnknownCost)
    else
      var r := RelaxAll(d.tables, g1, m, ByCost, cur, ns);
      Success((d.(tables := r.0, visited := d.visited + r.2), r.1))
  }

  /** `execute_step`. Not ready: nothing happens. An empty frontier stops
      processing. Otherwise the minimum is popped and the step counted; an
      unset goal is the source's `unwrap` abort; the goal ends the run;
      any other cell is expanded. */
  function Step(d: Dijkstra, g: Grid, m: Metric, ready: bool): (r: Result<(Dijkstra, Grid), Fault>)
    requires Valid(g)
    ensures !ready ==> r == Success((d, g))
    ensures ready && |d.tables.frontier| == 0 ==> r == Success((d.(co := d.co.(isProcessing := false)), g))
    ensures ready && |d.tables.frontier| > 0 && g.goal.None? ==> r == Failure(MissingEndpoint)
    ensures r.Success? ==> Valid(r.value.1) && SameShape(g, r.value.1)
    ensures r.Success? && ready && |d.tables.frontier| > 0 ==> r.value.0.co.steps == d.co.steps + 1
  {
    if !ready then Success((d, g))
    else
      match PopMin(d.tables.frontier)
      case None => Success((d.(co := d.co.(isProcessing := false)), g))
      case Some(popped) =>
        var d1 := d.(tables := d.tables.(frontier := popped.1), co := d.co.(steps := d.co.steps + 1));
        if g.goal.None? then Failure(MissingEndpoint)
        else if popped.0.cell == g.goal.value then ReachGoal(d1, g, g.goal.value)
        else Expand(d1, g, m, popped.0.cell)
  }

  /** A step completes a run only by popping the goal: a dry frontier
      stops processing without completing, and an expansion leaves the
      flag alone. */
  lemma StepCompletion(d: Dijkstra, g: Grid, m: Metric, ready: bool)
    requires Valid(g) && !HasCompleted(d)
    ensures var r := Step(d, g, m, ready);
      r.Success? && HasCompleted(r.value.0) ==>
        && ready && |d.tables.frontier| > 0 && g.goal.Some?
        && PopMin(d.tables.frontier).value.0.cell == g.goal.value
  {
  }

  /** `reset`: a fresh search and a blank grid. */
  function Reset(d: Dijkstra, g: Grid): (r: (Dijkstra, Grid))
    requires Valid(g)
    ensures r.0 == DefaultDijkstra && !HasCompleted(r.0)
    ensures Valid(r.1) && SameShape(g, r.1) && r.1.start.None? && r.1.goal.None?
  {
    (DefaultDijkstra, Grids.Reset(g))
  }

  function HasCompleted(d: Dijkstra): bool {
    d.co.hasCompleted
  }

  /** The figures of `output_statistics`: path length, steps and the number
      of pushes (not of distinct cells). */
  function Stats(d: Dijkstra): (s: Statistics)
    ensures s.pathLength == |d.path| && s.steps == d.co.steps && s.visitedNodes == |d.visited|
  {
    Statistics(|d.path|, d.co.steps, |d.visited|)
  }

  /** The run invariant for a grid whose endpoints are set: the cost tables
      satisfy the relaxation invariant from the start cell, every queued
      cell is queued once and at its current best cost, and every pushed
      cell has a cost. */
  ghost predicate Inv(d: Dijkstra, g: Grid, m: Metric) {
    && Valid(g) && g.start.Some? && g.goal.Some?
    && CostInv(d.tables, g, m, g.start.value)
    && DistinctKeys(d.tables.frontier)
    && (forall k | k in Keys(d.tables.frontier) :: PriorityOf(d.tables.frontier, k) == d.tables.cost[k])
    && (forall v | v in d.visited :: v in d.tables.cost)
  }

  lemma StartEstablishesInv(g: Grid, m: Metric)
    requires Valid(g) && g.start.Some? && g.goal.Some?
    ensures Start(DefaultDijkstra, g).Success?
    ensures Inv(Start(DefaultDijkstra, g).value, g, m)
  {
    var d := Start(DefaultDijkstra, g).value;
    SeedEstablishesInv(g, m, g.start.value);
    assert d.tables.frontier == [Entry(g.start.value, 0)];
    assert Keys(d.tables.frontier) == {g.start.value};
  }

  /** The popped cell is a cheapest queued cell, and the tables left after
      the pop still satisfy the invariant's frontier part. */
  lemma PopsCheapest(d: Dijkstra, g: Grid, m: Metric)
    requires Inv(d, g, m) && |d.tables.frontier| > 0
    ensures var popped := PopMin(d.tables.frontier).value;
      && popped.0.cell in d.tables.cost
      && (forall k | k in Keys(d.tables.frontier) :: d.tables.cost[popped.0.cell] <= d.tables.cost[k])
      && DistinctKeys(popped.1)
      && Keys(popped.1) == Keys(d.tables.frontier) - {popped.0.cell}
      && (forall k | k in Keys(popped.1) :: PriorityOf(popped.1, k) == d.tables.cost[k])
  {
    var f := d.tables.frontier;
    var popped := PopMin(f).value;
    PopMinPriorities(f);
    forall k | k in Keys(f) ensures d.tables.cost[popped.0.cell] <= d.tables.cost[k] {
      var i := IndexOf(f, k);
      assert f[i] in f;
    }
  }

  /** A ready step of a run in the invariant never aborts and keeps the
      invariant, whatever cell it pops. */
  lemma StepPreservesInv(d: Dijkstra, g: Grid, m: Metric, ready: bool)
    requires Inv(d, g, m) && PositiveCost(m)
    ensures Step(d, g, m, ready).Success?
    ensures var r := Step(d, g, m, ready).value;
      Inv(r.0, r.1, m) && r.1.start == g.start && r.1.goal == g.goal
  {
    if ready && |d.tables.frontier| > 0 {
      PopKeepsInv(d, g, m);
      StepAfterPop(d, g, m);
      var cur := PopMin(d.tables.frontier).value.0.cell;
      if cur == g.goal.value {
        ReachGoalKeepsInv(Popped(d), g, m);
      } else {
        ExpandKeepsInv(Popped(d), g, m, cur);
      }
    }
  }

  /** The pop keeps the invariant and yields a cell with a recorded cost. */
  lemma PopKeepsInv(d: Dijkstra, g: Grid, m: Metric)
    requires Inv(d, g, m) && |d.tables.frontier| > 0
    ensures PopMin(d.tables.frontier).value.0.cell in d.tables.cost
    ensures Inv(Popped(d), g, m)
  {
    PopsCheapest(d, g, m);
  }

  lemma ReachGoalKeepsInv(d: Dijkstra, g: Grid, m: Metric)
    requires Inv(d, g, m) && PositiveCost(m) && g.goal.value in d.tables.cost
    ensures var r := ReachGoal(d, g, g.goal.value);
      r.Success? && Inv(r.value.0, r.value.1, m)
      && r.value.1.start == g.start && r.value.1.goal == g.goal
  {
    TraceFromRecorded(d.tables, g, m, g.start.value, g.goal.value);
  }

  lemma ExpandKeepsInv(d: Dijkstra, g: Grid, m: Metric, cur: Coord)
    requires Inv(d, g, m) && PositiveCost(m) && cur in d.tables.cost
    ensures var r := Expand(d, g, m, cur);
      r.Success? && Inv(r.value.0, r.value.1, m)
      && r.value.1.start == g.start && r.value.1.goal == g.goal
  {
    var g1 := MarkVisited(g, cur);
    NeighboursIgnoreOwnTile(g, g1, cur);
    var ns := Neighbours(g1, cur);
    var s := g.start.value;
    assert CostInv(d.tables, g1, m, s);
    if |ns| > 0 {
      var t := d.tables;
      var r := RelaxAll(t, g1, m, ByCost, cur, ns);
      RelaxAllPreservesInv(t, g1, m, ByCost, cur, ns, s);
      RelaxAllDistinct(t, g1, m, ByCost, cur, ns);
      RelaxAllUpdated(t, g1, m, ByCost, cur, ns);
      RelaxAllFrontierKeys(t, g1, m, ByCost, cur, ns);
      RelaxAllFrontier(t, g1, m, ByCost, cur, ns);
      RelaxAllFrontierKept(t, g1, m, ByCost, cur, ns);
      forall k | k in Keys(r.0.frontier) ensures PriorityOf(r.0.frontier, k) == r.0.cost[k] {
        if k !in r.2 {
          assert k in Keys(t.frontier);
        }
      }
    }
  }

  /** The state right after the pop of a step: the frontier without its
      minimum and one more step counted. */
  function Popped(d: Dijkstra): (r: Dijkstra)
    requires |d.tables.frontier| > 0
    ensures r.tables.cost == d.tables.cost && r.tables.links == d.tables.links
    ensures |r.tables.frontier| == |d.tables.frontier| - 1
    ensures r.co.steps == d.co.steps + 1 && r.path == d.path && r.visited == d.visited
  {
    d.(tables := d.tables.(frontier := PopMin(d.tables.frontier).value.1), co := d.co.(steps := d.co.steps + 1))
  }

  /** A ready step on a non-empty frontier, with the goal set, is the pop
      followed by the goal handling or the expansion of the popped cell. */
  lemma StepAfterPop(d: Dijkstra, g: Grid, m: Metric)
    requires Valid(g) && |d.tables.frontier| > 0 && g.goal.Some?
    ensures var cur := PopMin(d.tables.frontier).value.0.cell;
      Step(d, g, m, true) == if cur == g.goal.value then ReachGoal(Popped(d), g, g.goal.value) else Expand(Popped(d), g, m, cur)
  {
  }

  /** The goal handling of a run in the invariant completes the run and
      appends the predecessor walk from the goal back to the start, through
      adjacent cells of the grid, no costlier than the goal's recorded cost
      and drawn as `Path` tiles. */
  lemma ReachGoalDrawsPath(d: Dijkstra, g: Grid, m: Metric)
    requires Valid(g) && g.start.Some? && g.goal.Some? && PositiveCost(m)
    requires CostInv(d.tables, g, m, g.start.value) && g.goal.value in d.tables.cost
    ensures ReachGoal(d, g, g.goal.value).Success?
    ensures var r := ReachGoal(d, g, g.goal.value).value;
      var p := r.0.path[|d.path|..];
      && HasCompleted(r.0)
      && |d.path| < |r.0.path| && r.0.path[..|d.path|] == d.path
      && p[0] == g.goal.value && p[|p| - 1] == g.start.value
      && (forall i | 0 <= i < |p| - 1 :: Adjacent(p[i + 1], p[i]))
      && PathCost(m, p) <= d.tables.cost[g.goal.value]
      && (forall i | 0 <= i < |p| :: InBounds(r.1, p[i]) && TileAt(r.1, p[i]) == Path)
  {
    TraceFromRecorded(d.tables, g, m, g.start.value, g.goal.value);
    var p := Trace(d.tables.links, g.goal.value).value;
    assert MarkPathAll(g, p).Some?;
    var g' := MarkPathAll(g, p).value;
    assert forall i | 0 <= i < |p| :: InBounds(g', p[i]) && TileAt(g', p[i]) == Path;
    ReachGoalUnfold(d, g, g.goal.value);
    assert (d.path + p)[|d.path|..] == p;
  }

  /** The goal handling when the predecessor walk succeeds and lies in the
      grid: the walk is appended to the path and drawn. */
  lemma ReachGoalUnfold(d: Dijkstra, g: Grid, goal: Coord)
    requires Valid(g) && Trace(d.tables.links, goal).Success?
    requires MarkPathAll(g, Trace(d.tables.links, goal).value).Some?
    ensures var p := Trace(d.tables.links, goal).value;
      ReachGoal(d, g, goal) == Success((d.(co := d.co.(hasCompleted := true), path := d.path + p), MarkPathAll(g, p).value))
  {
  }

  /** Reaching the goal ends the run with the path of `ReachGoalDrawsPath`. */
  lemma StepReachingGoal(d: Dijkstra, g: Grid, m: Metric)
    requires Inv(d, g, m) && PositiveCost(m) && |d.tables.frontier| > 0
    requires PopMin(d.tables.frontier).value.0.cell == g.goal.value
    ensures Step(d, g, m, true) == ReachGoal(Popped(d), g, g.goal.value)
    ensures ReachGoal(Popped(d), g, g.goal.value).Success?
  {
    PopsCheapest(d, g, m);
    StepAfterPop(d, g, m);
    assert Inv(Popped(d), g, m);
    ReachGoalDrawsPath(Popped(d), g, m);
  }

  /** Expanding a cell with a recorded cost: exactly the neighbours that
      are unseen or reachable more cheaply through it are pushed and
      appended to the visited list, each with its cost through the cell as
      cost and priority and the cell as predecessor; no recorded cost
      rises, no other predecessor or queued priority changes, and
      completion is untouched. */
  lemma ExpandRelaxes(d: Dijkstra, g: Grid, m: Metric, cur: Coord)
    requires Valid(g) && cur in d.tables.cost
    ensures Expand(d, g, m, cur).Success?
    ensures var r := Expand(d, g, m, cur).value.0;
      var pushed := r.visited[|d.visited|..];
      && r.co == d.co
      && r.visited == d.visited + pushed
      && (forall n | n in Neighbours(g, cur) ::
            n in pushed <==> n !in d.tables.cost || d.tables.cost[cur] + m.cost(cur, n) < d.tables.cost[n])
      && (forall n | n in pushed ::
            n in Neighbours(g, cur) && n in r.tables.cost && r.tables.cost[n] == d.tables.cost[cur] + m.cost(cur, n))
      && (forall k | k in d.tables.cost :: k in r.tables.cost && r.tables.cost[k] <= d.tables.cost[k])
      && (forall n | n in pushed ::
            && n in r.tables.links && r.tables.links[n] == Some(cur)
            && n in Keys(r.tables.frontier) && PriorityOf(r.tables.frontier, n) == d.tables.cost[cur] + m.cost(cur, n))
      && (forall k | k in d.tables.links && k !in pushed :: k in r.tables.links && r.tables.links[k] == d.tables.links[k])
      && (forall k | k in Keys(d.tables.frontier) && k !in pushed ::
            k in Keys(r.tables.frontier) && PriorityOf(r.tables.frontier, k) == PriorityOf(d.tables.frontier, k))
      && Keys(r.tables.frontier) == Keys(d.tables.frontier) + (set n | n in pushed)
  {
    var g1 := MarkVisited(g, cur);
    NeighboursIgnoreOwnTile(g, g1, cur);
    var ns := Neighbours(g1, cur);
    if |ns| > 0 {
      var t := d.tables;
      var rr := RelaxAll(t, g1, m, ByCost, cur, ns);
      RelaxAllUpdated(t, g1, m, ByCost, cur, ns);
      RelaxAllMonotone(t, g1, m, ByCost, cur, ns);
      RelaxAllLinks(t, g1, m, ByCost, cur, ns);
      RelaxAllFrontierKeys(t, g1, m, ByCost, cur, ns);
      RelaxAllFrontier(t, g1, m, ByCost, cur, ns);
      RelaxAllFrontierKept(t, g1, m, ByCost, cur, ns);
      var r := d.(tables := rr.0, visited := d.visited + rr.2);
      assert Expand(d, g, m, cur) == Success((r, rr.1));
      assert r.visited[|d.visited|..] == rr.2;
    } else {
      assert Expand(d, g, m, cur) == Success((d, g1));
      assert d.visited[|d.visited|..] == [];
    }
  }

  /** A step that pops a cell other than the goal is its expansion. */
  lemma StepExpanding(d: Dijkstra, g: Grid, m: Metric)
    requires Inv(d, g, m) && |d.tables.frontier| > 0
    requires PopMin(d.tables.frontier).value.0.cell != g.goal.value
    ensures Step(d, g, m, true) == Expand(Popped(d), g, m, PopMin(d.tables.frontier).value.0.cell)
    ensures Expand(Popped(d), g, m, PopMin(d.tables.frontier).value.0.cell).Success?
  {
    PopsCheapest(d, g, m);
    StepAfterPop(d, g, m);
    assert Inv(Popped(d), g, m);
    ExpandRelaxes(Popped(d), g, m, PopMin(d.tables.frontier).value.0.cell);
  }

  /** Every ready step of a run in the invariant either pops the goal and
      completes, or descends in `Descends`: fewer cells without a recorded
      cost, or as many and a smaller total of recorded costs, or both the
      same and a shorter frontier. All three figures are bounded below
      (`CostTotalNonNegative`), so a run stops after finitely many steps,
      although a cell may be queued again whenever its cost falls. */
  lemma StepProgress(d: Dijkstra, g: Grid, m: Metric)
    requires Inv(d, g, m) && PositiveCost(m) && |d.tables.frontier| > 0
    ensures var r := Step(d, g, m, true);
      && r.Success?
      && (PopMin(d.tables.frontier).value.0.cell == g.goal.value ==> HasCompleted(r.value.0))
      && (PopMin(d.tables.frontier).value.0.cell != g.goal.value ==> Descends(r.value.0.tables, d.tables, g))
  {
    StepPreservesInv(d, g, m, true);
    PopKeepsInv(d, g, m);
    StepAfterPop(d, g, m);
    var cur := PopMin(d.tables.frontier).value.0.cell;
    if cur == g.goal.value {
      ReachGoalDrawsPath(Popped(d), g, m);
    } else {
      var g1 := MarkVisited(g, cur);
      NeighboursIgnoreOwnTile(g, g1, cur);
      var ns := Neighbours(g1, cur);
      var t := Popped(d).tables;
      if |ns| > 0 {
        PopRelaxDescends(d.tables, t, g1, m, ByCost, cur, ns);
      }
    }
  }
}

=== FILE: greedy_bfs.dfy ===
/** Greedy best-first search: the frontier is ordered by the heuristic
    estimate from a cell to the goal alone, and a cell is queued at most
    once — the first time it is seen. Reaching the goal rebuilds the path
    from the predecessor map; a frontier that runs dry after an expansion
    ends the run without a path. */
module GreedyBestFirst {
  import opened Wrappers
  import opened MapTypes
  import opened Grids
  import opened SearchCommon
  import opened PriorityQueues
  import opened Pathfinding

  /** Frontier; every cell ever queued, in queueing order; the predecessor
      map with the rebuilt path; the coordinator. */
  datatype Greedy = Greedy(frontier: Frontier, visited: seq<Coord>, pf: Pathfinder, co: Coordinator)

  const DefaultGreedy := Greedy([], [], EmptyPathfinder, IdleCoordinator)

  /** `start`: refuses a grid without both endpoints; otherwise queues the
      start cell at priority 0 without a predecessor, records it as seen and
      switches processing on. */
  function Start(gr: Greedy, g: Grid): (r: Result<Greedy, AlgorithmError>)
    ensures r.Failure? <==> g.start.None? || g.goal.None?
    ensures r.Failure? ==> r.error == InvalidInputData
    ensures r.Success? ==>
      && r.value.co.isProcessing && r.value.visited == gr.visited + [g.start.value]
      && g.start.value in Keys(r.value.frontier) && PriorityOf(r.value.frontier, g.start.value) == 0
      && g.start.value in r.value.pf.links && r.value.pf.links[g.start.value] == None
  {
    if g.start.None? || g.goal.None? then Failure(InvalidInputData)
    else
      var s := g.start.value;
      Success(Greedy(Push(gr.frontier, s, 0), gr.visited + [s], AddToPath(gr.pf, s, None), gr.co.(isProcessing := true)))
  }

  /** The loop body for neighbour `n` of `cur`: a cell not seen before is
      queued at its estimate to the goal, recorded as seen, drawn as queued
      and given `cur` as predecessor; a seen cell is skipped. */
  function Discover(gr: Greedy, g: Grid, m: Metric, cur: Coord, goal: Coord, n: Coord): (r: (Greedy, Grid))
    requires Valid(g)
    ensures Valid(r.1) && SameExcept(g, r.1, {n}) && EndpointsKept(g, r.1)
    ensures n in gr.visited ==> r == (gr, g)
    ensures n !in gr.visited ==>
      && r.0.visited == gr.visited + [n]
      && r.0.frontier == Push(gr.frontier, n, m.heuristic(n, goal))
      && r.0.pf == AddToPath(gr.pf, n, Some(cur))
      && r.0.co == gr.co
      && r.1 == MarkProcess(g, n)
  {
    if n in gr.visited then (gr, g)
    else
      (gr.(frontier := Push(gr.frontier, n, m.heuristic(n, goal)), visited := gr.visited + [n],
           pf := AddToPath(gr.pf, n, Some(cur))),
       MarkProcess(g, n))
  }

  /** The loop over the neighbours `ns`, in order. */
  function DiscoverAll(gr: Greedy, g: Grid, m: Metric, cur: Coord, goal: Coord, ns: seq<Coord>): (r: (Greedy, Grid))
    requires Valid(g)
    ensures Valid(r.1) && SameExcept(g, r.1, set n | n in ns) && EndpointsKept(g, r.1)
    ensures r.0.co == gr.co && r.0.pf.path == gr.pf.path
    ensures |gr.visited| <= |r.0.visited| && r.0.visited[..|gr.visited|] == gr.visited
    decreases |ns|
  {
    if |ns| == 0 then (gr, g)
    else
      var one := Discover(gr, g, m, cur, goal, ns[0]);
      assert (set n | n in ns) == {ns[0]} + (set n | n in ns[1..]);
      DiscoverAll(one.0, one.1, m, cur, goal, ns[1..])
  }

  /** The cells a loop queued, in order. */
  function Found(gr: Greedy, r: (Greedy, Grid)): seq<Coord>
    requires |gr.visited| <= |r.0.visited|
  {
    r.0.visited[|gr.visited|..]
  }

  /** The cells of `ns` not in `seen`, each the first time it occurs:
      what the neighbour loop queues. */
  function Unseen(seen: seq<Coord>, ns: seq<Coord>): seq<Coord>
    decreases |ns|
  {
    if |ns| == 0 then []
    else if ns[0] in seen then Unseen(seen, ns[1..])
    else [ns[0]] + Unseen(seen + [ns[0]], ns[1..])
  }

  /** `Unseen` lists exactly the cells of `ns` outside `seen`, without
      repetition. */
  lemma {:induction false} UnseenMembers(seen: seq<Coord>, ns: seq<Coord>)
    ensures forall n :: n in Unseen(seen, ns) <==> n in ns && n !in seen
    ensures Distinct(Unseen(seen, ns))
    decreases |ns|
  {
    if |ns| > 0 {
      assert forall n | n in ns :: n == ns[0] || n in ns[1..];
      if ns[0] in seen {
        UnseenMembers(seen, ns[1..]);
      } else {
        var rest := Unseen(seen + [ns[0]], ns[1..]);
        UnseenMembers(seen + [ns[0]], ns[1..]);
        assert ns[0] !in rest;
        DistinctAppend([ns[0]], rest);
        assert forall n :: n in [ns[0]] + rest <==> n == ns[0] || n in rest;
      }
    }
  }

  /** The loop appends the unseen neighbours to the seen list. */
  lemma {:induction false} DiscoverAllVisited(gr: Greedy, g: Grid, m: Metric, cur: Coord, goal: Coord, ns: seq<Coord>)
    requires Valid(g)
    ensures DiscoverAll(gr, g, m, cur, goal, ns).0.visited == gr.visited + Unseen(gr.visited, ns)
    decreases |ns|
  {
    if |ns| > 0 {
      var one := Discover(gr, g, m, cur, goal, ns[0]);
      DiscoverAllVisited(one.0, one.1, m, cur, goal, ns[1..]);
      assert DiscoverAll(gr, g, m, cur, goal, ns) == DiscoverAll(one.0, one.1, m, cur, goal, ns[1..]);
      if ns[0] !in gr.visited {
        assert Unseen(gr.visited, ns) == [ns[0]] + Unseen(gr.visited + [ns[0]], ns[1..]);
        assert one.0.visited == gr.visited + [ns[0]];
        var rest := Unseen(gr.visited + [ns[0]], ns[1..]);
        assert (gr.visited + [ns[0]]) + rest == gr.visited + ([ns[0]] + rest);
      } else {
        assert Unseen(gr.visited, ns) == Unseen(gr.visited, ns[1..]);
      }
    }
  }

  /** The loop queues exactly the neighbours not seen before, each once, by
      appending them to the seen list. */
  lemma DiscoverAllFound(gr: Greedy, g: Grid, m: Metric, cur: Coord, goal: Coord, ns: seq<Coord>)
    requires Valid(g)
    ensures var r := DiscoverAll(gr, g, m, cur, goal, ns);
      var found := Found(gr, r);
      && found == Unseen(gr.visited, ns)
      && r.0.visited == gr.visited + found
      && (forall n :: n in found <==> n in ns && n !in gr.visited)
      && Distinct(found)
  {
    DiscoverAllVisited(gr, g, m, cur, goal, ns);
    UnseenMembers(gr.visited, ns);
    var r := DiscoverAll(gr, g, m, cur, goal, ns);
    assert Found(gr, r) == Unseen(gr.visited, ns);
  }

  /** The loop queues exactly the unseen neighbours, never twice. */
  lemma {:induction false} DiscoverAllFrontierKeys(gr: Greedy, g: Grid, m: Metric, cur: Coord, goal: Coord, ns: seq<Coord>)
    requires Valid(g)
    ensures var r := DiscoverAll(gr, g, m, cur, goal, ns);
      && Keys(r.0.frontier) == Keys(gr.frontier) + (set n | n in Unseen(gr.visited, ns))
      && (DistinctKeys(gr.frontier) ==> DistinctKeys(r.0.frontier))
    decreases |ns|
  {
    if |ns| > 0 {
      var one := Discover(gr, g, m, cur, goal, ns[0]);
      DiscoverAllFrontierKeys(one.0, one.1, m, cur, goal, ns[1..]);
      if ns[0] !in gr.visited {
        var rest := Unseen(gr.visited + [ns[0]], ns[1..]);
        assert Keys(one.0.frontier) == Keys(gr.frontier) + {ns[0]};
        assert (set n | n in [ns[0]] + rest) == {ns[0]} + (set n | n in rest);
      }
    }
  }

  /** The loop queues each unseen neighbour at its estimate to the goal;
      every cell queued before, all of them seen, keeps its priority. */
  lemma {:induction false} DiscoverAllPriorities(gr: Greedy, g: Grid, m: Metric, cur: Coord, goal: Coord, ns: seq<Coord>)
    requires Valid(g) && forall k | k in Keys(gr.frontier) :: k in gr.visited
    ensures var r := DiscoverAll(gr, g, m, cur, goal, ns);
      && (forall n | n in Unseen(gr.visited, ns) :: n in Keys(r.0.frontier) && PriorityOf(r.0.frontier, n) == m.heuristic(n, goal))
      && (forall k | k in Keys(gr.frontier) :: k in Keys(r.0.frontier) && PriorityOf(r.0.frontier, k) == PriorityOf(gr.frontier, k))
    decreases |ns|
  {
    if |ns| > 0 {
      var one := Discover(gr, g, m, cur, goal, ns[0]);
      if ns[0] in gr.visited {
        DiscoverAllPriorities(gr, g, m, cur, goal, ns[1..]);
      } else {
        var f1 := one.0.frontier;
        assert Keys(f1) == Keys(gr.frontier) + {ns[0]};
        assert forall k | k in Keys(f1) :: k in one.0.visited;
        DiscoverAllPriorities(one.0, one.1, m, cur, goal, ns[1..]);
        var rest := Unseen(gr.visited + [ns[0]], ns[1..]);
        assert forall n | n in Unseen(gr.visited, ns) :: n == ns[0] || n in rest;
        assert PriorityOf(f1, ns[0]) == m.heuristic(ns[0], goal);
        assert forall k | k in Keys(gr.frontier) :: k != ns[0] && PriorityOf(f1, k) == PriorityOf(gr.frontier, k);
      }
    }
  }

  /** The loop gives each unseen neighbour `cur` as predecessor and leaves
      every other entry of the predecessor map alone. */
  lemma {:induction false} DiscoverAllLinks(gr: Greedy, g: Grid, m: Metric, cur: Coord, goal: Coord, ns: seq<Coord>)
    requires Valid(g)
    ensures var r := DiscoverAll(gr, g, m, cur, goal, ns);
      var u := Unseen(gr.visited, ns);
      && r.0.pf.links.Keys == gr.pf.links.Keys + (set n | n in u)
      && (forall n | n in u :: r.0.pf.links[n] == Some(cur))
      && (forall k | k in gr.pf.links && k !in u :: r.0.pf.links[k] == gr.pf.links[k])
    decreases |ns|
  {
    if |ns| > 0 {
      var one := Discover(gr, g, m, cur, goal, ns[0]);
      if ns[0] in gr.visited {
        DiscoverAllLinks(gr, g, m, cur, goal, ns[1..]);
      } else {
        var l1 := one.0.pf.links;
        assert l1 == gr.pf.links[ns[0] := Some(cur)];
        DiscoverAllLinks(one.0, one.1, m, cur, goal, ns[1..]);
        var rest := Unseen(gr.visited + [ns[0]], ns[1..]);
        assert Unseen(gr.visited, ns) == [ns[0]] + rest;
        assert (set n | n in [ns[0]] + rest) == {ns[0]} + (set n | n in rest);
        UnseenMembers(gr.visited + [ns[0]], ns[1..]);
        assert ns[0] !in rest;
      }
    }
  }

  /** The state right after the pop of a step. */
  function Popped(gr: Greedy): (r: Greedy)
    requires |gr.frontier| > 0
    ensures r.visited == gr.visited && r.pf == gr.pf && r.co.steps == gr.co.steps + 1
    ensures |r.frontier| == |gr.frontier| - 1
  {
    gr.(frontier := PopMin(gr.frontier).value.1, co := gr.co.(steps := gr.co.steps + 1))
  }

  /** Reaching the goal: completion, processing off, the path rebuilt from
      the goal and drawn as `Path` tiles. */
  function ReachGoal(gr: Greedy, g: Grid, goal: Coord): (r: Result<(Greedy, Grid), Fault>)
    requires Valid(g)
    ensures r.Success? ==>
      && r.value.0.co == gr.co.(hasCompleted := true, isProcessing := false)
      && r.value.0.frontier == gr.frontier && r.value.0.visited == gr.visited
      && r.value.0.pf.links == gr.pf.links
      && IsChain(gr.pf.links, r.value.0.pf.path) && r.value.0.pf.path[0] == goal
      && Valid(r.value.1) && SameExcept(g, r.value.1, set c | c in r.value.0.pf.path)
      && forall i | 0 <= i < |r.value.0.pf.path| ::
           InBounds(r.value.1, r.value.0.pf.path[i]) && TileAt(r.value.1, r.value.0.pf.path[i]) == Path
    ensures r.Failure? ==> Trace(gr.pf.links, goal).Failure? || r.error == OutOfRange
  {
    var co := gr.co.(hasCompleted := true, isProcessing := false);
    match ReconstructPath(gr.pf, goal)
    case Failure(f) => Failure(f)
    case Success(pf) =>
      match MarkPathAll(g, pf.path)
      case None => Failure(OutOfRange)
      case Some(g') => Success((gr.(co := co, pf := pf), g'))
  }

  /** Expanding a popped cell other than the goal: mark it visited, run the
      neighbour loop, and end the run without a path if nothing is left to
      pop. */
  function Expand(gr: Greedy, g: Grid, m: Metric, cur: Coord, goal: Coord): (r: (Greedy, Grid))
    requires Valid(g)
    ensures Valid(r.1) && SameShape(g, r.1) && r.1.start == g.start && r.1.goal == g.goal
    ensures |r.0.frontier| > 0 ==> r.0.co == gr.co
    ensures |r.0.frontier| == 0 ==> r.0.co == gr.co.(hasCompleted := true, isProcessing := false)
    ensures r.0.pf.path == gr.pf.path
  {
    var g1 := MarkVisited(g, cur);
    NeighboursIgnoreOwnTile(g, g1, cur);
    var r := DiscoverAll(gr, g1, m, cur, goal, Neighbours(g1, cur));
    if |r.0.frontier| == 0 then (r.0.(co := gr.co.(hasCompleted := true, isProcessing := false)), r.1)
    else r
  }

  /** `execute_step`. Not ready: nothing happens. An empty frontier stops
      processing. Otherwise the minimum is popped and the step counted; an
      unset endpoint is the source's `unwrap` abort; the goal ends the run
      with a path; any other cell is expanded. */
  function Step(gr: Greedy, g: Grid, m: Metric, ready: bool): (r: Result<(Greedy, Grid), Fault>)
    requires Valid(g)
    ensures !ready ==> r == Success((gr, g))
    ensures ready && |gr.frontier| == 0 ==> r == Success((gr.(co := gr.co.(isProcessing := false)), g))
    ensures ready && |gr.frontier| > 0 && (g.start.None? || g.goal.None?) ==> r == Failure(MissingEndpoint)
    ensures r.Success? ==> Valid(r.value.1) && SameShape(g, r.value.1)
    ensures r.Success? && ready && |gr.frontier| > 0 ==> r.value.0.co.steps == gr.co.steps + 1
  {
    if !ready then Success((gr, g))
    else
      match PopMin(gr.frontier)
      case None => Success((gr.(co := gr.co.(isProcessing := false)), g))
      case Some(popped) =>
        if g.goal.None? || g.start.None? then Failure(MissingEndpoint)
        else if popped.0.cell == g.goal.value then ReachGoal(Popped(gr), g, g.goal.value)
        else Success(Expand(Popped(gr), g, m, popped.0.cell, g.goal.value))
  }

  /** A ready step on a non-empty frontier with both endpoints set. */
  lemma StepAfterPop(gr: Greedy, g: Grid, m: Metric)
    requires Valid(g) && |gr.frontier| > 0 && g.start.Some? && g.goal.Some?
    ensures var cur := PopMin(gr.frontier).value.0.cell;
      Step(gr, g, m, true) ==
        if cur == g.goal.value then ReachGoal(Popped(gr), g, g.goal.value)
        else Success(Expand(Popped(gr), g, m, cur, g.goal.value))
  {
  }

  /** A step completes a run only by popping the goal or by an expansion
      that leaves the frontier empty. */
  lemma StepCompletion(gr: Greedy, g: Grid, m: Metric, ready: bool)
    requires Valid(g) && !HasCompleted(gr)
    ensures var r := Step(gr, g, m, ready);
      r.Success? && HasCompleted(r.value.0) ==>
        && ready && |gr.frontier| > 0 && g.goal.Some?
        && (PopMin(gr.frontier).value.0.cell == g.goal.value || |r.value.0.frontier| == 0)
  {
  }

  /** `reset`: a fresh search and a blank grid. */
  function Reset(gr: Greedy, g: Grid): (r: (Greedy, Grid))
    requires Valid(g)
    ensures r.0 == DefaultGreedy && !HasCompleted(r.0)
    ensures Valid(r.1) && SameShape(g, r.1) && r.1.start.None? && r.1.goal.None?
  {
    (DefaultGreedy, Grids.Reset(g))
  }

  function HasCompleted(gr: Greedy): bool {
    gr.co.hasCompleted
  }

  /** What `output_statistics` reports: the unreachable-goal message when
      there is no path, otherwise the figures. */
  datatype Report = Unreachable | Figures(stats: Statistics)

  function Output(gr: Greedy): (r: Report)
    ensures r.Unreachable? <==> |gr.pf.path| == 0
    ensures r.Figures? ==>
      r.stats.pathLength == |gr.pf.path| && r.stats.steps == gr.co.steps && r.stats.visitedNodes == |gr.visited|
  {
    if |gr.pf.path| == 0 then Unreachable
    else Figures(Statistics(|gr.pf.path|, gr.co.steps, |gr.visited|))
  }

  /** The seen list starts with the start cell, has no repetitions and
      stays in the grid. */
  ghost predicate SeenInv(v: seq<Coord>, g: Grid, s: Coord) {
    && |v| > 0 && v[0] == s
    && Distinct(v)
    && (forall c | c in v :: InBounds(g, c))
  }

  /** The frontier holds seen cells, once each. */
  ghost predicate FrontierInv(f: Frontier, v: seq<Coord>) {
    && (forall k | k in Keys(f) :: k in v)
    && DistinctKeys(f)
  }

  /** Exactly the seen cells have a predecessor entry; the start's is
      "none", and every other cell's is an adjacent cell seen earlier. */
  ghost predicate LinksInv(links: Links, v: seq<Coord>, s: Coord) {
    && (forall k :: k in links <==> k in v)
    && s in links && links[s] == None
    && (forall k | k in links && links[k].None? :: k == s)
    && (forall k | k in links && links[k].Some? ::
          var p := links[k].value;
          p in v && Adjacent(p, k) && Position(v, p) < Position(v, k))
  }

  /** The run invariant for a grid whose endpoints are set. */
  ghost predicate Inv(gr: Greedy, g: Grid) {
    && Valid(g) && g.start.Some? && g.goal.Some?
    && SeenInv(gr.visited, g, g.start.value)
    && FrontierInv(gr.frontier, gr.visited)
    && LinksInv(gr.pf.links, gr.visited, g.start.value)
  }

  lemma StartEstablishesInv(g: Grid)
    requires Valid(g) && g.start.Some? && g.goal.Some?
    ensures Start(DefaultGreedy, g).Success?
    ensures Inv(Start(DefaultGreedy, g).value, g)
  {
    var gr := Start(DefaultGreedy, g).value;
    assert gr.frontier == [Entry(g.start.value, 0)];
    assert Keys(gr.frontier) == {g.start.value};
  }

  lemma PopKeepsInv(gr: Greedy, g: Grid)
    requires Inv(gr, g) && |gr.frontier| > 0
    ensures Inv(Popped(gr), g) && PopMin(gr.frontier).value.0.cell in gr.visited
  {
  }

  /** Appending unseen neighbours of a seen cell, each with that cell as
      predecessor, keeps the predecessor map ranked by first sighting. */
  lemma LinksGrow(links: Links, v: seq<Coord>, s: Coord, u: seq<Coord>, cur: Coord, links': Links)
    requires LinksInv(links, v, s) && cur in v
    requires forall n | n in u :: n !in v && Adjacent(cur, n)
    requires links'.Keys == links.Keys + (set n | n in u)
    requires forall n | n in u :: links'[n] == Some(cur)
    requires forall k | k in links && k !in u :: links'[k] == links[k]
    ensures LinksInv(links', v + u, s)
  {
    forall k | k in links' && links'[k].Some?
      ensures var p := links'[k].value;
        p in v + u && Adjacent(p, k) && Position(v + u, p) < Position(v + u, k)
    {
      var p := links'[k].value;
      if k in u {
        assert p == cur;
        PositionAppend(v, u, cur);
        PositionAppend(v, u, k);
      } else {
        assert links[k] == links'[k];
        PositionAppend(v, u, p);
        PositionAppend(v, u, k);
      }
    }
  }

  /** The neighbour loop keeps the seen list free of repetitions and
      inside the grid. */
  lemma DiscoverAllKeepsSeen(gr: Greedy, g: Grid, m: Metric, cur: Coord, goal: Coord, ns: seq<Coord>, s: Coord)
    requires Valid(g) && SeenInv(gr.visited, g, s)
    requires forall n | n in ns :: InBounds(g, n)
    ensures SeenInv(DiscoverAll(gr, g, m, cur, goal, ns).0.visited, DiscoverAll(gr, g, m, cur, goal, ns).1, s)
  {
    var r := DiscoverAll(gr, g, m, cur, goal, ns);
    var u := Unseen(gr.visited, ns);
    DiscoverAllVisited(gr, g, m, cur, goal, ns);
    UnseenMembers(gr.visited, ns);
    DistinctAppend(gr.visited, u);
    assert forall c | c in r.0.visited :: c in gr.visited || c in ns;
  }

  /** The neighbour loop queues only cells it records as seen, once each. */
  lemma DiscoverAllKeepsFrontier(gr: Greedy, g: Grid, m: Metric, cur: Coord, goal: Coord, ns: seq<Coord>)
    requires Valid(g) && FrontierInv(gr.frontier, gr.visited)
    ensures FrontierInv(DiscoverAll(gr, g, m, cur, goal, ns).0.frontier, DiscoverAll(gr, g, m, cur, goal, ns).0.visited)
  {
    DiscoverAllVisited(gr, g, m, cur, goal, ns);
    DiscoverAllFrontierKeys(gr, g, m, cur, goal, ns);
  }

  /** The neighbour loop of a seen cell keeps the predecessor map ranked by
      first sighting. */
  lemma DiscoverAllKeepsLinks(gr: Greedy, g: Grid, m: Metric, cur: Coord, goal: Coord, ns: seq<Coord>, s: Coord)
    requires Valid(g) && LinksInv(gr.pf.links, gr.visited, s) && cur in gr.visited
    requires forall n | n in ns :: Adjacent(cur, n)
    ensures LinksInv(DiscoverAll(gr, g, m, cur, goal, ns).0.pf.links, DiscoverAll(gr, g, m, cur, goal, ns).0.visited, s)
  {
    var r := DiscoverAll(gr, g, m, cur, goal, ns);
    var u := Unseen(gr.visited, ns);
    DiscoverAllVisited(gr, g, m, cur, goal, ns);
    UnseenMembers(gr.visited, ns);
    DiscoverAllLinks(gr, g, m, cur, goal, ns);
    LinksGrow(gr.pf.links, gr.visited, s, u, cur, r.0.pf.links);
  }

  /** Expanding is the neighbour loop on the grid with `cur` marked
      visited, plus at most the end of the run. */
  lemma ExpandIsLoop(gr: Greedy, g: Grid, m: Metric, cur: Coord, goal: Coord)
    requires Valid(g)
    ensures var g1 := MarkVisited(g, cur);
      var r := DiscoverAll(gr, g1, m, cur, goal, Neighbours(g, cur));
      var e := Expand(gr, g, m, cur, goal);
      && e.0.visited == r.0.visited && e.0.pf == r.0.pf && e.0.frontier == r.0.frontier && e.1 == r.1
  {
    NeighboursIgnoreOwnTile(g, MarkVisited(g, cur), cur);
  }

  /** Expanding a seen cell keeps the invariant. */
  lemma ExpandKeepsInv(gr: Greedy, g: Grid, m: Metric, cur: Coord)
    requires Inv(gr, g) && cur in gr.visited
    ensures Inv(Expand(gr, g, m, cur, g.goal.value).0, Expand(gr, g, m, cur, g.goal.value).1)
  {
    var goal := g.goal.value;
    var s := g.start.value;
    var g1 := MarkVisited(g, cur);
    var ns := Neighbours(g, cur);
    assert SeenInv(gr.visited, g1, s);
    DiscoverAllKeepsSeen(gr, g1, m, cur, goal, ns, s);
    DiscoverAllKeepsFrontier(gr, g1, m, cur, goal, ns);
    DiscoverAllKeepsLinks(gr, g1, m, cur, goal, ns, s);
    ExpandIsLoop(gr, g, m, cur, goal);
  }

  /** Reaching the goal in a run in the invariant succeeds and keeps the
      invariant and the endpoints. */
  lemma ReachGoalKeepsInv(gr: Greedy, g: Grid)
    requires Inv(gr, g) && g.goal.value in gr.visited
    ensures ReachGoal(gr, g, g.goal.value).Success?
    ensures var r := ReachGoal(gr, g, g.goal.value).value;
      Inv(r.0, r.1) && r.1.start == g.start && r.1.goal == g.goal
  {
    ReachGoalDrawsPath(gr, g);
  }

  /** The ranking of seen cells by when they were first seen. */
  ghost function SeenRank(visited: seq<Coord>): Coord -> int {
    (k: Coord) => if k in visited then Position(visited, k) else 0
  }

  /** Reaching the goal in a run in the invariant never aborts: the path
      runs from the goal back to the start through adjacent cells of the
      grid, and it is drawn as `Path` tiles. */
  lemma ReachGoalDrawsPath(gr: Greedy, g: Grid)
    requires Inv(gr, g) && g.goal.value in gr.visited
    ensures ReachGoal(gr, g, g.goal.value).Success?
    ensures var r := ReachGoal(gr, g, g.goal.value).value;
      var p := r.0.pf.path;
      && HasCompleted(r.0) && !r.0.co.isProcessing
      && |p| > 0 && p[0] == g.goal.value && p[|p| - 1] == g.start.value
      && (forall i | 0 <= i < |p| - 1 :: Adjacent(p[i + 1], p[i]))
      && (forall i | 0 <= i < |p| :: InBounds(r.1, p[i]) && TileAt(r.1, p[i]) == Path)
  {
    var goal := g.goal.value;
    SeenChain(gr.pf.links, gr.visited, g.start.value, goal);
    var p := Trace(gr.pf.links, goal).value;
    assert forall i | 0 <= i < |p| :: InBounds(g, p[i]);
    var g' := MarkPathAll(g, p);
    assert g'.Some?;
    var co := gr.co.(hasCompleted := true, isProcessing := false);
    assert ReachGoal(gr, g, goal) == Success((gr.(co := co, pf := gr.pf.(path := p)), g'.value));
  }

  /** With the predecessor map ranked by first sighting, the walk from a
      seen cell succeeds and runs back to the start through seen, adjacent
      cells. */
  lemma SeenChain(links: Links, v: seq<Coord>, s: Coord, goal: Coord)
    requires LinksInv(links, v, s) && goal in v
    ensures Trace(links, goal).Success?
    ensures var p := Trace(links, goal).value;
      && |p| > 0 && p[0] == goal && p[|p| - 1] == s
      && (forall i | 0 <= i < |p| :: p[i] in v)
      && (forall i | 0 <= i < |p| - 1 :: Adjacent(p[i + 1], p[i]))
  {
    var rank := SeenRank(v);
    forall k | k in links && links[k].Some? ensures rank(links[k].value) < rank(k) {
    }
    TraceSucceeds(links, rank, goal);
    var p := Trace(links, goal).value;
    assert IsChain(links, p);
    assert forall i | 0 <= i < |p| - 1 :: links[p[i]] == Some(p[i + 1]);
  }

  /** A ready step of a run in the invariant never aborts and keeps the
      invariant, whatever cell it pops. */
  lemma StepPreservesInv(gr: Greedy, g: Grid, m: Metric, ready: bool)
    requires Inv(gr, g)
    ensures Step(gr, g, m, ready).Success?
    ensures var r := Step(gr, g, m, ready).value;
      Inv(r.0, r.1) && r.1.start == g.start && r.1.goal == g.goal
  {
    if ready && |gr.frontier| > 0 {
      PopKeepsInv(gr, g);
      StepAfterPop(gr, g, m);
      var cur := PopMin(gr.frontier).value.0.cell;
      if cur == g.goal.value {
        ReachGoalKeepsInv(Popped(gr), g);
      } else {
        ExpandKeepsInv(Popped(gr), g, m, cur);
      }
    }
  }

  /** Cells not yet seen, counted twice, plus the frontier length. */
  function Measure(gr: Greedy, g: Grid): nat {
    2 * |AllCells(g.columns, g.rows) - set v | v in gr.visited| + |gr.frontier|
  }

  /** The neighbour loop moves each cell it queues from the unseen cells of
      `all` onto the frontier. */
  lemma DiscoverAllMeasure(gr: Greedy, g: Grid, m: Metric, cur: Coord, goal: Coord, ns: seq<Coord>, all: set<Coord>)
    requires Valid(g) && FrontierInv(gr.frontier, gr.visited)
    requires forall n | n in ns :: n in all
    ensures var r := DiscoverAll(gr, g, m, cur, goal, ns).0;
      var u := |Unseen(gr.visited, ns)|;
      && |all - set v | v in r.visited| == |all - set v | v in gr.visited| - u
      && |r.frontier| == |gr.frontier| + u
  {
    var r := DiscoverAll(gr, g, m, cur, goal, ns);
    var found := Unseen(gr.visited, ns);
    DiscoverAllVisited(gr, g, m, cur, goal, ns);
    UnseenMembers(gr.visited, ns);
    DiscoverAllFrontierKeys(gr, g, m, cur, goal, ns);
    DiscoveryUsesCells(all, gr.visited, found);
    PushesCount(gr.frontier, found, r.0.frontier);
  }

  /** An expansion never raises the measure: each cell it queues uses up
      an unseen cell. */
  lemma ExpandProgress(gr: Greedy, g: Grid, m: Metric, cur: Coord)
    requires Inv(gr, g) && cur in gr.visited
    ensures var e := Expand(gr, g, m, cur, g.goal.value);
      HasCompleted(e.0) || Measure(e.0, e.1) <= Measure(gr, g)
  {
    var goal := g.goal.value;
    var ns := Neighbours(g, cur);
    var all := AllCells(g.columns, g.rows);
    DiscoverAllMeasure(gr, MarkVisited(g, cur), m, cur, goal, ns, all);
    ExpandIsLoop(gr, g, m, cur, goal);
  }

  /** Every ready step on a non-empty frontier either ends the run or
      lowers the measure: the pop shrinks the frontier and the expansion
      does not raise it. So a run on a finite grid stops. */
  lemma StepProgress(gr: Greedy, g: Grid, m: Metric)
    requires Inv(gr, g) && |gr.frontier| > 0
    ensures var r := Step(gr, g, m, true);
      r.Success? && (HasCompleted(r.value.0) || Measure(r.value.0, r.value.1) < Measure(gr, g))
  {
    StepPreservesInv(gr, g, m, true);
    PopKeepsInv(gr, g);
    StepAfterPop(gr, g, m);
    var cur := PopMin(gr.frontier).value.0.cell;
    if cur == g.goal.value {
      ReachGoalDrawsPath(Popped(gr), g);
    } else {
      ExpandProgress(Popped(gr), g, m, cur);
    }
  }

  /** A frontier that gains exactly the keys of `found`, none of them
      queued before, grows by `|found|` when keys stay distinct. */
  lemma PushesCount(f: Frontier, found: seq<Coord>, f': Frontier)
    requires DistinctKeys(f) && DistinctKeys(f') && Distinct(found)
    requires Keys(f') == Keys(f) + (set n | n in found)
    requires forall n | n in found :: n !in Keys(f)
    ensures |f'| == |f| + |found|
  {
    DistinctKeysCard(f);
    DistinctKeysCard(f');
    DistinctCard(found);
  }
}

=== FILE: grid.dfy ===
/** The tile grid: a fixed rectangle of tiles addressed as `tiles[x][y]`, the
    pixel geometry used to turn a mouse position into a cell, and the
    optional start and end designations. */
module Grids {
  import opened Wrappers
  import opened MapTypes

  /** `columns` and `rows` count whole tiles; `offsetX`/`offsetY` is the
      pixel position of the top-left corner; `tiles` is column-major, so
      `tiles[x][y]` is the tile of `Coord(x, y)`. */
  datatype Grid = Grid(
    columns: nat,
    rows: nat,
    tileSize: nat,
    offsetX: nat,
    offsetY: nat,
    tiles: seq<seq<Tile>>,
    start: Option<Coord>,
    goal: Option<Coord>)

  predicate InBounds(g: Grid, c: Coord) {
    c.x < g.columns && c.y < g.rows
  }

  /** The shape invariant: a positive tile size, `columns` columns of `rows`
      tiles each, and designations that name cells of the grid. */
  predicate Valid(g: Grid) {
    && g.tileSize > 0
    && |g.tiles| == g.columns
    && (forall x | 0 <= x < |g.tiles| :: |g.tiles[x]| == g.rows)
    && (g.start.Some? ==> InBounds(g, g.start.value))
    && (g.goal.Some? ==> InBounds(g, g.goal.value))
  }

  function TileAt(g: Grid, c: Coord): Tile
    requires Valid(g) && InBounds(g, c)
  {
    g.tiles[c.x][c.y]
  }

  predicate SameShape(g: Grid, g': Grid) {
    && g'.columns == g.columns
    && g'.rows == g.rows
    && g'.tileSize == g.tileSize
    && g'.offsetX == g.offsetX
    && g'.offsetY == g.offsetY
  }

  /** `g'` keeps the shape and the designations of `g`, and every cell
      outside `cs` keeps its tile. */
  ghost predicate SameExcept(g: Grid, g': Grid, cs: set<Coord>)
    requires Valid(g) && Valid(g')
  {
    && SameShape(g, g')
    && g'.start == g.start
    && g'.goal == g.goal
    && forall c | InBounds(g, c) && c !in cs :: TileAt(g', c) == TileAt(g, c)
  }

  /** Every Start or End tile of `g` is still in place in `g'`. */
  ghost predicate EndpointsKept(g: Grid, g': Grid)
    requires Valid(g) && Valid(g') && SameShape(g, g')
  {
    forall c | InBounds(g, c) && IsEndpoint(TileAt(g, c)) :: TileAt(g', c) == TileAt(g, c)
  }

  /** Two rewrites in a row change at most the cells either one changes,
      and keep the endpoints if both do. */
  lemma SameExceptTrans(g: Grid, g1: Grid, g2: Grid, a: set<Coord>, b: set<Coord>)
    requires Valid(g) && Valid(g1) && Valid(g2)
    requires SameExcept(g, g1, a) && SameExcept(g1, g2, b)
    requires EndpointsKept(g, g1) && EndpointsKept(g1, g2)
    ensures SameExcept(g, g2, a + b) && EndpointsKept(g, g2)
  {
    assert forall c | InBounds(g, c) :: InBounds(g1, c);
  }

  /** Every cell of a grid with the given extent. */
  function AllCells(columns: nat, rows: nat): (cells: set<Coord>)
    ensures forall c :: c in cells <==> c.x < columns && c.y < rows
  {
    set x: nat, y: nat | x < columns && y < rows :: Coord(x, y)
  }

  function BlankTiles(columns: nat, rows: nat): (t: seq<seq<Tile>>)
    ensures |t| == columns
    ensures forall x | 0 <= x < columns :: |t[x]| == rows
    ensures forall x, y | 0 <= x < columns && 0 <= y < rows :: t[x][y] == Normal(false)
  {
    seq(columns, _ => seq(rows, _ => Normal(false)))
  }

  /** `a` is the block of width `size` that holds offset `v`. */
  predicate InBlock(v: int, size: nat, a: nat) {
    a * size <= v < (a + 1) * size
  }

  lemma MulMonotonic(a: nat, b: nat, size: nat)
    requires a <= b
    ensures a * size <= b * size
  {
  }

  /** Integer division by a positive size picks the block holding `v`. */
  lemma DivisionBlock(v: nat, size: nat)
    requires size > 0
    ensures InBlock(v, size, v / size)
  {
    var q := v / size;
    assert v == q * size + v % size;
    assert (q + 1) * size == q * size + size;
  }

  lemma DivisionBelow(v: nat, size: nat, n: nat)
    requires size > 0 && v < n * size
    ensures v / size < n
  {
    DivisionBlock(v, size);
    if v / size >= n {
      MulMonotonic(n, v / size, size);
    }
  }

  /** The block holding an offset is unique. */
  lemma BlockUnique(v: int, size: nat, a: nat, b: nat)
    requires InBlock(v, size, a) && InBlock(v, size, b)
    ensures a == b
  {
    if a < b {
      MulMonotonic(a + 1, b, size);
    } else if b < a {
      MulMonotonic(b + 1, a, size);
    }
  }

  /** `Grid::new`: as many whole tiles as fit in `width` by `height`, all of
      them unvisited `Normal`, and no start or end. */
  function New(x: nat, y: nat, width: nat, height: nat, tileSize: nat): (g: Grid)
    requires tileSize > 0
    ensures Valid(g)
    ensures InBlock(width, tileSize, g.columns) && InBlock(height, tileSize, g.rows)
    ensures g.offsetX == x && g.offsetY == y && g.tileSize == tileSize
    ensures g.start == None && g.goal == None
    ensures forall c | InBounds(g, c) :: TileAt(g, c) == Normal(false)
  {
    DivisionBlock(width, tileSize);
    DivisionBlock(height, tileSize);
    var columns := width / tileSize;
    var rows := height / tileSize;
    Grid(columns, rows, tileSize, x, y, BlankTiles(columns, rows), None, None)
  }

  /** The number of tiles held, counted row vector by row vector. */
  function TileCount(tiles: seq<seq<Tile>>): nat {
    if |tiles| == 0 then 0 else |tiles[0]| + TileCount(tiles[1..])
  }

  lemma {:induction false} TileCountUniform(tiles: seq<seq<Tile>>, width: nat)
    requires forall i | 0 <= i < |tiles| :: |tiles[i]| == width
    ensures TileCount(tiles) == |tiles| * width
  {
    if |tiles| > 0 {
      TileCountUniform(tiles[1..], width);
      assert |tiles| * width == width + (|tiles| - 1) * width;
    }
  }

  /** A valid grid holds exactly `columns * rows` tiles. */
  lemma TileCountOfValid(g: Grid)
    requires Valid(g)
    ensures TileCount(g.tiles) == g.columns * g.rows
  {
    TileCountUniform(g.tiles, g.rows);
  }

  /** Writes `t` at an in-bounds cell and nothing else. */
  function SetTile(g: Grid, c: Coord, t: Tile): (r: Grid)
    requires Valid(g) && InBounds(g, c)
    ensures Valid(r) && SameExcept(g, r, {c})
    ensures TileAt(r, c) == t
  {
    g.(tiles := g.tiles[c.x := g.tiles[c.x][c.y := t]])
  }

  /** The marking rule shared by visited and process marking: out-of-bounds
      cells and Start/End tiles are left alone, any other tile becomes `t`. */
  function MarkUnlessEndpoint(g: Grid, c: Coord, t: Tile): (r: Grid)
    requires Valid(g)
    ensures Valid(r) && SameExcept(g, r, {c}) && EndpointsKept(g, r)
    ensures !InBounds(g, c) ==> r == g
    ensures InBounds(g, c) && IsEndpoint(TileAt(g, c)) ==> r == g
    ensures InBounds(g, c) && !IsEndpoint(TileAt(g, c)) ==> TileAt(r, c) == t
  {
    if !InBounds(g, c) then g
    else if IsEndpoint(TileAt(g, c)) then g
    else SetTile(g, c, t)
  }

  /** `mark_visited`: a bounds-guarded write of `Normal{was_visited: true}`
      that never overwrites Start or End. */
  function MarkVisited(g: Grid, c: Coord): (r: Grid)
    requires Valid(g)
    ensures Valid(r) && SameExcept(g, r, {c}) && EndpointsKept(g, r)
    ensures !InBounds(g, c) ==> r == g
    ensures InBounds(g, c) && IsEndpoint(TileAt(g, c)) ==> TileAt(r, c) == TileAt(g, c)
    ensures InBounds(g, c) && !IsEndpoint(TileAt(g, c)) ==> TileAt(r, c) == Normal(true)
  {
    MarkUnlessEndpoint(g, c, Normal(true))
  }

  /** `mark_process`: the same guarded write with the `Process` tile. */
  function MarkProcess(g: Grid, c: Coord): (r: Grid)
    requires Valid(g)
    ensures Valid(r) && SameExcept(g, r, {c}) && EndpointsKept(g, r)
    ensures !InBounds(g, c) ==> r == g
    ensures InBounds(g, c) && IsEndpoint(TileAt(g, c)) ==> TileAt(r, c) == TileAt(g, c)
    ensures InBounds(g, c) && !IsEndpoint(TileAt(g, c)) ==> TileAt(r, c) == Process
  {
    MarkUnlessEndpoint(g, c, Process)
  }

  /** `set_trace_back_path`: an unconditional write of `Path`, over Start and
      End too. It indexes without a bounds check, hence the requirement. */
  function MarkPath(g: Grid, c: Coord): (r: Grid)
    requires Valid(g) && InBounds(g, c)
    ensures Valid(r) && SameExcept(g, r, {c})
    ensures TileAt(r, c) == Path
  {
    SetTile(g, c, Path)
  }

  /** Marks every cell of `cells` as `Path`, in order; `None` is the index
      panic of the first out-of-bounds cell. */
  function MarkPathAll(g: Grid, cells: seq<Coord>): (r: Option<Grid>)
    requires Valid(g)
    ensures r.Some? <==> forall i | 0 <= i < |cells| :: InBounds(g, cells[i])
    ensures r.Some? ==> Valid(r.value) && SameExcept(g, r.value, set c | c in cells)
    ensures r.Some? ==> forall i | 0 <= i < |cells| :: TileAt(r.value, cells[i]) == Path
    decreases |cells|
  {
    if |cells| == 0 then Some(g)
    else if !InBounds(g, cells[0]) then None
    else
      var rest := MarkPathAll(MarkPath(g, cells[0]), cells[1..]);
      assert forall i | 1 <= i < |cells| :: cells[i] == cells[1..][i - 1];
      rest
  }

  /** `is_obstacle`; it indexes without a bounds check, hence the
      requirement. */
  predicate IsObstacle(g: Grid, c: Coord)
    requires Valid(g) && InBounds(g, c)
  {
    TileAt(g, c) == Obstacle
  }

  /** The pixel rectangle covered by the grid. */
  predicate InRect(g: Grid, px: int, py: int) {
    && g.offsetX <= px < g.offsetX + g.columns * g.tileSize
    && g.offsetY <= py < g.offsetY + g.rows * g.tileSize
  }

  /** The pixel lies on the square of cell `c`. */
  predicate Covers(g: Grid, c: Coord, px: int, py: int) {
    InBlock(px - g.offsetX, g.tileSize, c.x) && InBlock(py - g.offsetY, g.tileSize, c.y)
  }

  /** The block of width `size` holding offset `v`, among the first `n`. */
  function BlockOf(v: nat, size: nat, n: nat): (a: nat)
    requires size > 0 && v < n * size
    ensures a < n && InBlock(v, size, a)
    ensures forall b: nat | InBlock(v, size, b) :: b == a
  {
    DivisionBlock(v, size);
    DivisionBelow(v, size, n);
    assert forall b: nat | InBlock(v, size, b) :: b == v / size by {
      forall b: nat | InBlock(v, size, b) ensures b == v / size {
        BlockUnique(v, size, b, v / size);
      }
    }
    v / size
  }

  /** The cell under an in-rectangle pixel: the unique cell covering it. */
  function CellAt(g: Grid, px: int, py: int): (c: Coord)
    requires Valid(g) && InRect(g, px, py)
    ensures InBounds(g, c) && Covers(g, c, px, py)
    ensures forall d | Covers(g, d, px, py) :: d == c
  {
    Coord(BlockOf(px - g.offsetX, g.tileSize, g.columns), BlockOf(py - g.offsetY, g.tileSize, g.rows))
  }

  /** `on_mouse_clicked`, with the mouse position given as whole pixels (the
      floor of the floating-point position, which selects the same cell and
      passes the same rectangle test). Outside the grid nothing changes;
      inside, the tile under the cursor becomes `t` whatever it was, and only
      a Start or End tile moves the recorded start or end. */
  function OnMouseClicked(g: Grid, px: int, py: int, t: Tile): (r: Grid)
    requires Valid(g)
    ensures Valid(r) && SameShape(g, r)
    ensures !InRect(g, px, py) ==> r == g
    ensures InRect(g, px, py) ==>
      && (forall c | InBounds(g, c) && Covers(g, c, px, py) :: TileAt(r, c) == t)
      && (forall c | InBounds(g, c) && !Covers(g, c, px, py) :: TileAt(r, c) == TileAt(g, c))
    ensures t == Start && InRect(g, px, py) ==> r.start.Some? && Covers(g, r.start.value, px, py)
    ensures t != Start || !InRect(g, px, py) ==> r.start == g.start
    ensures t == End && InRect(g, px, py) ==> r.goal.Some? && Covers(g, r.goal.value, px, py)
    ensures t != End || !InRect(g, px, py) ==> r.goal == g.goal
  {
    if InRect(g, px, py) then
      var c := CellAt(g, px, py);
      var designated := g.(start := if t == Start then Some(c) else g.start,
                           goal := if t == End then Some(c) else g.goal);
      SetTile(designated, c, t)
    else
      g
  }

  /** Restores every tile to unvisited `Normal` and clears start and end. */
  function Reset(g: Grid): (r: Grid)
    requires Valid(g)
    ensures Valid(r) && SameShape(g, r)
    ensures r.start == None && r.goal == None
    ensures forall c | InBounds(r, c) :: TileAt(r, c) == Normal(false)
  {
    g.(tiles := BlankTiles(g.columns, g.rows), start := None, goal := None)
  }

  /** The grid unit test: a 50x50 pixel grid of 10-pixel tiles holds 25
      tiles; marking (3, 3) visits it; clicks at (15.0, 15.3), (21.4, 36.3)
      and (41.4, 20.3) designate Start at (1, 1), End at (2, 3) and an
      Obstacle at (4, 2). */
  lemma GridCreationTest()
    ensures var g0 := New(0, 0, 50, 50, 10);
      && TileCount(g0.tiles) == 25
      && var g1 := MarkVisited(g0, Coord(3, 3));
      && TileAt(g1, Coord(3, 3)) == Normal(true)
      && var g2 := OnMouseClicked(g1, 15, 15, Start);
      && var g3 := OnMouseClicked(g2, 21, 36, End);
      && var g4 := OnMouseClicked(g3, 41, 20, Obstacle);
      && TileAt(g4, Coord(1, 1)) == Start && g4.start == Some(Coord(1, 1))
      && TileAt(g4, Coord(2, 3)) == End && g4.goal == Some(Coord(2, 3))
      && TileAt(g4, Coord(4, 2)) == Obstacle
  {
    var g0 := New(0, 0, 50, 50, 10);
    assert g0.columns == 5 && g0.rows == 5;
    TileCountOfValid(g0);
    var g1 := MarkVisited(g0, Coord(3, 3));
    var g2 := OnMouseClicked(g1, 15, 15, Start);
    assert Covers(g1, Coord(1, 1), 15, 15);
    var g3 := OnMouseClicked(g2, 21, 36, End);
    assert Covers(g2, Coord(2, 3), 21, 36);
    assert !Covers(g2, Coord(1, 1), 21, 36);
    var g4 := OnMouseClicked(g3, 41, 20, Obstacle);
    assert Covers(g3, Coord(4, 2), 41, 20);
    assert !Covers(g3, Coord(1, 1), 41, 20) && !Covers(g3, Coord(2, 3), 41, 20);
  }

  // The tile table exactly as `Grid::new` builds it: `rows` outer vectors of
  // `columns` tiles, although every access indexes it as `[x][y]` with x
  // below `columns`.

  function RowMajorTiles(columns: nat, rows: nat): (t: seq<seq<Tile>>)
    ensures |t| == rows
    ensures forall i | 0 <= i < rows :: |t[i]| == columns
  {
    seq(rows, _ => seq(columns, _ => Normal(false)))
  }

  /** `mark_visited` over the row-major table: the guard compares x with
      `columns` and y with `rows`, then indexes `[x][y]`; `None` is the
      index-out-of-range panic. */
  function MarkVisitedRowMajor(tiles: seq<seq<Tile>>, columns: nat, rows: nat, c: Coord): (r: Option<seq<seq<Tile>>>)
    ensures r.None? <==> c.x < columns && c.y < rows && !(c.x < |tiles| && c.y < |tiles[c.x]|)
  {
    if c.x >= columns || c.y >= rows then Some(tiles)
    else if c.x >= |tiles| || c.y >= |tiles[c.x]| then None
    else if IsEndpoint(tiles[c.x][c.y]) then Some(tiles)
    else Some(tiles[c.x := tiles[c.x][c.y := Normal(true)]])
  }

  /** On a 60x40 pixel grid of 10-pixel tiles (6 columns, 4 rows) the cell
      (5, 0) passes the bounds guard, yet the row-major table has only 4
      outer vectors: the write panics. The column-major grid marks it. */
  lemma RowMajorMarkVisitedPanics()
    ensures var g := New(0, 0, 60, 40, 10);
      && g.columns == 6 && g.rows == 4
      && MarkVisitedRowMajor(RowMajorTiles(g.columns, g.rows), g.columns, g.rows, Coord(5, 0)).None?
      && TileAt(MarkVisited(g, Coord(5, 0)), Coord(5, 0)) == Normal(true)
  {
    var g := New(0, 0, 60, 40, 10);
    assert g.columns == 6 && g.rows == 4;
  }

  /** On a square grid, the only shape the program ever builds, the row-major
      table is addressable at every cell the guard admits. */
  lemma RowMajorSquareIsSafe(n: nat, c: Coord)
    ensures MarkVisitedRowMajor(RowMajorTiles(n, n), n, n, c).Some?
  {
  }
}

=== FILE: map_types.dfy ===
/** The value types of the map: a cell coordinate and the state of one tile. */
module MapTypes {

  /** A cell of the grid. Both components are unsigned, x grows to the right
      and y grows downward. Equality is structural, so two coordinates are
      equal exactly when both components are, and coordinates serve as map
      and set keys. */
  datatype Coord = Coord(x: nat, y: nat)

  /** The six tile states. Only `Normal` carries data (whether a search has
      visited it); `Process` (queued for expansion) is a state of its own and
      not a kind of visited `Normal`. */
  datatype Tile =
    | Normal(wasVisited: bool)
    | Start
    | End
    | Obstacle
    | Path
    | Process

  /** The designated endpoints, which visited/process marking leaves alone. */
  predicate IsEndpoint(t: Tile) {
    t.Start? || t.End?
  }

  /** Manhattan distance between two cells. */
  function Manhattan(a: Coord, b: Coord): nat {
    (if a.x <= b.x then b.x - a.x else a.x - b.x) +
    (if a.y <= b.y then b.y - a.y else a.y - b.y)
  }

  /** Two cells are 4-adjacent when they differ by exactly one step along
      exactly one axis. */
  predicate Adjacent(a: Coord, b: Coord) {
    Manhattan(a, b) == 1
  }
}

=== FILE: pathfinder.dfy ===
/** The predecessor map built during a search and the walk that turns it
    into a path: from the goal, follow recorded predecessors until a cell
    whose predecessor is "none" (the start). The walk is listed goal first,
    start last. */
module Pathfinding {
  import opened Wrappers
  import opened MapTypes
  import opened SearchCommon

  /** Cell to predecessor; `None` only for the cell a search started from. */
  type Links = map<Coord, Option<Coord>>

  /** `path` follows `links`: every cell is recorded, each cell's predecessor
      is the next cell, and the last cell has no predecessor. */
  ghost predicate IsChain(links: Links, path: seq<Coord>) {
    && |path| > 0
    && (forall i | 0 <= i < |path| :: path[i] in links)
    && (forall i | 0 <= i < |path| - 1 :: links[path[i]] == Some(path[i + 1]))
    && links[path[|path| - 1]] == None
  }

  /** The predecessor walk from `c`, allowed `fuel` cells. A cell with no
      entry is the broken chain the source aborts on; running out of fuel
      stands for a walk that cycles, which the source would never leave. */
  function Walk(links: Links, c: Coord, fuel: nat): (r: Result<seq<Coord>, Fault>)
    ensures r.Success? ==> IsChain(links, r.value) && r.value[0] == c && |r.value| <= fuel
    ensures r.Failure? ==> r.error == BrokenChain || r.error == EndlessChain
    decreases fuel
  {
    if fuel == 0 then Failure(EndlessChain)
    else if c !in links then Failure(BrokenChain)
    else
      match links[c]
      case None => Success([c])
      case Some(p) =>
        match Walk(links, p, fuel - 1)
        case Success(rest) => Success([c] + rest)
        case Failure(e) => Failure(e)
  }

  /** The reconstruction from `goal`. A walk that never revisits a cell
      visits at most `|links|` cells, so this is enough fuel. */
  function Trace(links: Links, goal: Coord): (r: Result<seq<Coord>, Fault>)
    ensures r.Success? ==> IsChain(links, r.value) && r.value[0] == goal
  {
    Walk(links, goal, |links|)
  }

  /** Every predecessor is itself recorded. */
  ghost predicate Closed(links: Links) {
    forall k | k in links && links[k].Some? :: links[k].value in links
  }

  /** Predecessors rank strictly lower than their successors. */
  ghost predicate RankedBy(links: Links, rank: Coord -> int) {
    forall k | k in links && links[k].Some? :: rank(links[k].value) < rank(k)
  }

  ghost function Below(links: Links, rank: Coord -> int, c: Coord): set<Coord> {
    set k | k in links && rank(k) <= rank(c)
  }

  lemma {:induction false} WalkSucceeds(links: Links, rank: Coord -> int, c: Coord, fuel: nat)
    requires Closed(links) && RankedBy(links, rank) && c in links
    requires |Below(links, rank, c)| <= fuel
    ensures Walk(links, c, fuel).Success?
    decreases fuel
  {
    assert c in Below(links, rank, c);
    match links[c]
    case None =>
    case Some(p) =>
      assert Below(links, rank, p) < Below(links, rank, c) by {
        assert c !in Below(links, rank, p);
      }
      SubsetCardinality(Below(links, rank, p), Below(links, rank, c));
      WalkSucceeds(links, rank, p, fuel - 1);
  }

  /** With every predecessor recorded and ranked below its successor, the
      walk neither breaks nor cycles. */
  lemma TraceSucceeds(links: Links, rank: Coord -> int, goal: Coord)
    requires Closed(links) && RankedBy(links, rank) && goal in links
    ensures Trace(links, goal).Success?
  {
    assert Below(links, rank, goal) <= links.Keys;
    SubsetCardinality(Below(links, rank, goal), links.Keys);
    assert |links.Keys| == |links|;
    WalkSucceeds(links, rank, goal, |links|);
  }

  /** The predecessor map and the path rebuilt from it. */
  datatype Pathfinder = Pathfinder(links: Links, path: seq<Coord>)

  const EmptyPathfinder := Pathfinder(map[], [])

  /** `add_to_path`: records (or re-records) the predecessor of `c`. */
  function AddToPath(pf: Pathfinder, c: Coord, pred: Option<Coord>): (r: Pathfinder)
    ensures r.links.Keys == pf.links.Keys + {c} && r.links[c] == pred
    ensures forall k | k in pf.links && k != c :: r.links[k] == pf.links[k]
    ensures r.path == pf.path
  {
    pf.(links := pf.links[c := pred])
  }

  /** `reconstruct_path`: replaces the path with the walk from `goal`. */
  function ReconstructPath(pf: Pathfinder, goal: Coord): (r: Result<Pathfinder, Fault>)
    ensures r.Success? ==> r.value.links == pf.links && IsChain(pf.links, r.value.path) && r.value.path[0] == goal
    ensures r.Failure? <==> Trace(pf.links, goal).Failure?
  {
    match Trace(pf.links, goal)
    case Success(p) => Success(pf.(path := p))
    case Failure(e) => Failure(e)
  }
}

=== FILE: priority_queue.dfy ===
/** The keyed double-ended priority queue the cost-aware variants use as
    their frontier: each cell appears at most once with one priority,
    pushing a cell that is already queued replaces its priority, and
    `pop_min` removes an entry of minimum priority. Among equal minima the
    entry queued earliest is taken; nothing in the model relies on that
    choice, only on minimality. */
module PriorityQueues {
  import opened Wrappers
  import opened MapTypes

  datatype Entry = Entry(cell: Coord, priority: int)

  type Frontier = seq<Entry>

  function Keys(f: Frontier): set<Coord> {
    set e | e in f :: e.cell
  }

  predicate DistinctKeys(f: Frontier) {
    forall i, j | 0 <= i < j < |f| :: f[i].cell != f[j].cell
  }

  /** The position of the first entry for `c`. */
  function IndexOf(f: Frontier, c: Coord): (i: nat)
    requires c in Keys(f)
    ensures i < |f| && f[i].cell == c
    ensures forall j | 0 <= j < i :: f[j].cell != c
  {
    if f[0].cell == c then 0
    else
      assert c in Keys(f[1..]) by {
        var e :| e in f && e.cell == c;
        assert e in f[1..];
      }
      1 + IndexOf(f[1..], c)
  }

  function PriorityOf(f: Frontier, c: Coord): int
    requires c in Keys(f)
  {
    f[IndexOf(f, c)].priority
  }

  /** Changing the priority of the queued cell `c` in place keeps every
      cell where it was and every other priority. */
  lemma ReprioritiseFacts(f: Frontier, c: Coord, p: int)
    requires c in Keys(f)
    ensures var r := f[IndexOf(f, c) := Entry(c, p)];
      && Keys(r) == Keys(f)
      && (forall j | 0 <= j < |f| :: r[j].cell == f[j].cell)
      && PriorityOf(r, c) == p
      && (forall k | k in Keys(f) && k != c :: PriorityOf(r, k) == PriorityOf(f, k))
  {
    var r := f[IndexOf(f, c) := Entry(c, p)];
    assert Keys(r) == Keys(f) by {
      forall k | k in Keys(r) ensures k in Keys(f) {
        var e :| e in r && e.cell == k;
        var j :| 0 <= j < |r| && r[j] == e;
        assert f[j] in f;
      }
      forall k | k in Keys(f) ensures k in Keys(r) {
        var e :| e in f && e.cell == k;
        var j :| 0 <= j < |f| && f[j] == e;
        assert r[j] in r;
      }
    }
  }

  /** Queueing a new cell at the back adds it and keeps every other
      priority. */
  lemma EnqueueFacts(f: Frontier, c: Coord, p: int)
    requires c !in Keys(f)
    ensures var r := f + [Entry(c, p)];
      && Keys(r) == Keys(f) + {c}
      && PriorityOf(r, c) == p
      && (forall k | k in Keys(f) :: PriorityOf(r, k) == PriorityOf(f, k))
  {
    var r := f + [Entry(c, p)];
    KeysSnoc(f, Entry(c, p));
    forall k | k in Keys(f) ensures IndexOf(r, k) == IndexOf(f, k) {
      var i := IndexOf(f, k);
      assert r[i].cell == k;
    }
    assert r[|f|] == Entry(c, p);
    assert forall j | 0 <= j < |f| :: r[j] == f[j];
  }

  /** `push`: queues `c` with priority `p`, or re-prioritises it when it is
      already queued. Nothing else changes. */
  function Push(f: Frontier, c: Coord, p: int): (r: Frontier)
    ensures Keys(r) == Keys(f) + {c}
    ensures PriorityOf(r, c) == p
    ensures forall k | k in Keys(f) && k != c :: PriorityOf(r, k) == PriorityOf(f, k)
    ensures |r| == if c in Keys(f) then |f| else |f| + 1
    ensures DistinctKeys(f) ==> DistinctKeys(r)
  {
    if c in Keys(f) then
      ReprioritiseFacts(f, c, p);
      f[IndexOf(f, c) := Entry(c, p)]
    else
      EnqueueFacts(f, c, p);
      assert forall j | 0 <= j < |f| :: f[j].cell in Keys(f);
      f + [Entry(c, p)]
  }

  /** The position of the first entry of minimum priority. */
  function MinIndex(f: Frontier): (i: nat)
    requires |f| > 0
    ensures i < |f|
    ensures forall j | 0 <= j < |f| :: f[i].priority <= f[j].priority
  {
    if |f| == 1 then 0
    else
      var k := 1 + MinIndex(f[1..]);
      assert forall j | 1 <= j < |f| :: f[j] == f[1..][j - 1];
      if f[0].priority <= f[k].priority then 0 else k
  }

  /** The queue without its entry at position `i`. */
  function RemoveAt(f: Frontier, i: nat): (rest: Frontier)
    requires i < |f|
    ensures |rest| == |f| - 1
    ensures forall j | 0 <= j < |rest| :: rest[j] == if j < i then f[j] else f[j + 1]
    ensures multiset(rest) + multiset{f[i]} == multiset(f)
  {
    assert f == f[..i] + [f[i]] + f[i + 1..];
    f[..i] + f[i + 1..]
  }

  lemma RemoveAtKeys(f: Frontier, i: nat)
    requires i < |f|
    ensures Keys(RemoveAt(f, i)) <= Keys(f)
    ensures DistinctKeys(f) ==> DistinctKeys(RemoveAt(f, i))
    ensures DistinctKeys(f) ==> Keys(RemoveAt(f, i)) == Keys(f) - {f[i].cell}
  {
    var rest := RemoveAt(f, i);
    forall k | k in Keys(rest) ensures k in Keys(f) {
      var e :| e in rest && e.cell == k;
      var j :| 0 <= j < |rest| && rest[j] == e;
      assert (if j < i then f[j] else f[j + 1]) in f;
    }
    if DistinctKeys(f) {
      forall k | k in Keys(f) - {f[i].cell} ensures k in Keys(rest) {
        var e :| e in f && e.cell == k;
        var j :| 0 <= j < |f| && f[j] == e;
        assert j != i;
        assert rest[if j < i then j else j - 1] == e;
      }
      forall k | k in Keys(rest) ensures k != f[i].cell {
        var e :| e in rest && e.cell == k;
        var j :| 0 <= j < |rest| && rest[j] == e;
      }
    }
  }

  /** `pop_min`: `None` exactly on an empty queue; otherwise an entry of
      minimum priority and the queue without it. */
  function PopMin(f: Frontier): (r: Option<(Entry, Frontier)>)
    ensures r.None? <==> |f| == 0
    ensures r.Some? ==>
      && r.value.0 in f
      && (forall e | e in f :: r.value.0.priority <= e.priority)
      && |r.value.1| == |f| - 1
      && multiset(r.value.1) + multiset{r.value.0} == multiset(f)
      && Keys(r.value.1) <= Keys(f)
      && (DistinctKeys(f) ==> DistinctKeys(r.value.1) && Keys(r.value.1) == Keys(f) - {r.value.0.cell})
  {
    if |f| == 0 then None
    else
      var i := MinIndex(f);
      RemoveAtKeys(f, i);
      Some((f[i], RemoveAt(f, i)))
  }

  /** With distinct keys, an entry's priority is the priority of its cell. */
  lemma EntryPriority(f: Frontier, j: nat)
    requires DistinctKeys(f) && j < |f|
    ensures f[j].cell in Keys(f) && IndexOf(f, f[j].cell) == j
    ensures PriorityOf(f, f[j].cell) == f[j].priority
  {
    assert f[j] in f;
  }

  /** `pop_min` on a queue with distinct keys returns the priority recorded
      for its cell, and every cell left behind keeps its priority. */
  lemma PopMinPriorities(f: Frontier)
    requires DistinctKeys(f) && |f| > 0
    ensures var e := PopMin(f).value.0;
      e.cell in Keys(f) && PriorityOf(f, e.cell) == e.priority
    ensures var rest := PopMin(f).value.1;
      forall k | k in Keys(rest) :: k in Keys(f) && PriorityOf(rest, k) == PriorityOf(f, k)
  {
    var i := MinIndex(f);
    var rest := RemoveAt(f, i);
    RemoveAtKeys(f, i);
    EntryPriority(f, i);
    forall k | k in Keys(rest) ensures k in Keys(f) && PriorityOf(rest, k) == PriorityOf(f, k) {
      var j := IndexOf(rest, k);
      var j' := if j < i then j else j + 1;
      assert rest[j] == f[j'];
      EntryPriority(f, j');
    }
  }

  /** Appending an entry adds its cell to the queued cells. */
  lemma KeysSnoc(f: Frontier, e: Entry)
    ensures Keys(f + [e]) == Keys(f) + {e.cell}
  {
    forall k | k in Keys(f + [e]) ensures k in Keys(f) + {e.cell} {
      var x :| x in f + [e] && x.cell == k;
      if x != e {
        assert x in f;
      }
    }
    forall k | k in Keys(f) ensures k in Keys(f + [e]) {
      var x :| x in f && x.cell == k;
      assert x in f + [e];
    }
    assert e in f + [e];
  }

  /** With distinct keys, the queue has one entry per queued cell. */
  lemma {:induction false} DistinctKeysCard(f: Frontier)
    requires DistinctKeys(f)
    ensures |Keys(f)| == |f|
  {
    if |f| > 0 {
      var init := f[..|f| - 1];
      var last := f[|f| - 1];
      assert f == init + [last];
      assert DistinctKeys(init);
      DistinctKeysCard(init);
      KeysSnoc(init, last);
      assert last.cell !in Keys(init) by {
        forall e | e in init ensures e.cell != last.cell {
          var j :| 0 <= j < |init| && init[j] == e;
          assert f[j] == e;
        }
      }
    }
  }
}

=== FILE: relaxation.dfy ===
/** The cost-table bookkeeping Dijkstra and A* share: a frontier, the best
    known cost of every discovered cell, and its predecessor. Expanding a
    cell relaxes each neighbour in turn: a neighbour is updated only when it
    is unseen or the route through the current cell is strictly cheaper.
    The two variants differ only in the priority pushed. */
module Relaxation {
  import opened Wrappers
  import opened MapTypes
  import opened Grids
  import opened SearchCommon
  import opened PriorityQueues
  import opened Pathfinding

  /** Dijkstra orders by cost so far; A* adds the heuristic term. */
  datatype Ordering = ByCost | ByCostPlusHeuristic

  /** The priority of a neighbour reached from `cur` at `newCost`. A* as
      written estimates from the current cell to the neighbour. */
  function Key(ord: Ordering, m: Metric, cur: Coord, n: Coord, newCost: int): int {
    match ord
    case ByCost => newCost
    case ByCostPlusHeuristic => newCost + m.heuristic(cur, n)
  }

  /** Frontier, `cost_so_far` and the predecessor map. */
  datatype Tables = Tables(frontier: Frontier, cost: map<Coord, int>, links: Links)

  const EmptyTables := Tables([], map[], map[])

  /** The seed of a run: `start` queued at priority 0, at cost 0, without a
      predecessor. */
  function Seed(t: Tables, start: Coord): (r: Tables)
    ensures start in Keys(r.frontier) && PriorityOf(r.frontier, start) == 0
    ensures r.cost == t.cost[start := 0] && r.links == t.links[start := None]
  {
    Tables(Push(t.frontier, start, 0), t.cost[start := 0], t.links[start := None])
  }

  /** One pass of the loop body for neighbour `n`; the flag says whether `n`
      was updated. */
  function RelaxOne(t: Tables, g: Grid, m: Metric, ord: Ordering, cur: Coord, n: Coord): (r: (Tables, Grid, bool))
    requires Valid(g) && cur in t.cost
    ensures Valid(r.1) && SameExcept(g, r.1, {n}) && EndpointsKept(g, r.1)
    ensures r.2 <==> n !in t.cost || t.cost[cur] + m.cost(cur, n) < t.cost[n]
    ensures !r.2 ==> r.0 == t && r.1 == g
    ensures r.2 ==> r.0.cost == t.cost[n := t.cost[cur] + m.cost(cur, n)]
    ensures r.2 ==> r.0.links == t.links[n := Some(cur)]
    ensures r.2 ==> r.0.frontier == Push(t.frontier, n, Key(ord, m, cur, n, t.cost[cur] + m.cost(cur, n)))
    ensures r.2 ==> r.1 == MarkProcess(g, n)
  {
    var newCost := t.cost[cur] + m.cost(cur, n);
    if n !in t.cost || newCost < t.cost[n] then
      var t' := Tables(Push(t.frontier, n, Key(ord, m, cur, n, newCost)), t.cost[n := newCost], t.links[n := Some(cur)]);
      (t', MarkProcess(g, n), true)
    else
      (t, g, false)
  }

  /** The relaxation loop over the neighbours `ns` of `cur`; the third
      component lists the neighbours that were updated (and pushed), in
      order. Only the neighbours' tiles change. */
  function RelaxAll(t: Tables, g: Grid, m: Metric, ord: Ordering, cur: Coord, ns: seq<Coord>): (r: (Tables, Grid, seq<Coord>))
    requires Valid(g) && cur in t.cost && cur !in ns
    ensures Valid(r.1) && SameExcept(g, r.1, set n | n in ns) && EndpointsKept(g, r.1)
    ensures forall k | k in r.2 :: k in ns
    decreases |ns|
  {
    if |ns| == 0 then (t, g, [])
    else
      var one := RelaxOne(t, g, m, ord, cur, ns[0]);
      var rest := RelaxAll(one.0, one.1, m, ord, cur, ns[1..]);
      assert (set n | n in ns) == {ns[0]} + (set n | n in ns[1..]);
      (rest.0, rest.1, if one.2 then [ns[0]] + rest.2 else rest.2)
  }

  /** The relaxation loop records every neighbour and leaves the current
      cell's cost alone. */
  lemma {:induction false} RelaxAllCostKeys(t: Tables, g: Grid, m: Metric, ord: Ordering, cur: Coord, ns: seq<Coord>)
    requires Valid(g) && cur in t.cost && cur !in ns
    ensures RelaxAll(t, g, m, ord, cur, ns).0.cost.Keys == t.cost.Keys + (set n | n in ns)
    ensures RelaxAll(t, g, m, ord, cur, ns).0.cost[cur] == t.cost[cur]
    decreases |ns|
  {
    if |ns| > 0 {
      var one := RelaxOne(t, g, m, ord, cur, ns[0]);
      RelaxAllCostKeys(one.0, one.1, m, ord, cur, ns[1..]);
      assert (set n | n in ns) == {ns[0]} + (set n | n in ns[1..]);
    }
  }

  /** Costs never increase, and afterwards every edge out of `cur` is
      relaxed: no neighbour costs more than the route through `cur`. */
  lemma {:induction false} RelaxAllMonotone(t: Tables, g: Grid, m: Metric, ord: Ordering, cur: Coord, ns: seq<Coord>)
    requires Valid(g) && cur in t.cost && cur !in ns
    ensures (forall k | k in t.cost :: k in RelaxAll(t, g, m, ord, cur, ns).0.cost && RelaxAll(t, g, m, ord, cur, ns).0.cost[k] <= t.cost[k])
    ensures (forall n | n in ns :: n in RelaxAll(t, g, m, ord, cur, ns).0.cost && RelaxAll(t, g, m, ord, cur, ns).0.cost[n] <= t.cost[cur] + m.cost(cur, n))
    decreases |ns|
  {
    if |ns| > 0 {
      var one := RelaxOne(t, g, m, ord, cur, ns[0]);
      assert one.0.cost[cur] == t.cost[cur];
      RelaxAllMonotone(one.0, one.1, m, ord, cur, ns[1..]);
      assert forall n | n in ns :: n == ns[0] || n in ns[1..];
    }
  }

  /** Exactly the unseen or strictly improved neighbours are updated, each
      to its cost through `cur`; every other cost stays as it was. */
  lemma {:induction false} RelaxAllUpdated(t: Tables, g: Grid, m: Metric, ord: Ordering, cur: Coord, ns: seq<Coord>)
    requires Valid(g) && cur in t.cost && cur !in ns
    ensures (forall n | n in ns :: n in RelaxAll(t, g, m, ord, cur, ns).2 <==> n !in t.cost || t.cost[cur] + m.cost(cur, n) < t.cost[n])
    ensures (forall k | k in t.cost && k !in RelaxAll(t, g, m, ord, cur, ns).2 :: k in RelaxAll(t, g, m, ord, cur, ns).0.cost && RelaxAll(t, g, m, ord, cur, ns).0.cost[k] == t.cost[k])
    ensures (forall k | k in RelaxAll(t, g, m, ord, cur, ns).2 :: k in RelaxAll(t, g, m, ord, cur, ns).0.cost && RelaxAll(t, g, m, ord, cur, ns).0.cost[k] == t.cost[cur] + m.cost(cur, k))
    decreases |ns|
  {
    if |ns| > 0 {
      var one := RelaxOne(t, g, m, ord, cur, ns[0]);
      var rest := RelaxAll(one.0, one.1, m, ord, cur, ns[1..]);
      var r := RelaxAll(t, g, m, ord, cur, ns);
      assert r.0 == rest.0 && r.2 == if one.2 then [ns[0]] + rest.2 else rest.2;
      assert one.0.cost[cur] == t.cost[cur];
      RelaxAllUpdated(one.0, one.1, m, ord, cur, ns[1..]);
      RelaxAllMonotone(one.0, one.1, m, ord, cur, ns[1..]);
      assert forall n | n in ns :: n == ns[0] || n in ns[1..];
      if one.2 {
        assert ns[0] in r.2;
        assert ns[0] !in rest.2;
      }
    }
  }

  /** The relaxation loop adds a predecessor entry for exactly the updated
      neighbours. */
  lemma {:induction false} RelaxAllLinkKeys(t: Tables, g: Grid, m: Metric, ord: Ordering, cur: Coord, ns: seq<Coord>)
    requires Valid(g) && cur in t.cost && cur !in ns
    ensures forall k :: k in RelaxAll(t, g, m, ord, cur, ns).0.links <==> k in t.links || k in RelaxAll(t, g, m, ord, cur, ns).2
    decreases |ns|
  {
    if |ns| > 0 {
      var one := RelaxOne(t, g, m, ord, cur, ns[0]);
      var rest := RelaxAll(one.0, one.1, m, ord, cur, ns[1..]);
      RelaxAllLinkKeys(one.0, one.1, m, ord, cur, ns[1..]);
      var r := RelaxAll(t, g, m, ord, cur, ns);
      assert r.0 == rest.0 && r.2 == if one.2 then [ns[0]] + rest.2 else rest.2;
      forall k ensures k in r.0.links <==> k in t.links || k in r.2 {
        assert k in r.2 <==> k in rest.2 || (one.2 && k == ns[0]);
        assert k in one.0.links <==> k in t.links || (one.2 && k == ns[0]);
      }
    }
  }

  /** A predecessor entry of a neighbour the loop does not update stays as
      it was. */
  lemma {:induction false} RelaxAllLinksKept(t: Tables, g: Grid, m: Metric, ord: Ordering, cur: Coord, ns: seq<Coord>)
    requires Valid(g) && cur in t.cost && cur !in ns
    ensures forall k | k in RelaxAll(t, g, m, ord, cur, ns).0.links && k !in RelaxAll(t, g, m, ord, cur, ns).2 :: k in t.links && RelaxAll(t, g, m, ord, cur, ns).0.links[k] == t.links[k]
    decreases |ns|
  {
    if |ns| > 0 {
      var one := RelaxOne(t, g, m, ord, cur, ns[0]);
      var rest := RelaxAll(one.0, one.1, m, ord, cur, ns[1..]);
      RelaxAllLinksKept(one.0, one.1, m, ord, cur, ns[1..]);
      var r := RelaxAll(t, g, m, ord, cur, ns);
      assert r.0 == rest.0 && r.2 == if one.2 then [ns[0]] + rest.2 else rest.2;
    }
  }

  /** Every updated neighbour gets `cur` as its predecessor. */
  lemma {:induction false} RelaxAllLinksUpdated(t: Tables, g: Grid, m: Metric, ord: Ordering, cur: Coord, ns: seq<Coord>)
    requires Valid(g) && cur in t.cost && cur !in ns
    ensures forall k | k in RelaxAll(t, g, m, ord, cur, ns).2 ::
      k in RelaxAll(t, g, m, ord, cur, ns).0.links && RelaxAll(t, g, m, ord, cur, ns).0.links[k] == Some(cur)
    decreases |ns|
  {
    if |ns| > 0 {
      var one := RelaxOne(t, g, m, ord, cur, ns[0]);
      var rest := RelaxAll(one.0, one.1, m, ord, cur, ns[1..]);
      RelaxAllLinksUpdated(one.0, one.1, m, ord, cur, ns[1..]);
      var r := RelaxAll(t, g, m, ord, cur, ns);
      assert r.0 == rest.0 && r.2 == if one.2 then [ns[0]] + rest.2 else rest.2;
      forall k | k in r.2 ensures k in r.0.links && r.0.links[k] == Some(cur) {
        if k in rest.2 {
          assert k in rest.0.links && rest.0.links[k] == Some(cur);
        } else {
          assert one.2 && k == ns[0];
          assert k in one.0.links && one.0.links[k] == Some(cur);
          RelaxAllLinkKeys(one.0, one.1, m, ord, cur, ns[1..]);
          RelaxAllLinksKept(one.0, one.1, m, ord, cur, ns[1..]);
          assert k in rest.0.links;
        }
      }
    }
  }

  /** What the relaxation loop does to the predecessor map: an updated
      neighbour gets `cur` as predecessor; no other entry changes. */
  lemma RelaxAllLinks(t: Tables, g: Grid, m: Metric, ord: Ordering, cur: Coord, ns: seq<Coord>)
    requires Valid(g) && cur in t.cost && cur !in ns
    ensures var r := RelaxAll(t, g, m, ord, cur, ns);
      && r.0.links.Keys == t.links.Keys + (set n | n in r.2)
      && (forall k | k in r.0.links && k !in r.2 :: k in t.links && r.0.links[k] == t.links[k])
      && (forall k | k in r.2 :: r.0.links[k] == Some(cur))
  {
    var r := RelaxAll(t, g, m, ord, cur, ns);
    RelaxAllLinkKeys(t, g, m, ord, cur, ns);
    assert r.0.links.Keys == t.links.Keys + (set n | n in r.2);
    RelaxAllLinksKept(t, g, m, ord, cur, ns);
    RelaxAllLinksUpdated(t, g, m, ord, cur, ns);
  }

  /** Membership form of `RelaxAllFrontierKeys`. */
  lemma {:induction false} RelaxAllQueued(t: Tables, g: Grid, m: Metric, ord: Ordering, cur: Coord, ns: seq<Coord>)
    requires Valid(g) && cur in t.cost && cur !in ns
    ensures forall k :: k in Keys(RelaxAll(t, g, m, ord, cur, ns).0.frontier) <==>
      k in Keys(t.frontier) || k in RelaxAll(t, g, m, ord, cur, ns).2
    decreases |ns|
  {
    if |ns| > 0 {
      var one := RelaxOne(t, g, m, ord, cur, ns[0]);
      var rest := RelaxAll(one.0, one.1, m, ord, cur, ns[1..]);
      RelaxAllQueued(one.0, one.1, m, ord, cur, ns[1..]);
      var r := RelaxAll(t, g, m, ord, cur, ns);
      assert r.0 == rest.0 && r.2 == if one.2 then [ns[0]] + rest.2 else rest.2;
      forall k ensures k in Keys(r.0.frontier) <==> k in Keys(t.frontier) || k in r.2 {
        assert k in r.2 <==> k in rest.2 || (one.2 && k == ns[0]);
        assert k in Keys(one.0.frontier) <==> k in Keys(t.frontier) || (one.2 && k == ns[0]);
      }
    }
  }

  /** The relaxation loop (re-)queues exactly the updated neighbours. */
  lemma RelaxAllFrontierKeys(t: Tables, g: Grid, m: Metric, ord: Ordering, cur: Coord, ns: seq<Coord>)
    requires Valid(g) && cur in t.cost && cur !in ns
    ensures var r := RelaxAll(t, g, m, ord, cur, ns);
      Keys(r.0.frontier) == Keys(t.frontier) + (set n | n in r.2)
  {
    RelaxAllQueued(t, g, m, ord, cur, ns);
  }

  /** A queued cell the relaxation loop does not update stays queued at
      its priority. */
  lemma {:induction false} RelaxAllFrontierKept(t: Tables, g: Grid, m: Metric, ord: Ordering, cur: Coord, ns: seq<Coord>)
    requires Valid(g) && cur in t.cost && cur !in ns
    ensures forall k | k in Keys(t.frontier) && k !in RelaxAll(t, g, m, ord, cur, ns).2 ::
      && k in Keys(RelaxAll(t, g, m, ord, cur, ns).0.frontier)
      && PriorityOf(RelaxAll(t, g, m, ord, cur, ns).0.frontier, k) == PriorityOf(t.frontier, k)
    decreases |ns|
  {
    if |ns| > 0 {
      var one := RelaxOne(t, g, m, ord, cur, ns[0]);
      var rest := RelaxAll(one.0, one.1, m, ord, cur, ns[1..]);
      RelaxAllFrontierKept(one.0, one.1, m, ord, cur, ns[1..]);
      var r := RelaxAll(t, g, m, ord, cur, ns);
      assert r.0 == rest.0 && r.2 == if one.2 then [ns[0]] + rest.2 else rest.2;
    }
  }

  /** Each updated neighbour is queued with its key through `cur`. */
  lemma {:induction false} RelaxAllFrontier(t: Tables, g: Grid, m: Metric, ord: Ordering, cur: Coord, ns: seq<Coord>)
    requires Valid(g) && cur in t.cost && cur !in ns
    ensures forall k | k in RelaxAll(t, g, m, ord, cur, ns).2 ::
      && k in Keys(RelaxAll(t, g, m, ord, cur, ns).0.frontier)
      && PriorityOf(RelaxAll(t, g, m, ord, cur, ns).0.frontier, k) == Key(ord, m, cur, k, t.cost[cur] + m.cost(cur, k))
    decreases |ns|
  {
    if |ns| > 0 {
      var one := RelaxOne(t, g, m, ord, cur, ns[0]);
      var rest := RelaxAll(one.0, one.1, m, ord, cur, ns[1..]);
      RelaxAllFrontier(one.0, one.1, m, ord, cur, ns[1..]);
      var r := RelaxAll(t, g, m, ord, cur, ns);
      assert r.0 == rest.0 && r.2 == if one.2 then [ns[0]] + rest.2 else rest.2;
      assert one.0.cost[cur] == t.cost[cur];
      if one.2 {
        RelaxAllFrontierKept(one.0, one.1, m, ord, cur, ns[1..]);
        assert ns[0] in Keys(one.0.frontier);
      }
    }
  }

  /** Pushing never duplicates a queued cell. */
  lemma {:induction false} RelaxAllDistinct(t: Tables, g: Grid, m: Metric, ord: Ordering, cur: Coord, ns: seq<Coord>)
    requires Valid(g) && cur in t.cost && cur !in ns && DistinctKeys(t.frontier)
    ensures DistinctKeys(RelaxAll(t, g, m, ord, cur, ns).0.frontier)
    decreases |ns|
  {
    if |ns| > 0 {
      var one := RelaxOne(t, g, m, ord, cur, ns[0]);
      RelaxAllDistinct(one.0, one.1, m, ord, cur, ns[1..]);
    }
  }

  /** Every queued cell stays recorded, and the predecessor map keeps
      exactly the keys of the cost table. */
  lemma RelaxAllKeysAgree(t: Tables, g: Grid, m: Metric, ord: Ordering, cur: Coord, ns: seq<Coord>)
    requires Valid(g) && cur in t.cost && cur !in ns
    requires Keys(t.frontier) <= t.cost.Keys && t.links.Keys == t.cost.Keys
    ensures var r := RelaxAll(t, g, m, ord, cur, ns).0;
      Keys(r.frontier) <= r.cost.Keys && r.links.Keys == r.cost.Keys
  {
    var r := RelaxAll(t, g, m, ord, cur, ns);
    RelaxAllCostKeys(t, g, m, ord, cur, ns);
    RelaxAllUpdated(t, g, m, ord, cur, ns);
    RelaxAllLinkKeys(t, g, m, ord, cur, ns);
    RelaxAllQueued(t, g, m, ord, cur, ns);
    forall k ensures k in r.0.links <==> k in r.0.cost {
      if k in ns && k !in r.2 {
        assert k in t.cost;
      }
    }
  }

  /** The table invariant of a run from `start`:
      every queued cell has a cost and a predecessor entry; `start` costs 0
      and is the only cell without a predecessor; costs are non-negative and
      name cells of the grid; a predecessor is recorded, adjacent, and at
      least one step's cost cheaper. */
  ghost predicate CostInv(t: Tables, g: Grid, m: Metric, start: Coord) {
    && Keys(t.frontier) <= t.cost.Keys
    && t.links.Keys == t.cost.Keys
    && start in t.cost && t.cost[start] == 0 && t.links[start] == None
    && (forall k | k in t.cost :: t.cost[k] >= 0 && InBounds(g, k))
    && (forall k | k in t.links && t.links[k].None? :: k == start)
    && (forall k | k in t.links && t.links[k].Some? ::
          var p := t.links[k].value;
          p in t.cost && Adjacent(p, k) && t.cost[p] + m.cost(p, k) <= t.cost[k])
  }

  /** A seeded empty table satisfies the invariant. */
  lemma SeedEstablishesInv(g: Grid, m: Metric, start: Coord)
    requires Valid(g) && InBounds(g, start)
    ensures CostInv(Seed(EmptyTables, start), g, m, start)
  {
  }

  /** Relaxing in-bounds neighbours of a recorded cell keeps the invariant. */
  lemma RelaxAllPreservesInv(t: Tables, g: Grid, m: Metric, ord: Ordering, cur: Coord, ns: seq<Coord>, start: Coord)
    requires Valid(g) && PositiveCost(m) && CostInv(t, g, m, start) && cur in t.cost
    requires forall n | n in ns :: InBounds(g, n) && Adjacent(cur, n)
    ensures cur !in ns
    ensures CostInv(RelaxAll(t, g, m, ord, cur, ns).0, RelaxAll(t, g, m, ord, cur, ns).1, m, start)
  {
    var r := RelaxAll(t, g, m, ord, cur, ns);
    RelaxAllCostKeys(t, g, m, ord, cur, ns);
    RelaxAllMonotone(t, g, m, ord, cur, ns);
    RelaxAllUpdated(t, g, m, ord, cur, ns);
    RelaxAllLinks(t, g, m, ord, cur, ns);
    RelaxAllFrontierKeys(t, g, m, ord, cur, ns);
    var t' := r.0;
    assert t'.links.Keys == t'.cost.Keys;
    assert m.cost(cur, start) > 0;
    assert start !in r.2;
    forall k | k in t'.links && t'.links[k].Some?
      ensures var p := t'.links[k].value;
        p in t'.cost && Adjacent(p, k) && t'.cost[p] + m.cost(p, k) <= t'.cost[k]
    {
      if k !in r.2 {
        var p := t.links[k].value;
        assert t'.cost[p] <= t.cost[p];
      }
    }
    forall k | k in t'.cost
      ensures t'.cost[k] >= 0 && InBounds(r.1, k)
    {
      if k in r.2 {
        assert m.cost(cur, k) > 0;
      }
    }
  }

  /** Every cell a run has recorded is reached from `start`: the
      predecessor walk from it succeeds, goes from the cell back to `start`
      through adjacent in-bounds cells, and costs no more than the recorded
      cost. So the source's "coord does not exist" abort cannot happen. */
  lemma TraceFromRecorded(t: Tables, g: Grid, m: Metric, start: Coord, goal: Coord)
    requires Valid(g) && PositiveCost(m) && CostInv(t, g, m, start) && goal in t.cost
    ensures Trace(t.links, goal).Success?
    ensures var path := Trace(t.links, goal).value;
      && path[0] == goal && path[|path| - 1] == start
      && (forall i | 0 <= i < |path| :: InBounds(g, path[i]))
      && (forall i | 0 <= i < |path| - 1 :: Adjacent(path[i + 1], path[i]))
      && PathCost(m, path) <= t.cost[goal]
  {
    var rank := (k: Coord) => if k in t.cost then t.cost[k] else 0;
    forall k | k in t.links && t.links[k].Some?
      ensures rank(t.links[k].value) < rank(k)
    {
      assert m.cost(t.links[k].value, k) > 0;
    }
    TraceSucceeds(t.links, rank, goal);
    var path := Trace(t.links, goal).value;
    ChainCost(t, g, m, start, path);
  }

  /** The cost of walking `path` from its last cell to its first. */
  function PathCost(m: Metric, path: seq<Coord>): int {
    if |path| <= 1 then 0 else m.cost(path[1], path[0]) + PathCost(m, path[1..])
  }

  lemma {:induction false} ChainCost(t: Tables, g: Grid, m: Metric, start: Coord, path: seq<Coord>)
    requires CostInv(t, g, m, start) && IsChain(t.links, path)
    ensures PathCost(m, path) <= t.cost[path[0]] - t.cost[path[|path| - 1]]
    ensures path[|path| - 1] == start
    decreases |path|
  {
    if |path| > 1 {
      assert IsChain(t.links, path[1..]);
      ChainCost(t, g, m, start, path[1..]);
    }
  }
  // Progress of the cost-driven searches. A step that does not complete
  // the run records a new cell, strictly lowers some recorded cost, or
  // only pops, so (unrecorded cells, sum of costs, frontier length)
  // falls lexicographically; under `CostInv` all three are bounded
  // below by 0, so a run cannot step forever without completing.

  /** Every cell of a grid with the given extent, column by column. */
  function CellList(columns: nat, rows: nat): (cells: seq<Coord>)
    ensures forall c :: c in cells <==> c.x < columns && c.y < rows
  {
    if columns == 0 then []
    else
      var column := seq(rows, y requires 0 <= y < rows => Coord(columns - 1, y));
      assert forall c: Coord | c.x == columns - 1 && c.y < rows :: column[c.y] == c;
      CellList(columns - 1, rows) + column
  }

  /** The sum of the recorded costs of the listed cells. */
  function CostSum(cost: map<Coord, int>, cells: seq<Coord>): int {
    if |cells| == 0 then 0
    else (if cells[0] in cost then cost[cells[0]] else 0) + CostSum(cost, cells[1..])
  }

  lemma {:induction false} CostSumNonNegative(cost: map<Coord, int>, cells: seq<Coord>)
    requires forall c | c in cost :: cost[c] >= 0
    ensures CostSum(cost, cells) >= 0
  {
    if |cells| > 0 {
      CostSumNonNegative(cost, cells[1..]);
    }
  }

  /** Lowering recorded costs without recording new cells lowers the sum,
      strictly if one listed cell gets strictly cheaper. */
  lemma {:induction false} CostSumBelow(a: map<Coord, int>, b: map<Coord, int>, cells: seq<Coord>, k: Coord)
    requires a.Keys == b.Keys && forall c | c in a :: a[c] <= b[c]
    ensures CostSum(a, cells) <= CostSum(b, cells)
    ensures k in cells && k in a && a[k] < b[k] ==> CostSum(a, cells) < CostSum(b, cells)
  {
    if |cells| > 0 {
      CostSumBelow(a, b, cells[1..], k);
    }
  }

  /** The cells of the grid without a recorded cost. */
  function Unrecorded(t: Tables, g: Grid): nat {
    |AllCells(g.columns, g.rows) - t.cost.Keys|
  }

  /** The sum of the recorded costs over the grid. */
  function CostTotal(t: Tables, g: Grid): int {
    CostSum(t.cost, CellList(g.columns, g.rows))
  }

  /** `t'` is below `t` in the lexicographic order of unrecorded cells,
      sum of costs and frontier length. */
  predicate Descends(t': Tables, t: Tables, g: Grid) {
    || Unrecorded(t', g) < Unrecorded(t, g)
    || (Unrecorded(t', g) == Unrecorded(t, g) && CostTotal(t', g) < CostTotal(t, g))
    || (Unrecorded(t', g) == Unrecorded(t, g) && CostTotal(t', g) == CostTotal(t, g) && |t'.frontier| < |t.frontier|)
  }

  /** Under the table invariant the sum of costs is bounded below, so
      `Descends` is well-founded. */
  lemma CostTotalNonNegative(t: Tables, g: Grid, m: Metric, start: Coord)
    requires CostInv(t, g, m, start)
    ensures CostTotal(t, g) >= 0
  {
    CostSumNonNegative(t.cost, CellList(g.columns, g.rows));
  }

  /** A relaxation loop that updates nothing leaves the tables alone. */
  lemma {:induction false} RelaxAllUnchanged(t: Tables, g: Grid, m: Metric, ord: Ordering, cur: Coord, ns: seq<Coord>)
    requires Valid(g) && cur in t.cost && cur !in ns
    ensures |RelaxAll(t, g, m, ord, cur, ns).2| == 0 ==> RelaxAll(t, g, m, ord, cur, ns).0 == t
    decreases |ns|
  {
    if |ns| > 0 {
      var one := RelaxOne(t, g, m, ord, cur, ns[0]);
      RelaxAllUnchanged(one.0, one.1, m, ord, cur, ns[1..]);
    }
  }

  /** Recording more cells leaves fewer unrecorded, strictly fewer if `n`
      is newly recorded. */
  lemma FewerUnrecorded(all: set<Coord>, keys: set<Coord>, keys': set<Coord>, n: Coord)
    requires keys <= keys'
    ensures |all - keys'| <= |all - keys|
    ensures n in all && n !in keys && n in keys' ==> |all - keys'| < |all - keys|
  {
    SubsetCardinality(all - keys', all - keys);
    if n in all && n !in keys && n in keys' {
      assert n in (all - keys) && n !in (all - keys');
    }
  }

  /** A relaxation loop over recorded neighbours records no new cell, and
      if it updates one it strictly lowers the sum of costs. */
  lemma RelaxAllCheaper(t: Tables, g: Grid, m: Metric, ord: Ordering, cur: Coord, ns: seq<Coord>)
    requires Valid(g) && cur in t.cost && cur !in ns
    requires forall n | n in ns :: n in t.cost && InBounds(g, n)
    ensures RelaxAll(t, g, m, ord, cur, ns).0.cost.Keys == t.cost.Keys
    ensures |RelaxAll(t, g, m, ord, cur, ns).2| > 0 ==> CostTotal(RelaxAll(t, g, m, ord, cur, ns).0, g) < CostTotal(t, g)
  {
    var r := RelaxAll(t, g, m, ord, cur, ns);
    RelaxAllCostKeys(t, g, m, ord, cur, ns);
    if |r.2| > 0 {
      var k := r.2[0];
      RelaxAllMonotone(t, g, m, ord, cur, ns);
      RelaxAllUpdated(t, g, m, ord, cur, ns);
      assert k in ns && r.0.cost[k] < t.cost[k];
      assert forall c | c in r.0.cost :: c in t.cost && r.0.cost[c] <= t.cost[c];
      assert k in CellList(g.columns, g.rows);
      CostSumBelow(r.0.cost, t.cost, CellList(g.columns, g.rows), k);
    }
  }

  /** A relaxation loop that updates some neighbour records a new cell or
      strictly lowers the sum of costs, and never records fewer cells. */
  lemma RelaxAllDescends(t: Tables, g: Grid, m: Metric, ord: Ordering, cur: Coord, ns: seq<Coord>)
    requires Valid(g) && cur in t.cost && cur !in ns
    requires forall n | n in ns :: InBounds(g, n)
    ensures var r := RelaxAll(t, g, m, ord, cur, ns);
      && Unrecorded(r.0, g) <= Unrecorded(t, g)
      && (|r.2| > 0 ==>
            || Unrecorded(r.0, g) < Unrecorded(t, g)
            || (Unrecorded(r.0, g) == Unrecorded(t, g) && CostTotal(r.0, g) < CostTotal(t, g)))
  {
    var r := RelaxAll(t, g, m, ord, cur, ns);
    var all := AllCells(g.columns, g.rows);
    RelaxAllCostKeys(t, g, m, ord, cur, ns);
    if n :| n in ns && n !in t.cost {
      FewerUnrecorded(all, t.cost.Keys, r.0.cost.Keys, n);
    } else {
      RelaxAllCheaper(t, g, m, ord, cur, ns);
    }
  }

  /** A pop followed by the relaxation of the popped cell's neighbours
      descends from the tables before the pop: the relaxation records no
      fewer cells, and when it updates nothing it hands back the shorter
      frontier of the pop unchanged. */
  lemma PopRelaxDescends(t0: Tables, t: Tables, g: Grid, m: Metric, ord: Ordering, cur: Coord, ns: seq<Coord>)
    requires Valid(g) && cur in t.cost && cur !in ns
    requires forall n | n in ns :: InBounds(g, n)
    requires t.cost == t0.cost && |t.frontier| < |t0.frontier|
    ensures Descends(RelaxAll(t, g, m, ord, cur, ns).0, t0, g)
  {
    RelaxAllDescends(t, g, m, ord, cur, ns);
    RelaxAllUnchanged(t, g, m, ord, cur, ns);
  }
}

=== FILE: search_common.dfy ===
/** What the search variants share: the four move directions, the neighbour
    rule, the error and panic kinds, the step/completion bookkeeping, and the
    grid's cost and heuristic as uninterpreted integer functions. */
module SearchCommon {
  import opened Wrappers
  import opened MapTypes
  import opened Grids

  /** The coordinate system has its origin top-left, x growing right and y
      growing down. */
  datatype Direction = Up | Down | Left | Right

  /** The expansion order every variant relies on. */
  const Directions: seq<Direction> := [Up, Down, Left, Right]

  /** Position of a direction in `Directions`. */
  function Rank(d: Direction): (i: nat)
    ensures i < 4
  {
    match d
    case Up => 0
    case Down => 1
    case Left => 2
    case Right => 3
  }

  /** The move of a direction: exactly one axis changes, by exactly one, and
      Up is towards smaller y. */
  function Delta(d: Direction): (v: (int, int))
    ensures (v.0 == 0 && (v.1 == 1 || v.1 == -1)) || (v.1 == 0 && (v.0 == 1 || v.0 == -1))
    ensures d == Up <==> v.1 < 0
    ensures d == Down <==> v.1 > 0
    ensures d == Left <==> v.0 < 0
    ensures d == Right <==> v.0 > 0
  {
    match d
    case Up => (0, -1)
    case Down => (0, 1)
    case Left => (-1, 0)
    case Right => (1, 0)
  }

  /** The direction of a move from `a` to an adjacent `b`. */
  function DirectionTo(a: Coord, b: Coord): Direction {
    if b.y < a.y then Up
    else if b.y > a.y then Down
    else if b.x < a.x then Left
    else Right
  }

  /** The cell one move away in direction `d`, when it lies inside the grid;
      the bounds test is done on signed values, so moving off the top or left
      edge is also `None`. */
  function Candidate(g: Grid, c: Coord, d: Direction): (r: Option<Coord>)
    ensures r.Some? ==> InBounds(g, r.value) && Adjacent(c, r.value) && DirectionTo(c, r.value) == d
  {
    var x := c.x + Delta(d).0;
    var y := c.y + Delta(d).1;
    if x < 0 || x >= g.columns || y < 0 || y >= g.rows then None
    else Some(Coord(x, y))
  }

  /** Every in-bounds cell adjacent to `c` is the candidate of its own
      direction. */
  lemma CandidateComplete(g: Grid, c: Coord, n: Coord)
    requires InBounds(g, n) && Adjacent(c, n)
    ensures Candidate(g, c, DirectionTo(c, n)) == Some(n)
  {
  }

  /** An adjacent cell is the one step away in its own direction. */
  lemma AdjacentByDirection(a: Coord, b: Coord)
    requires Adjacent(a, b)
    ensures DirectionTo(a, b) == Up ==> b == Coord(a.x, a.y - 1)
    ensures DirectionTo(a, b) == Down ==> b == Coord(a.x, a.y + 1)
    ensures DirectionTo(a, b) == Left ==> b == Coord(a.x - 1, a.y)
    ensures DirectionTo(a, b) == Right ==> b == Coord(a.x + 1, a.y)
  {
  }

  predicate Increasing(dirs: seq<Direction>) {
    forall i, j | 0 <= i < j < |dirs| :: Rank(dirs[i]) < Rank(dirs[j])
  }

  /** The tail of an increasing sequence is increasing and ranks above its
      head. */
  lemma IncreasingTail(dirs: seq<Direction>)
    requires |dirs| > 0 && Increasing(dirs)
    ensures Increasing(dirs[1..])
    ensures forall d | d in dirs[1..] :: Rank(dirs[0]) < Rank(d)
  {
    forall d | d in dirs[1..] ensures Rank(dirs[0]) < Rank(d) {
      var j :| 0 <= j < |dirs[1..]| && dirs[1..][j] == d;
      assert dirs[j + 1] == d;
    }
  }

  /** The candidate in direction `d` when it is not an obstacle. */
  function Keep(g: Grid, c: Coord, d: Direction): (r: Option<Coord>)
    requires Valid(g)
    ensures r.Some? <==> Candidate(g, c, d).Some? && !IsObstacle(g, Candidate(g, c, d).value)
    ensures r.Some? ==> r.value == Candidate(g, c, d).value
  {
    match Candidate(g, c, d)
    case Some(n) => if IsObstacle(g, n) then None else Some(n)
    case None => None
  }

  lemma IncreasingDirections()
    ensures Increasing(Directions)
    ensures forall d: Direction :: d in Directions
  {
    forall d: Direction ensures d in Directions {
      match d
      case Up => assert Directions[0] == d;
      case Down => assert Directions[1] == d;
      case Left => assert Directions[2] == d;
      case Right => assert Directions[3] == d;
    }
  }

  /** The candidates of `dirs`, in that order, that are not obstacles. */
  function Filter(g: Grid, c: Coord, dirs: seq<Direction>): (r: seq<Coord>)
    requires Valid(g)
    ensures |r| <= |dirs|
  {
    if |dirs| == 0 then []
    else
      var rest := Filter(g, c, dirs[1..]);
      var head := Keep(g, c, dirs[0]);
      if head.None? then rest else [head.value] + rest
  }

  /** Every kept cell is a free cell one move away, in one of `dirs`. */
  lemma {:induction false} FilterMembers(g: Grid, c: Coord, dirs: seq<Direction>)
    requires Valid(g)
    ensures forall n | n in Filter(g, c, dirs) ::
      InBounds(g, n) && !IsObstacle(g, n) && Adjacent(c, n) && DirectionTo(c, n) in dirs
  {
    if |dirs| > 0 {
      FilterMembers(g, c, dirs[1..]);
      assert forall d | d in dirs[1..] :: d in dirs;
    }
  }

  /** Every free candidate of `dirs` is kept. */
  lemma {:induction false} FilterComplete(g: Grid, c: Coord, dirs: seq<Direction>)
    requires Valid(g)
    ensures forall d | d in dirs && Candidate(g, c, d).Some? && !IsObstacle(g, Candidate(g, c, d).value) ::
      Candidate(g, c, d).value in Filter(g, c, dirs)
  {
    if |dirs| > 0 {
      FilterComplete(g, c, dirs[1..]);
      assert forall d | d in dirs :: d == dirs[0] || d in dirs[1..];
    }
  }

  /** The cells lie one per direction, in the order of `Directions`. */
  predicate InDirectionOrder(c: Coord, r: seq<Coord>) {
    forall i, j | 0 <= i < j < |r| :: Rank(DirectionTo(c, r[i])) < Rank(DirectionTo(c, r[j]))
  }

  /** A cell in a direction before all of an ordered list's directions can
      go in front of it. */
  lemma OrderCons(c: Coord, n: Coord, rest: seq<Coord>)
    requires InDirectionOrder(c, rest)
    requires forall m | m in rest :: Rank(DirectionTo(c, n)) < Rank(DirectionTo(c, m))
    ensures InDirectionOrder(c, [n] + rest)
  {
    var r := [n] + rest;
    forall i, j | 0 <= i < j < |r| ensures Rank(DirectionTo(c, r[i])) < Rank(DirectionTo(c, r[j])) {
      assert r[j] == rest[j - 1] && r[j] in rest;
      if i > 0 {
        assert r[i] == rest[i - 1];
      }
    }
  }

  /** Over increasing directions, every cell kept after the first direction
      lies in a later direction than the first. */
  lemma FilterRanksAbove(g: Grid, c: Coord, dirs: seq<Direction>)
    requires Valid(g) && |dirs| > 0 && Increasing(dirs)
    ensures forall n | n in Filter(g, c, dirs[1..]) :: Rank(dirs[0]) < Rank(DirectionTo(c, n))
  {
    IncreasingTail(dirs);
    FilterMembers(g, c, dirs[1..]);
  }

  /** Over increasing directions, the kept cells come in direction order. */
  lemma {:induction false} FilterOrdered(g: Grid, c: Coord, dirs: seq<Direction>)
    requires Valid(g) && Increasing(dirs)
    ensures InDirectionOrder(c, Filter(g, c, dirs))
  {
    if |dirs| > 0 {
      IncreasingTail(dirs);
      FilterOrdered(g, c, dirs[1..]);
      FilterRanksAbove(g, c, dirs);
      var rest := Filter(g, c, dirs[1..]);
      var head := Keep(g, c, dirs[0]);
      var r := Filter(g, c, dirs);
      if head.Some? {
        assert r == [head.value] + rest;
        OrderCons(c, head.value, rest);
      } else {
        assert r == rest;
      }
    }
  }

  /** Over all four directions, the kept cells are exactly the free cells
      one move away. */
  lemma FilterDirectionsExact(g: Grid, c: Coord)
    requires Valid(g)
    ensures forall n :: n in Filter(g, c, Directions) <==> InBounds(g, n) && !IsObstacle(g, n) && Adjacent(c, n)
  {
    IncreasingDirections();
    FilterMembers(g, c, Directions);
    FilterComplete(g, c, Directions);
    forall n | InBounds(g, n) && !IsObstacle(g, n) && Adjacent(c, n)
      ensures n in Filter(g, c, Directions)
    {
      CandidateComplete(g, c, n);
    }
  }

  /** `get_neighbors`: the in-bounds, non-obstacle cells one move away, in
      the order Up, Down, Left, Right. */
  function Neighbours(g: Grid, c: Coord): (r: seq<Coord>)
    requires Valid(g)
    ensures |r| <= 4
    ensures forall n :: n in r <==> InBounds(g, n) && !IsObstacle(g, n) && Adjacent(c, n)
    ensures forall i, j | 0 <= i < j < |r| :: Rank(DirectionTo(c, r[i])) < Rank(DirectionTo(c, r[j]))
    ensures forall i, j | 0 <= i < j < |r| :: r[i] != r[j]
  {
    IncreasingDirections();
    FilterOrdered(g, c, Directions);
    FilterDirectionsExact(g, c);
    Filter(g, c, Directions)
  }

  /** A neighbour is never the cell it was computed from. */
  lemma NeighbourIsOther(g: Grid, c: Coord, n: Coord)
    requires Valid(g) && n in Neighbours(g, c)
    ensures n != c
  {
  }

  /** `g` and `g'` have the same extent and the same obstacle cells. */
  ghost predicate SameObstacles(g: Grid, g': Grid)
    requires Valid(g) && Valid(g')
  {
    && g'.columns == g.columns && g'.rows == g.rows
    && forall c | InBounds(g, c) :: IsObstacle(g', c) == IsObstacle(g, c)
  }

  lemma SameObstaclesTrans(g: Grid, g1: Grid, g2: Grid)
    requires Valid(g) && Valid(g1) && Valid(g2)
    requires SameObstacles(g, g1) && SameObstacles(g1, g2)
    ensures SameObstacles(g, g2)
  {
    assert forall c | InBounds(g, c) :: InBounds(g1, c);
  }

  /** Marking tiles as visited, queued or path never adds or removes an
      obstacle, so the neighbour rule sees the same graph. */
  lemma {:induction false} FilterSameObstacles(g: Grid, g': Grid, c: Coord, dirs: seq<Direction>)
    requires Valid(g) && Valid(g') && g'.columns == g.columns && g'.rows == g.rows
    requires forall x | InBounds(g, x) && x != c :: IsObstacle(g', x) == IsObstacle(g, x)
    ensures Filter(g', c, dirs) == Filter(g, c, dirs)
  {
    if |dirs| > 0 {
      FilterSameObstacles(g, g', c, dirs[1..]);
    }
  }

  lemma NeighboursSameObstacles(g: Grid, g': Grid, c: Coord)
    requires Valid(g) && Valid(g') && SameObstacles(g, g')
    ensures Neighbours(g', c) == Neighbours(g, c)
  {
    FilterSameObstacles(g, g', c, Directions);
  }

  /** The neighbours of `c` do not depend on the tile of `c` itself, so
      marking the expanded cell leaves them alone. */
  lemma NeighboursIgnoreOwnTile(g: Grid, g': Grid, c: Coord)
    requires Valid(g) && Valid(g') && SameExcept(g, g', {c})
    ensures Neighbours(g', c) == Neighbours(g, c)
  {
    FilterSameObstacles(g, g', c, Directions);
  }

  /** A sequence of cells without repetitions. */
  predicate Distinct(s: seq<Coord>) {
    forall i, j | 0 <= i < j < |s| :: s[i] != s[j]
  }

  lemma {:induction false} DistinctCard(s: seq<Coord>)
    requires Distinct(s)
    ensures |set c | c in s| == |s|
  {
    if |s| > 0 {
      var t := s[..|s| - 1];
      assert Distinct(t);
      DistinctCard(t);
      assert (set c | c in s) == (set c | c in t) + {s[|s| - 1]};
      assert s[|s| - 1] !in (set c | c in t);
    }
  }

  lemma DistinctAppend(a: seq<Coord>, c: seq<Coord>)
    requires Distinct(a) && Distinct(c) && forall x | x in c :: x !in a
    ensures Distinct(a + c)
  {
    forall i, j | 0 <= i < j < |a + c| ensures (a + c)[i] != (a + c)[j] {
      if i >= |a| {
        assert (a + c)[i] == c[i - |a|] && (a + c)[j] == c[j - |a|];
      } else if j >= |a| {
        assert (a + c)[j] == c[j - |a|];
        assert (a + c)[j] in c;
      }
    }
  }

  /** Discovering `found` uses up exactly `|found|` undiscovered cells. */
  lemma DiscoveryUsesCells(all: set<Coord>, visited: seq<Coord>, found: seq<Coord>)
    requires Distinct(found) && forall n | n in found :: n in all && n !in visited
    ensures |all - set v | v in visited + found| == |all - set v | v in visited| - |found|
  {
    var seen := set v | v in visited;
    var foundSet := set v | v in found;
    DistinctCard(found);
    assert (set v | v in visited + found) == seen + foundSet;
    assert all - (seen + foundSet) == (all - seen) - foundSet;
    assert foundSet <= all - seen;
  }

  /** The position of the first occurrence of `c` in `s`. */
  function Position(s: seq<Coord>, c: Coord): (i: nat)
    requires c in s
    ensures i < |s| && s[i] == c
    ensures forall j | 0 <= j < i :: s[j] != c
  {
    if s[0] == c then 0 else 1 + Position(s[1..], c)
  }

  /** Appending keeps the positions of the cells already present and puts
      every new cell after them. */
  lemma PositionAppend(a: seq<Coord>, b: seq<Coord>, c: Coord)
    requires c in a + b
    ensures c in a ==> Position(a + b, c) == Position(a, c)
    ensures c !in a ==> Position(a + b, c) >= |a|
  {
    var i := Position(a + b, c);
    if c in a {
      var k := Position(a, c);
      assert (a + b)[k] == c;
      assert i < |a| ==> (a + b)[i] == a[i];
    }
  }

  lemma {:induction false} SubsetCardinality<T>(a: set<T>, b: set<T>)
    requires a <= b
    ensures |a| <= |b|
    ensures a < b ==> |a| < |b|
  {
    if a != {} {
      var x :| x in a;
      SubsetCardinality(a - {x}, b - {x});
    } else if a < b {
      var y :| y in b;
    }
  }

  /** The only error `start` reports. */
  datatype AlgorithmError = InvalidInputData

  /** The panics of the source (`unwrap`, `expect`, slice indexing) and the
      endless predecessor walk, as values. */
  datatype Fault =
    | MissingEndpoint  // `start_title`/`goal_title` unwrapped while unset
    | UnknownCost      // `cost_so_far[current]` unwrapped while absent
    | BrokenChain      // a predecessor lookup found no entry
    | EndlessChain     // the predecessor walk revisits a cell and never ends
    | OutOfRange       // a path tile written outside the grid

  /** Run, step and completion bookkeeping of the simulation coordinator. */
  datatype Coordinator = Coordinator(isProcessing: bool, hasCompleted: bool, steps: nat)

  const IdleCoordinator := Coordinator(false, false, 0)

  /** The grid's edge cost and heuristic estimate, uninterpreted. */
  datatype Metric = Metric(cost: (Coord, Coord) -> int, heuristic: (Coord, Coord) -> int)

  ghost predicate PositiveCost(m: Metric) {
    forall a, b :: m.cost(a, b) > 0
  }

  /** Unit step cost with the Manhattan distance as heuristic. */
  function UnitMetric(): (m: Metric)
    ensures PositiveCost(m)
    ensures forall a, b :: m.heuristic(a, b) == Manhattan(a, b)
  {
    Metric((a: Coord, b: Coord) => 1, (a: Coord, b: Coord) => Manhattan(a, b) as int)
  }

  /** What the statistics report counts. */
  datatype Statistics = Statistics(pathLength: nat, steps: nat, visitedNodes: nat)
}

=== FILE: wrappers.dfy ===
/** Failure-compatible wrappers used across the model: `Option` for values a
    Rust `Option` may hold, and `Result` for operations that either succeed or
    report an error (an `AlgorithmError`) or a panic (a `Fault`). */
module Wrappers {

  datatype Option<+T> = None | Some(value: T)

  datatype Result<+R, +E> = Success(value: R) | Failure(error: E) {
    predicate IsFailure() {
      Failure?
    }

    function PropagateFailure<U>(): Result<U, E>
      requires Failure?
    {
      Failure(error)
    }

    function Extract(): R
      requires Success?
    {
      value
    }
  }
}
